=== FILE: README.md ===
# rscc front end in Dafny

This project models the front end of rscc, a small C compiler written in
Rust. It covers four parts:

- **The tokenizer.** It turns source text into tokens that end in `End`.
- **The token cursor.** It provides the `consume_*` and `expect_*` helpers.
- **The recursive-descent parsers.** They cover expressions, statements and
  declaration specifiers. The root `parse` reads one statement.
- **The `NonEmptyVec` helper.**

Every part is modelled as pure functions over immutable datatypes:

- The tokenizer works on the remaining input string, which the source calls
  `head`.
- The parsers work on a cursor `ParseContext(tokens, pos)`. Each parser
  returns a `Parsed` value: its result, together with the cursor it left
  behind. The cursor is returned even on error, because the Rust code
  mutates the context in place and callers look at the cursor after a
  failure.

The modules follow the source files:

| module | source |
|---|---|
| `Tokenizer`, `TokenizerFacts` | `src/tokenizer.rs` |
| `Cursor` | `src/parser/util.rs` |
| `ExpressionParser`, `ExpressionFacts`, `ExpressionShapes` | `src/parser/expression.rs` |
| `StatementParser`, `StatementFacts` | `src/parser/statement.rs` |
| `DeclarationParser`, `DeclarationFacts` | `src/parser/declaration.rs` |
| `Util` | `src/util.rs` |
| `Parser` | `src/parser.rs` |
| `Prelude` | `Option` and `Result` |

Some quirks are real behaviour of the code, and the model keeps them and
proves them:

- Keywords are matched as plain prefixes. So `double` is the keyword `do`
  followed by the identifier `uble`.
- `consume_identifier` never moves the cursor. So a labelled statement
  always fails, and `goto x` leaves the cursor on `x`.
- `return` does not read its `;`.
- A call with arguments leaves its `)` unread.
- `declaration` always ends in a stub that fails.

The twelve binary levels of the expression parser are written once, as a
generic loop over a `Level`. `expression` and `assign` are two of these
levels. Each level has an operator table in source order.

`statement` and `declaration_specifier` try their recognisers in the order
of a constant table (`Forms`, `SpecifierForms`). This is the same
first-match-wins chain the Rust `if let … else if let …` spells out.

Two kinds of independent reference are used:

- **The expression printer.** `Render` writes a tree with every operand in
  brackets. The round-trip lemmas prove that parsing the printed form gives
  the tree back.
- **The statement and keyword tables.** `FormOf`, `StorageClassOf`,
  `TypeSpecifierKeyword` and `TypeQualifierKeyword` say which token leads
  to which result. Lemmas prove that each parser agrees with its table.

The Rust code panics in four ways: `assert!`, slicing out of range,
`usize` underflow, and `unwrap` of `None` (`chars.nth(0).unwrap()` on a
character literal whose head is just `'`).

- In the tokenizer a panic is the error `Panic`.
- In the parser, the `assert!` that the head is not empty becomes the
  precondition `Valid()`. It says that the tokens end in `End` and that the
  cursor is on one of them. Every `consume_*` preserves it.

## Model

| member | source | states |
|---|---|---|
| Tokenizer.ConsumeStr | src/tokenizer.rs:149-153 | dropping `count` characters leaves a suffix exactly `count` shorter, and the head is the dropped part followed by the rest |
| Tokenizer.SkipWhitespace | src/tokenizer.rs:155-164 | the rest is a suffix of the head, everything skipped is whitespace, and the rest does not start with whitespace |
| Tokenizer.ConsumeReserved | src/tokenizer.rs:166-173 | succeeds exactly when the head starts with `q`; then the head is `q` followed by the rest, otherwise nothing changes |
| Tokenizer.CountIdentifierLength | src/tokenizer.rs:175-198 | 0 exactly when the head is empty or does not start with a letter or `_`; otherwise the length of the longest identifier-shaped prefix |
| Tokenizer.ConsumeIdentifier | src/tokenizer.rs:200-209 | returns an identifier exactly when the counted length is positive; that identifier is that prefix of the head, and the rest follows it |
| Tokenizer.FirstReserved | src/tokenizer.rs:262-459 | finds the first entry of the priority list that the head starts with; no earlier entry matches, and `None` means no entry matches |
| Tokenizer.ConsumeAnyReserved | src/tokenizer.rs:262-459 | a reserved word is never `End` and always shortens the head |
| Tokenizer.ConsumeLiteral | src/tokenizer.rs:211-250 | a literal never lengthens the head, and a recognised literal shortens it |
| Tokenizer.NextToken | src/tokenizer.rs:262-467 | one loop iteration never yields `End` and always shortens the head |
| Tokenizer.Tokenize | src/tokenizer.rs:252-474 | the empty input gives exactly `[End]`, and every successful result ends in `End` |
| TokenizerFacts.EndOnlyLast | src/tokenizer.rs:255-472 | `End` appears only in the last position of a successful result |
| TokenizerFacts.PunctuatorsLongestFirst | src/tokenizer.rs:262-371 | in the punctuator list a longer spelling always comes before a shorter one |
| TokenizerFacts.PunctuatorMaximalMunch | src/tokenizer.rs:262-371 | the punctuator read is listed with the text it consumed, and no listed punctuator at the head is longer |
| TokenizerFacts.FirstReservedWins | src/tokenizer.rs:262-459 | when entry `k` is the first entry the head starts with, the iteration yields its token and drops its spelling |
| TokenizerFacts.WordIsIdentifier | src/tokenizer.rs:460-461 | when no reserved word matches and the identifier length is positive, the iteration yields exactly that identifier |
| TokenizerFacts.NoPunctuatorBeforeWordOrLiteral | src/tokenizer.rs:262-371 | no punctuator matches a head that does not start with a symbol character |
| TokenizerFacts.NoKeywordBeforeNonWord | src/tokenizer.rs:372-459 | no keyword matches a head that does not start with a letter or `_` |
| TokenizerFacts.NothingReservedBeforeLiteral | src/tokenizer.rs:262-459 | a head starting with a digit or a quote passes the whole reserved chain |
| TokenizerFacts.KeywordDoubleNeverProduced | src/tokenizer.rs:386-389 | the keyword `double` is never produced, because `do` is listed before it |
| TokenizerFacts.DoubleExample | src/tokenizer.rs:386-389 | `double` tokenizes to `Keyword(Do)`, `Identifier("uble")`, `End` |
| TokenizerFacts.IntegerExample | src/tokenizer.rs:404-407 | `integer` tokenizes to `Keyword(Int)`, `Identifier("eger")`, `End`: `int` matches as a prefix with no check that the word ends, after `inline` fails on its third letter |
| TokenizerFacts.LongestPunctuatorExample | src/tokenizer.rs:266-267 | `<<=` tokenizes to the single punctuator `DoubleLessThansEqual` |
| TokenizerFacts.DigraphExample | src/tokenizer.rs:262-263 | `%:%:` tokenizes to the single punctuator `DoublePercentColons` |
| TokenizerFacts.NumberToken | src/tokenizer.rs:232-247 | a digit run becomes `Number(n)` when its value fits in `i32`, and otherwise an invalid-token error |
| TokenizerFacts.CharToken | src/tokenizer.rs:227-231 | `'c'` gives the character literal `c` and drops three characters |
| TokenizerFacts.StringToken | src/tokenizer.rs:213-226 | the string branch keeps the characters from the second to the one before the closing-quote count, and panics when that count is below 2 |
| TokenizerFacts.DecimalValueBound | src/tokenizer.rs:240-241 | `n` decimal digits denote less than `10^n` |
| TokenizerFacts.ShortNumbersFit | src/tokenizer.rs:241-244 | a run of at most nine digits always fits in `i32` |
| TokenizerFacts.LeadingZeroIgnored | src/tokenizer.rs:240-241 | a leading zero does not change the value of a digit run |
| TokenizerFacts.WhitespaceOnlyHeadFails | src/tokenizer.rs:259-466 | the tokenizer loop fails on a non-empty head made only of whitespace, with an invalid-token error on the empty rest, because after skipping nothing matches |
| TokenizerFacts.EmptyHeadInvalid | src/tokenizer.rs:460-466 | an empty head after skipping whitespace matches no scanner |
| TokenizerFacts.LeadingWhitespaceIgnored | src/tokenizer.rs:255-260 | whitespace before the first token does not change the result |
| Cursor.NewContext | src/parser/util.rs:8-10 | the cursor starts on the first token and is valid exactly for a token list ending in `End` |
| Cursor.ConsumeToken | src/parser/util.rs:13-16 | the unread tokens lose exactly their first element |
| Cursor.ConsumePunctuator | src/parser/util.rs:18-27 | moves exactly one token when the current token is `Punctuator(k)`, and otherwise leaves the cursor unchanged |
| Cursor.ExpectPunctuator | src/parser/util.rs:29-32 | succeeds exactly when `consume_punctuator` would; on failure it names `k` and leaves the cursor unmoved |
| Cursor.ConsumeKeyword | src/parser/util.rs:34-43 | moves exactly one token when the current token is `Keyword(k)`, and otherwise leaves the cursor unchanged |
| Cursor.ExpectKeyword | src/parser/util.rs:45-47 | succeeds exactly when `consume_keyword` would; on failure it names `k` and leaves the cursor unmoved |
| Cursor.ConsumeIdentifier | src/parser/util.rs:49-56 | returns the identifier text exactly at an identifier, and never moves the cursor |
| Cursor.ExpectIdentifier | src/parser/util.rs:58-60 | succeeds exactly at an identifier, with its text, and never moves the cursor |
| Cursor.ConsumeLiteral | src/parser/util.rs:62-70 | moves one token and returns the literal exactly when the current token is a literal |
| Cursor.ExpectLiteral | src/parser/util.rs:72-76 | succeeds exactly at a literal; otherwise it is the expected-literal error with the cursor unmoved |
| Cursor.ConsumersKeepCursorOnTokens | src/parser/util.rs:13-70 | no `consume_*` matches `End`, so a valid cursor stays valid and the non-empty asserts never fire |
| ExpressionParser.Expression | src/parser/expression.rs:74-89 | `expression` only moves the cursor forward over the same tokens and keeps it on a token; a success reads at least one token |
| ExpressionParser.Binary | src/parser/expression.rs:126-346 | each binary level only moves forward and stays valid, and a success reads at least one token |
| ExpressionParser.ConditionalExpression | src/parser/expression.rs:108-124 | `conditional` only moves forward and stays valid, and a success reads at least one token |
| ExpressionParser.Postfix | src/parser/expression.rs:379-435 | `postfix` only moves forward and stays valid, and a success reads at least one token |
| ExpressionParser.Primary | src/parser/expression.rs:437-446 | `primary` only moves forward and stays valid, and a success reads at least one token |
| ExpressionParser.MatchRule | src/parser/expression.rs:126-346 | a level's loop takes the first arm whose punctuator is under the cursor and moves one token; with no such arm it does not move |
| ExpressionParser.PrefixOperators | src/parser/expression.rs:349-370 | the prefix run reads exactly the prefix-operator tokens from the cursor, in order, and stops at the first other token |
| ExpressionParser.LiteralExpression | src/parser/expression.rs:448-458 | succeeds exactly at a literal token, giving its immediate and moving one token; otherwise it is the expected-literal error |
| ExpressionParser.Arguments | src/parser/expression.rs:386-391 | the argument loop keeps the arguments already read as a prefix and adds at least one |
| ExpressionParser.Unary | src/parser/expression.rs:348-377 | a successful `unary` reads at least one token and leaves a valid cursor |
| ExpressionFacts.RenderParses | src/parser/expression.rs:74-458 | parsing the printed form of any printable tree, followed by a closing token, gives that tree back and reads exactly its tokens |
| ExpressionFacts.BinaryRoundTrip | src/parser/expression.rs:74-346 | the round trip for a binary operator at any of the twelve levels |
| ExpressionFacts.TernaryRoundTrip | src/parser/expression.rs:108-124 | the round trip for `a ? b : c` |
| ExpressionFacts.PrefixRoundTrip | src/parser/expression.rs:348-377 | the round trip for a prefix operator |
| ExpressionFacts.CallRoundTrip | src/parser/expression.rs:383-396 | the round trip for a call without arguments |
| ExpressionFacts.ParenPrimary | src/parser/expression.rs:437-446 | a bracketed printed tree is one primary, with its `)` consumed |
| ExpressionFacts.ArmOf | src/parser/expression.rs:126-346 | every operator punctuator has an arm at its own level |
| ExpressionFacts.ArmUnique | src/parser/expression.rs:126-346 | within one level no two arms share a punctuator |
| ExpressionFacts.QuestionIsNoOperator | src/parser/expression.rs:108-124 | `?` belongs to no binary level, so every level's loop stops at it |
| ExpressionFacts.BinaryTailStops | src/parser/expression.rs:126-346 | a level's loop returns the tree so far, unmoved, at a token that is not its own operator |
| ExpressionFacts.ConditionalStops | src/parser/expression.rs:108-121 | with no `?` after the condition, `conditional` is the condition |
| ExpressionFacts.PrimaryLiteralStep | src/parser/expression.rs:437-446 | without `(`, a primary is the literal under the cursor |
| ExpressionFacts.PrimaryParenStep | src/parser/expression.rs:437-446 | `( e )` is the primary `e`, with the `)` consumed |
| ExpressionFacts.EmptyCallStep | src/parser/expression.rs:383-396 | `()` after an operand makes a call with no arguments and reads both brackets |
| ExpressionShapes.LeftFold | src/parser/expression.rs:91-106 | `x op1 y op2 z` with both operators at one level is `(x op1 y) op2 z`, for `=` and `,` too |
| ExpressionShapes.TighterOnRight | src/parser/expression.rs:296-327 | a tighter operator on the right nests on the right: `1 + 2 * 3` is `1 + (2 * 3)` |
| ExpressionShapes.TighterOnLeft | src/parser/expression.rs:296-327 | a tighter operator on the left nests on the left: `1 * 2 + 3` is `(1 * 2) + 3` |
| ExpressionShapes.ComparisonSwaps | src/parser/expression.rs:247-264 | `a > b` parses to `b < a` and `a >= b` to `b <= a` |
| ExpressionShapes.SwappedArm | src/parser/expression.rs:247-264 | the `>` and `>=` arms are relational and build `<` and `<=` with the operands swapped |
| ExpressionShapes.ConditionalNestsRight | src/parser/expression.rs:108-124 | `a ? b : x ? y : z` is `a ? b : (x ? y : z)` |
| ExpressionShapes.ConditionalNeedsColon | src/parser/expression.rs:110-112 | `a ? b` not followed by `:` fails there with the expected-`:` error |
| ExpressionShapes.FailureRises | src/parser/expression.rs:126-346 | an error of `unary` is the error of every binary level, with the same cursor |
| ExpressionShapes.ExpressionNeedsOperand | src/parser/expression.rs:437-458 | a token that starts no operand, such as an identifier, is the expected-literal error at the cursor |
| ExpressionShapes.PrimaryNeedsClose | src/parser/expression.rs:437-443 | `(` followed by an expression and no `)` fails with the expected-`)` error where the expression stopped |
| ExpressionShapes.PrimaryKeepsInnerError | src/parser/expression.rs:440-442 | an error inside brackets is kept, but the `)` is still checked and consumed first |
| ExpressionShapes.WrapUnaryFirstOutermost | src/parser/expression.rs:370-376 | the first prefix operator of a run ends up outermost |
| ExpressionShapes.PrefixOperatorsInOrder | src/parser/expression.rs:349-370 | the `k`-th operator of the prefix run is the one spelled by the `k`-th token |
| ExpressionShapes.TwoPrefixes | src/parser/expression.rs:348-377 | `!~x` is `LogicalNot(BitwiseNot(x))`, and in general `op1 op2 x` is `op1(op2(x))` |
| ExpressionShapes.SubscriptStep | src/parser/expression.rs:397-404 | `a[i]` becomes `a + i` |
| ExpressionShapes.SubscriptNeedsBracket | src/parser/expression.rs:397-399 | a subscript without `]` fails with the expected-`]` error |
| ExpressionShapes.IncrementStep | src/parser/expression.rs:405-416 | `x++` becomes `x = x + 1` |
| ExpressionShapes.DecrementStep | src/parser/expression.rs:417-428 | `x--` becomes `x = x - 1` |
| ExpressionShapes.CallWithArgumentsLeavesBracket | src/parser/expression.rs:383-396 | `f(a)` makes the call but leaves the cursor on the `)` |
| StatementParser.NullStatement | src/parser/statement.rs:73-83 | recognises exactly `;`, gives `Null` and reads one token; otherwise it declines without moving |
| StatementParser.ExpressionThen | src/parser/statement.rs:85-92 | succeeds exactly when the expression succeeds and the closing punctuator follows it, with the expression as value; otherwise it is that punctuator's error where the expression stopped |
| StatementParser.ExpressionStatement | src/parser/statement.rs:85-92 | never declines: it is a statement or an error |
| StatementParser.IfStatement | src/parser/statement.rs:94-111 | declines exactly when the token is not `if`, and then does not move; otherwise it gives an `If` |
| StatementParser.SwitchStatement | src/parser/statement.rs:113-130 | declines exactly when the token is not `switch`; otherwise it gives a `Switch` |
| StatementParser.LabeledStatement | src/parser/statement.rs:132-143 | declines exactly when the token is not an identifier |
| StatementParser.WhileStatement | src/parser/statement.rs:145-162 | declines exactly when the token is not `while`; otherwise it gives a `While` |
| StatementParser.DoWhileStatement | src/parser/statement.rs:163-182 | declines exactly when the token is not `do`; otherwise it gives a `DoWhile` |
| StatementParser.ForStatement | src/parser/statement.rs:184-207 | declines exactly when the token is not `for`; otherwise it gives a `For` |
| StatementParser.ForClauses | src/parser/statement.rs:192-206 | the part after `for (` never declines, and a success is a `For` statement that has read at least one token |
| StatementParser.CompoundStatement | src/parser/statement.rs:209-222 | declines exactly when the token is not `{`; otherwise it gives a `Compound` |
| StatementParser.CompoundItems | src/parser/statement.rs:213-219 | the loop keeps the statements already read as a prefix of its result |
| StatementParser.ReturnStatement | src/parser/statement.rs:224-234 | declines exactly when the token is not `return`; otherwise it gives a `Return` |
| StatementParser.BreakStatement | src/parser/statement.rs:236-247 | declines exactly when the token is not `break`; otherwise it gives `Break` and reads two tokens |
| StatementParser.ContinueStatement | src/parser/statement.rs:249-260 | declines exactly when the token is not `continue`; otherwise it gives `Continue` and reads two tokens |
| StatementParser.GotoStatement | src/parser/statement.rs:262-272 | declines exactly when the token is not `goto`; otherwise it gives a `Goto` and reads only the keyword |
| StatementParser.Statement | src/parser/statement.rs:40-70 | a successful statement reads at least one token and leaves a valid cursor |
| StatementFacts.DeclinesExactly | src/parser/statement.rs:40-70 | a recogniser declines exactly when its form is not the one the leading token selects, and then it does not move |
| StatementFacts.FirstMatchWins | src/parser/statement.rs:40-70 | `statement` is decided by the recogniser that the leading token selects, which never declines, so the final error is unreachable |
| StatementFacts.FormOfLeaders | src/parser/statement.rs:40-70 | each form is selected by exactly its leading token: `;`, `{`, an identifier, or its keyword |
| StatementFacts.NullStatementShape | src/parser/statement.rs:73-83 | `;` alone is `Null` and reads exactly one token |
| StatementFacts.ExpressionStatementShape | src/parser/statement.rs:85-92 | any other leading token is an expression closed by `;`, with that result or that error |
| StatementFacts.GuardedStatements | src/parser/statement.rs:94-162 | `if`, `switch` and `while` followed by `( x ) s` give `If(x, s)`, `Switch(x, s)` and `While(x, s)`, and no `else` is read |
| StatementFacts.GuardNeedsClose | src/parser/statement.rs:94-182 | a condition not closed by `)` makes `if`, `switch`, `while` and `do` fail with the expected-`)` error |
| StatementFacts.GuardNeedsOpen | src/parser/statement.rs:94-182 | without `(` after the keyword they fail with the expected-`(` error right after it |
| StatementFacts.DoWhileShape | src/parser/statement.rs:163-182 | `do ( x ) s while` gives `DoWhile(x, s)` and reads nothing after `while`; without `while` it is the expected-keyword error |
| StatementFacts.ForShape | src/parser/statement.rs:184-207 | `for ( x ; y ; z ) s` gives `For(x, y, z, s)` |
| StatementFacts.ItemsInOrder | src/parser/statement.rs:213-219 | the compound loop collects the statements in order up to `}` and reads the `}` |
| StatementFacts.CompoundCollects | src/parser/statement.rs:209-222 | `{ s1 … sn }` is `Compound([s1, …, sn])` |
| StatementFacts.EmptyCompound | src/parser/statement.rs:209-222 | `{}` is `Compound([])` |
| StatementFacts.ReturnLeavesRest | src/parser/statement.rs:224-234 | `return x` is `Return(x)`, with the cursor right after `x`, so a following `;` is not read |
| StatementFacts.ReturnInBlock | src/parser/statement.rs:209-234 | `{ return n ; }` is `Compound([Return(n), Null])` |
| StatementFacts.JumpsNeedSemicolon | src/parser/statement.rs:236-260 | `break ;` and `continue ;` read two tokens; without the `;` they fail with the expected-`;` error |
| StatementFacts.LabelAlwaysFails | src/parser/statement.rs:132-143 | a statement starting with an identifier always fails with the expected-`:` error at the identifier |
| StatementFacts.GotoStaysOnLabel | src/parser/statement.rs:262-272 | `goto x` gives `Goto("x")` with the cursor still on `x`; without an identifier it is the expected-identifier error |
| StatementFacts.IfWithoutElse | src/parser/statement.rs:94-111 | `if ( n ) ;` is `If(n, Null)` and reads five tokens |
| DeclarationParser.ParseStorageClassSpecifier | src/parser/declaration.rs:220-240 | never fails; on a match it reads exactly one token, and otherwise it does not move |
| DeclarationParser.ParseTypeSpecifier | src/parser/declaration.rs:242-264 | never fails; on a match it reads exactly one token, and otherwise it does not move |
| DeclarationParser.ParseTypeQualifier | src/parser/declaration.rs:266-282 | never fails; on a match it reads exactly one token, and otherwise it does not move |
| DeclarationParser.NextSpecifier | src/parser/declaration.rs:199-212 | trying the specifier forms in order only moves forward, and a specifier found reads at least one token |
| DeclarationParser.Unfinished | src/parser/declaration.rs:284-304 | the stubs fail without reading |
| DeclarationFacts.StorageClassKeywords | src/parser/declaration.rs:220-240 | the result is the storage class of the keyword at the cursor: `typedef`, `extern`, `static`, `_Thread_local`, `auto`, `register`; `None` for every other token |
| DeclarationFacts.TypeSpecifierKeywords | src/parser/declaration.rs:242-264 | the result is the type of `_Bool`, `char`, `short`, `int`, `long`, `float` or `double`; `None` for every other token |
| DeclarationFacts.VoidAndSignsUnrecognised | src/parser/declaration.rs:242-264 | `void`, `signed` and `unsigned` give `None` and read nothing |
| DeclarationFacts.TypeQualifierKeywords | src/parser/declaration.rs:266-282 | the result is the qualifier of `const`, `restrict`, `volatile` or `_Atomic`; `None` for every other token |
| DeclarationFacts.OneSpecifier | src/parser/declaration.rs:195-218 | one iteration reads the specifier keyword at the cursor; at any other token it reaches the alignment stub and fails |
| DeclarationFacts.SpecifierPushed | src/parser/declaration.rs:199-212 | a specifier keyword is pushed after those read before it, and the loop continues from the next token |
| DeclarationFacts.SpecifiersInOrder | src/parser/declaration.rs:195-218 | over a run of specifier keywords the loop accumulates their specifiers in source order |
| DeclarationFacts.SpecifierLoopFails | src/parser/declaration.rs:206 | at a token that is no specifier keyword the loop fails with the alignment stub's error, before the `break` |
| DeclarationFacts.SpecifiersNeverSucceed | src/parser/declaration.rs:195-218 | `declaration_specifier` never returns `Ok`; it fails at the first token that is no specifier keyword, after reading every one before it |
| DeclarationFacts.DeclarationNeverSucceeds | src/parser/declaration.rs:166-193 | `declaration` never succeeds: the specifier loop's error rises unchanged |
| DeclarationFacts.StubsFail | src/parser/declaration.rs:296-304 | `init_declarator` and `declarator` fail without reading |
| DeclarationFacts.InitDeclaratorMissing | src/parser/declaration.rs:174-177 | a missing init-declarator is the parse error where it was looked for |
| DeclarationFacts.InitDeclaratorsClosed | src/parser/declaration.rs:178-190 | an init-declarator followed by `;` closes the list, appended in order, and reads the `;` |
| DeclarationFacts.InitDeclaratorsUnclosed | src/parser/declaration.rs:178-190 | an init-declarator followed by neither `,` nor `;` fails with the expected-`;` error |
| DeclarationFacts.InitDeclaratorsAfterComma | src/parser/declaration.rs:178-184 | after `,` the next init-declarator is read, and the stub fails there |
| Util.New | src/util.rs:10-14 | `new(x)` holds exactly `[x]` and is valid |
| Util.FromVec | src/util.rs:21-26 | the conversion demands a non-empty input and keeps its elements unchanged |
| Util.Unwrap | src/util.rs:16-18 | hands out the elements in order |
| Util.Update | src/util.rs:53-73 | writing through an index replaces that element only and keeps the length and validity |
| Util.Extend | src/util.rs:75-94 | appends in order, keeps the old elements and preserves non-emptiness |
| Util.VecToOptionalNonEmptyVec | src/util.rs:28-34 | `None` exactly for the empty vector, and otherwise a valid vector of the same elements |
| Util.OptionalNonEmptyVecToVec | src/util.rs:36-41 | `None` becomes `[]`, and a valid vector gives its non-empty body |
| Util.VecRoundTrip | src/util.rs:28-41 | converting a vector to the optional form and back is the identity |
| Util.OptionRoundTrip | src/util.rs:28-41 | converting a valid optional vector to a vector and back is the identity |
| Util.ExtendTwice | src/util.rs:75-82 | extending twice is extending once by the concatenation |
| Parser.Parse | src/parser.rs:15-19 | succeeds exactly when `statement` succeeds on a fresh cursor, with that statement as the root, and otherwise gives its error |
| Parser.TokenizedInputsParse | src/parser.rs:15-19 | every token list that `tokenize` returns is an input `parse` accepts |
| Parser.TrailingTokensIgnored | src/parser.rs:15-19 | a leading `;` is the whole tree: the tokens after it are never read |
| Parser.ReturnBlockParses | src/parser.rs:15-19 | `{ return n ; }` followed by anything parses to `Compound([Return(n), Null])` |

## Left out

- Console output is not modelled: the `Display` implementations only print. The `println!` of the tokenizer's error path is not printed either; instead the head it would print is kept in the error value `InvalidToken(head)`, in place of the constant message `"invalid token"`.
- `src/main.rs` is not part of this model. It is the driver.
- `src/parser/mod.rs` is not part of this model. It is a second root that wraps `expression`.
- Children are plain subtrees instead of being shared through `Arc`. So the shared operand of `x++` becomes two equal subtrees.
- Character classes are ASCII only. The source uses Unicode `is_whitespace` and `is_numeric`, and `skip_whitespace` counts characters but slices bytes. The model has no byte encoding.
- The `Cast` operator and its `Type` placeholder are not built by any parser, so the model leaves them out.
- Some declaration datatypes have no parsing code, so the model leaves them out:
  - the structure, union and enumeration specifiers;
  - `TypeName`;
  - abstract declarators;
  - the array and function forms of direct declarators.
- The Rust code does not compile as written, in three ways:
  - The kind enums lack `PartialEq`. The model compares with datatype equality.
  - `Immediate::Number` is `u32` while `Literal::Number` is `i32`. The model uses the `i32` range for both.
  - `src/parser/statement.rs:8-33` and `src/parser/declaration.rs:18`, `:88`, `:98`, `:118` and `:157` use a type `Expression<'a>` that is never defined. Only `ExpressionNode<'a>` exists (`src/parser/expression.rs:6`). The model reads the uses it keeps as the expression tree `ExpressionNode`. These are the statement nodes, `InitDeclarator.initializer` at line 98 and the alignment specifier at line 18. The uses at lines 88, 118 and 157 belong to declarators the model leaves out.
- The misspelled Rust names `Singned` and `Commma` are spelled `Signed` and `Comma`.
- Error messages are constructors of `ParseError` rather than formatted strings. The empty message of the stubs is `NotImplemented`.
- ExpressionFacts.RenderParses: the round trip covers only printable trees. Trees with `.` (no arm builds it) and calls with arguments are excluded, because such a call leaves its `)` unread.
- TokenizerFacts.StringToken: states the string branch as written, including its panic on short strings. It makes no round-trip claim for string literals.
- DeclarationParser.ParseStorageClassSpecifier, DeclarationParser.ParseTypeSpecifier, DeclarationParser.ParseTypeQualifier: their own contracts state only the cursor movement. The mapping from keyword to result is stated by the lemmas `StorageClassKeywords`, `TypeSpecifierKeywords` and `TypeQualifierKeywords`.

=== FILE: cursor.dfy ===
/** The token cursor of `src/parser/util.rs`.

    The Rust `ParseContext` holds the unread tokens as a slice `head` that
    only ever loses tokens at the front.  Here the context is the whole
    token sequence together with the index `pos` of the first unread token,
    so `head` is `tokens[pos..]`; moving the cursor is an increase of `pos`
    and the tokens themselves never change.

    Every `consume_*` asserts that `head` is not empty; that assertion is the
    precondition `pos < |tokens|` here.  When the tokens come from the
    tokenizer they end with `End`, no `consume_*` ever steps over `End`, and
    so the cursor stays on a token: `Valid` names that invariant and each
    operation below keeps it. */
module Cursor {
  import opened Prelude
  import opened Tokenizer

  datatype ParseContext = ParseContext(tokens: seq<Token>, pos: nat) {
    /** The cursor is on a token and the sequence is closed by `End`. */
    predicate Valid() {
      pos < |tokens| && tokens[|tokens| - 1] == End
    }

    /** The unread tokens: the Rust field `head`. */
    function Head(): seq<Token>
      requires pos <= |tokens|
    {
      tokens[pos..]
    }

    /** The first unread token, `head[0]`. */
    function Current(): Token
      requires pos < |tokens|
    {
      tokens[pos]
    }

    /** Tokens left to read; parsers recurse on its decrease. */
    function Remaining(): nat {
      if pos <= |tokens| then |tokens| - pos else 0
    }
  }

  /** `ParseContext::new`: a cursor on the first token. */
  function NewContext(tokens: seq<Token>): (c: ParseContext)
    ensures c.tokens == tokens && c.pos == 0
    ensures c.Valid() <==> |tokens| > 0 && tokens[|tokens| - 1] == End
  {
    ParseContext(tokens, 0)
  }

  /** `d` is `c` moved forward zero or more tokens, still valid. */
  predicate Follows(c: ParseContext, d: ParseContext) {
    d.tokens == c.tokens && c.pos <= d.pos && d.Valid()
  }

  /** The error strings of the parser, one constructor per message.
      `ExpectedPunctuator(k)` is `"expected k but not found."`, and so on;
      `StatementExpected` is `"statement is expected but not found."`,
      `Unparsable` the declaration parser's `"Parse Error"` and
      `NotImplemented` the empty message of the unfinished recognisers. */
  datatype ParseError =
    | ExpectedPunctuator(punctuator: PunctuatorKind)
    | ExpectedKeyword(keyword: KeywordKind)
    | ExpectedIdentifier
    | ExpectedLiteral
    | StatementExpected
    | Unparsable
    | NotImplemented

  /** What a `consume_*` returns (its `Option`) and where it leaves the cursor. */
  datatype Consumed<T> = Consumed(value: Option<T>, next: ParseContext)

  /** What a `Result`-returning parser returns and where it leaves the cursor;
      on an error this is wherever the failing step left it, because the Rust
      code moves the shared context as it goes. */
  datatype Parsed<T> = Parsed(result: Result<T, ParseError>, next: ParseContext)

  /** `consume_token`: drops exactly the first unread token. */
  function ConsumeToken(c: ParseContext): (d: ParseContext)
    requires c.pos < |c.tokens|
    ensures d.tokens == c.tokens && d.pos <= |d.tokens|
    ensures d.Head() == c.Head()[1..]
  {
    ParseContext(c.tokens, c.pos + 1)
  }

  /** `consume_punctuator`: advances past `head[0]` exactly when it is the
      punctuator `target`, and otherwise leaves the cursor where it is. */
  function ConsumePunctuator(c: ParseContext, target: PunctuatorKind): (r: Consumed<()>)
    requires c.pos < |c.tokens|
    ensures r.value.Some? <==> c.Current() == Punctuator(target)
    ensures r.value.Some? ==> r.next.tokens == c.tokens && r.next.pos == c.pos + 1
    ensures r.value.None? ==> r.next == c
    ensures c.Valid() ==> Follows(c, r.next)
  {
    if c.tokens[c.pos] == Punctuator(target) then
      Consumed(Some(()), ConsumeToken(c))
    else
      Consumed(None, c)
  }

  /** `expect_punctuator`: `consume_punctuator`, with a missing punctuator
      turned into an error naming it; a failure leaves the cursor alone. */
  function ExpectPunctuator(c: ParseContext, target: PunctuatorKind): (r: Parsed<()>)
    requires c.pos < |c.tokens|
    ensures r.result.Ok? <==> ConsumePunctuator(c, target).value.Some?
    ensures r.result.Err? ==> r.result.error == ExpectedPunctuator(target) && r.next == c
    ensures r.next == ConsumePunctuator(c, target).next
  {
    var step := ConsumePunctuator(c, target);
    if step.value.Some? then Parsed(Ok(()), step.next)
    else Parsed(Err(ExpectedPunctuator(target)), step.next)
  }

  /** `consume_keyword`: advances past `head[0]` exactly when it is the
      keyword `target`, and otherwise leaves the cursor where it is. */
  function ConsumeKeyword(c: ParseContext, target: KeywordKind): (r: Consumed<()>)
    requires c.pos < |c.tokens|
    ensures r.value.Some? <==> c.Current() == Keyword(target)
    ensures r.value.Some? ==> r.next.tokens == c.tokens && r.next.pos == c.pos + 1
    ensures r.value.None? ==> r.next == c
    ensures c.Valid() ==> Follows(c, r.next)
  {
    if c.tokens[c.pos] == Keyword(target) then
      Consumed(Some(()), ConsumeToken(c))
    else
      Consumed(None, c)
  }

  /** `expect_keyword`. */
  function ExpectKeyword(c: ParseContext, target: KeywordKind): (r: Parsed<()>)
    requires c.pos < |c.tokens|
    ensures r.result.Ok? <==> ConsumeKeyword(c, target).value.Some?
    ensures r.result.Err? ==> r.result.error == ExpectedKeyword(target) && r.next == c
    ensures r.next == ConsumeKeyword(c, target).next
  {
    var step := ConsumeKeyword(c, target);
    if step.value.Some? then Parsed(Ok(()), step.next)
    else Parsed(Err(ExpectedKeyword(target)), step.next)
  }

  /** `consume_identifier`: reports the identifier under the cursor but,
      unlike every other `consume_*`, never moves the cursor. */
  function ConsumeIdentifier(c: ParseContext): (r: Consumed<string>)
    requires c.pos < |c.tokens|
    ensures r.value.Some? <==> c.Current().Identifier?
    ensures r.value.Some? ==> c.Current() == Identifier(r.value.value)
    ensures r.next == c
  {
    match c.tokens[c.pos]
    case Identifier(content) => Consumed(Some(content), c)
    case _ => Consumed(None, c)
  }

  /** `expect_identifier`: as `consume_identifier`, so it never moves either. */
  function ExpectIdentifier(c: ParseContext): (r: Parsed<string>)
    requires c.pos < |c.tokens|
    ensures r.result.Ok? <==> c.Current().Identifier?
    ensures r.result.Ok? ==> c.Current() == Identifier(r.result.value)
    ensures r.result.Err? ==> r.result.error == ExpectedIdentifier
    ensures r.next == c
  {
    var step := ConsumeIdentifier(c);
    match step.value
    case Some(name) => Parsed(Ok(name), step.next)
    case None => Parsed(Err(ExpectedIdentifier), step.next)
  }

  /** `consume_literal`: advances past `head[0]` exactly when it is a literal,
      and returns that literal.  (The Rust function reads `head[0]` without
      the `assert!` of the others; an empty head would panic all the same.) */
  function ConsumeLiteral(c: ParseContext): (r: Consumed<Literal>)
    requires c.pos < |c.tokens|
    ensures r.value.Some? <==> c.Current().Literal?
    ensures r.value.Some? ==> c.Current() == Literal(r.value.value)
    ensures r.value.Some? ==> r.next.tokens == c.tokens && r.next.pos == c.pos + 1
    ensures r.value.None? ==> r.next == c
    ensures c.Valid() ==> Follows(c, r.next)
  {
    match c.tokens[c.pos]
    case Literal(content) => Consumed(Some(content), ConsumeToken(c))
    case _ => Consumed(None, c)
  }

  /** `expect_literal`. */
  function ExpectLiteral(c: ParseContext): (r: Parsed<Literal>)
    requires c.pos < |c.tokens|
    ensures r.result.Ok? <==> c.Current().Literal?
    ensures r.result.Ok? ==> c.Current() == Literal(r.result.value)
    ensures r.result.Err? ==> r.result.error == ExpectedLiteral && r.next == c
    ensures r.next == ConsumeLiteral(c).next
  {
    var step := ConsumeLiteral(c);
    match step.value
    case Some(content) => Parsed(Ok(content), step.next)
    case None => Parsed(Err(ExpectedLiteral), step.next)
  }

  /** No `consume_*` ever matches `End`, so on a valid cursor a successful
      step never leaves the tokens and the Rust `assert!`s cannot fire. */
  lemma ConsumersKeepCursorOnTokens(c: ParseContext, p: PunctuatorKind, k: KeywordKind)
    requires c.Valid()
    ensures ConsumePunctuator(c, p).next.Valid()
    ensures ConsumeKeyword(c, k).next.Valid()
    ensures ConsumeLiteral(c).next.Valid()
    ensures ConsumeIdentifier(c).next.Valid()
    ensures c.Current() == End ==>
      ConsumePunctuator(c, p).value.None? && ConsumeKeyword(c, k).value.None? &&
      ConsumeLiteral(c).value.None? && ConsumeIdentifier(c).value.None?
  {
  }
}

=== FILE: declaration.dfy ===
/** The declaration parser of `src/parser/declaration.rs`.

    Only the front of a declaration has parsing code: the storage-class,
    type-specifier and type-qualifier keywords.  The alignment specifier,
    the function specifier, the init-declarator and the declarator are
    stubs that fail with an empty message (`NotImplemented` here).  The
    loop of `declaration_specifier` tries the five specifier recognisers in
    a fixed order, the constant `SpecifierForms`, just as `statement` tries
    its recognisers. */
module DeclarationParser {
  import opened Prelude
  import Tk = Tokenizer
  import opened Cursor
  import U = Util
  import E = ExpressionParser

  datatype StorageClassSpecifier = Typedef | Extern | Static | ThreadLocal | Auto | Register

  /** The type specifiers.  The structure, union and enumeration specifiers
      carry syntax trees that no code builds, and are not part of this
      model. */
  datatype TypeSpecifier =
    | Void | Char | Short | Int | Long | Float | Double | Signed | Unsigned | Bool | Complex
    | AtomicTypeSpecifier | TypedefName(name: string)

  datatype TypeQualifier = Const | Restrict | Volatile | Atomic

  datatype FunctionSpecifier = Inline | Noreturn

  datatype DeclarationSpecifier =
    | StorageSpecifier(storage: StorageClassSpecifier)
    | TypeSpecifierOf(specifier: TypeSpecifier)
    | TypeQualifierOf(qualifier: TypeQualifier)
    | FunctionSpecifierOf(kind: FunctionSpecifier)
    | AlignmentSpecifier(alignment: U.Either<E.Type, E.ExpressionNode>)

  /** A declarator: pointer stars, each with its qualifiers, and the
      declared name or a parenthesised declarator.  The array and function
      forms are not part of this model. */
  datatype Declarator = Declarator(pointer: seq<seq<TypeQualifier>>, identifier: DirectDeclarator)

  datatype DirectDeclarator = Identifier(name: string) | Nested(declarator: Declarator)

  datatype InitDeclarator = InitDeclarator(declarator: Declarator, initializer: E.ExpressionNode)

  datatype Declaration = Declaration(specifiers: U.NonEmptyVec<DeclarationSpecifier>, declarators: seq<InitDeclarator>)

  // ---------------------------------------------------------------------
  // The keyword recognisers

  /** The storage class a token names, if any. */
  function StorageClassOf(t: Tk.Token): Option<StorageClassSpecifier> {
    if !t.Keyword? then None
    else match t.keyword
    case Typedef => Some(Typedef)
    case Extern => Some(Extern)
    case Static => Some(Static)
    case ThreadLocal => Some(ThreadLocal)
    case Auto => Some(Auto)
    case Register => Some(Register)
    case _ => None
  }

  /** The type specifier a token names, among those the parser knows. */
  function TypeSpecifierKeyword(t: Tk.Token): Option<TypeSpecifier> {
    if !t.Keyword? then None
    else match t.keyword
    case Bool => Some(Bool)
    case Char => Some(Char)
    case Short => Some(Short)
    case Int => Some(Int)
    case Long => Some(Long)
    case Float => Some(Float)
    case Double => Some(Double)
    case _ => None
  }

  /** The type qualifier a token names, if any. */
  function TypeQualifierKeyword(t: Tk.Token): Option<TypeQualifier> {
    if !t.Keyword? then None
    else match t.keyword
    case Const => Some(Const)
    case Restrict => Some(Restrict)
    case Volatile => Some(Volatile)
    case Atomic => Some(Atomic)
    case _ => None
  }

  /** `storage_class_specifier`: one of six keywords, tried in turn. */
  function ParseStorageClassSpecifier(c: ParseContext): (r: Parsed<Option<StorageClassSpecifier>>)
    requires c.Valid()
    ensures r.result.Ok?
    ensures r.result.value.None? ==> r.next == c
    ensures r.result.value.Some? ==> r.next == ParseContext(c.tokens, c.pos + 1) && r.next.Valid()
  {
    var typedefWord := ConsumeKeyword(c, Tk.Typedef);
    if typedefWord.value.Some? then Parsed(Ok(Some(Typedef)), typedefWord.next)
    else
      var externWord := ConsumeKeyword(typedefWord.next, Tk.Extern);
      if externWord.value.Some? then Parsed(Ok(Some(Extern)), externWord.next)
      else
        var staticWord := ConsumeKeyword(externWord.next, Tk.Static);
        if staticWord.value.Some? then Parsed(Ok(Some(Static)), staticWord.next)
        else
          var threadLocalWord := ConsumeKeyword(staticWord.next, Tk.ThreadLocal);
          if threadLocalWord.value.Some? then Parsed(Ok(Some(ThreadLocal)), threadLocalWord.next)
          else
            var autoWord := ConsumeKeyword(threadLocalWord.next, Tk.Auto);
            if autoWord.value.Some? then Parsed(Ok(Some(Auto)), autoWord.next)
            else
              var registerWord := ConsumeKeyword(autoWord.next, Tk.Register);
              if registerWord.value.Some? then Parsed(Ok(Some(Register)), registerWord.next)
              else Parsed(Ok(None), registerWord.next)
  }

  /** `type_specifier`: seven keywords, tried in turn; `void`, `signed`,
      `unsigned` and the rest are not recognised. */
  function ParseTypeSpecifier(c: ParseContext): (r: Parsed<Option<TypeSpecifier>>)
    requires c.Valid()
    ensures r.result.Ok?
    ensures r.result.value.None? ==> r.next == c
    ensures r.result.value.Some? ==> r.next == ParseContext(c.tokens, c.pos + 1) && r.next.Valid()
  {
    var boolWord := ConsumeKeyword(c, Tk.Bool);
    if boolWord.value.Some? then Parsed(Ok(Some(Bool)), boolWord.next)
    else
      var charWord := ConsumeKeyword(boolWord.next, Tk.Char);
      if charWord.value.Some? then Parsed(Ok(Some(Char)), charWord.next)
      else
        var shortWord := ConsumeKeyword(charWord.next, Tk.Short);
        if shortWord.value.Some? then Parsed(Ok(Some(Short)), shortWord.next)
        else
          var intWord := ConsumeKeyword(shortWord.next, Tk.Int);
          if intWord.value.Some? then Parsed(Ok(Some(Int)), intWord.next)
          else
            var longWord := ConsumeKeyword(intWord.next, Tk.Long);
            if longWord.value.Some? then Parsed(Ok(Some(Long)), longWord.next)
            else
              var floatWord := ConsumeKeyword(longWord.next, Tk.Float);
              if floatWord.value.Some? then Parsed(Ok(Some(Float)), floatWord.next)
              else
                var doubleWord := ConsumeKeyword(floatWord.next, Tk.Double);
                if doubleWord.value.Some? then Parsed(Ok(Some(Double)), doubleWord.next)
                else Parsed(Ok(None), doubleWord.next)
  }

  /** `type_qualifier`: four keywords, tried in turn. */
  function ParseTypeQualifier(c: ParseContext): (r: Parsed<Option<TypeQualifier>>)
    requires c.Valid()
    ensures r.result.Ok?
    ensures r.result.value.None? ==> r.next == c
    ensures r.result.value.Some? ==> r.next == ParseContext(c.tokens, c.pos + 1) && r.next.Valid()
  {
    var constWord := ConsumeKeyword(c, Tk.Const);
    if constWord.value.Some? then Parsed(Ok(Some(Const)), constWord.next)
    else
      var restrictWord := ConsumeKeyword(constWord.next, Tk.Restrict);
      if restrictWord.value.Some? then Parsed(Ok(Some(Restrict)), restrictWord.next)
      else
        var volatileWord := ConsumeKeyword(restrictWord.next, Tk.Volatile);
        if volatileWord.value.Some? then Parsed(Ok(Some(Volatile)), volatileWord.next)
        else
          var atomicWord := ConsumeKeyword(volatileWord.next, Tk.Atomic);
          if atomicWord.value.Some? then Parsed(Ok(Some(Atomic)), atomicWord.next)
          else Parsed(Ok(None), atomicWord.next)
  }

  // ---------------------------------------------------------------------
  // The stubs

  /** `function_specifier`, `alignment_specifier`, `init_declarator` and
      `declarator` all have the body `Err("")`: they fail without reading. */
  function Unfinished<T>(c: ParseContext): (r: Parsed<Option<T>>)
    ensures r.result == Err(NotImplemented) && r.next == c
  {
    Parsed(Err(NotImplemented), c)
  }

  // ---------------------------------------------------------------------
  // `declaration_specifier`

  /** One recogniser of the loop of `declaration_specifier`. */
  datatype SpecifierForm = StorageForm | TypeForm | QualifierForm | AlignmentForm | FunctionForm

  /** The order in which `declaration_specifier` tries its recognisers. */
  const SpecifierForms: seq<SpecifierForm> := [StorageForm, TypeForm, QualifierForm, AlignmentForm, FunctionForm]

  /** The recogniser of `form`, its result wrapped as a `DeclarationSpecifier`. */
  function RecognizeSpecifier(form: SpecifierForm, c: ParseContext): (r: Parsed<Option<DeclarationSpecifier>>)
    requires c.Valid()
    ensures Follows(c, r.next)
    ensures r.result.Ok? && r.result.value.Some? ==> c.pos < r.next.pos
  {
    match form
    case StorageForm =>
      var storage := ParseStorageClassSpecifier(c);
      Parsed(Ok(if storage.result.value.Some? then Some(StorageSpecifier(storage.result.value.value)) else None), storage.next)
    case TypeForm =>
      var specifier := ParseTypeSpecifier(c);
      Parsed(Ok(if specifier.result.value.Some? then Some(TypeSpecifierOf(specifier.result.value.value)) else None), specifier.next)
    case QualifierForm =>
      var qualifier := ParseTypeQualifier(c);
      Parsed(Ok(if qualifier.result.value.Some? then Some(TypeQualifierOf(qualifier.result.value.value)) else None), qualifier.next)
    case AlignmentForm => Unfinished(c)
    case FunctionForm => Unfinished(c)
  }

  /** The `if let … else if let … else break` chain of one loop iteration,
      from its `i`-th recogniser on: `Ok(None)` is the `break`. */
  function NextSpecifier(c: ParseContext, i: nat): (r: Parsed<Option<DeclarationSpecifier>>)
    requires c.Valid() && i <= |SpecifierForms|
    ensures Follows(c, r.next)
    ensures r.result.Ok? && r.result.value.Some? ==> c.pos < r.next.pos
    decreases |SpecifierForms| - i
  {
    if i == |SpecifierForms| then Parsed(Ok(None), c)
    else
      var attempt := RecognizeSpecifier(SpecifierForms[i], c);
      match attempt.result
      case Err(e) => Parsed(Err(e), attempt.next)
      case Ok(Some(s)) => Parsed(Ok(Some(s)), attempt.next)
      case Ok(None) => NextSpecifier(attempt.next, i + 1)
  }

  /** `declaration_specifier`: `done` holds the specifiers pushed so far;
      when the chain breaks, the list becomes an optional non-empty vector. */
  function ParseDeclarationSpecifiers(c: ParseContext, done: seq<DeclarationSpecifier>)
    : (r: Parsed<Option<U.NonEmptyVec<DeclarationSpecifier>>>)
    requires c.Valid()
    ensures Follows(c, r.next)
    decreases c.Remaining()
  {
    var step := NextSpecifier(c, 0);
    match step.result
    case Err(e) => Parsed(Err(e), step.next)
    case Ok(Some(s)) => ParseDeclarationSpecifiers(step.next, done + [s])
    case Ok(None) => Parsed(Ok(U.VecToOptionalNonEmptyVec(done)), step.next)
  }

  // ---------------------------------------------------------------------
  // `declaration`

  /** `declaration`: specifiers, then init-declarators separated by `,`, then
      `;`.  No specifier at all is `Ok(None)`. */
  function ParseDeclaration(c: ParseContext): (r: Parsed<Option<Declaration>>)
    requires c.Valid()
    ensures Follows(c, r.next)
  {
    var specifiers := ParseDeclarationSpecifiers(c, []);
    match specifiers.result
    case Err(e) => Parsed(Err(e), specifiers.next)
    case Ok(None) => Parsed(Ok(None), specifiers.next)
    case Ok(Some(list)) =>
      var declarators := InitDeclarators(ParseInitDeclarator(specifiers.next), []);
      match declarators.result
      case Err(e) => Parsed(Err(e), declarators.next)
      case Ok(items) => Parsed(Ok(Some(Declaration(list, items))), declarators.next)
  }

  /** The loop of `declaration`, from the moment `init_declarator` returned
      `item`: a missing init-declarator is `Err("Parse Error")`, a `,` asks
      for one more, and anything else must be the closing `;`. */
  function InitDeclarators(item: Parsed<Option<InitDeclarator>>, done: seq<InitDeclarator>)
    : (r: Parsed<seq<InitDeclarator>>)
    requires item.next.Valid()
    ensures Follows(item.next, r.next)
    decreases item.next.Remaining()
  {
    match item.result
    case Err(e) => Parsed(Err(e), item.next)
    case Ok(None) => Parsed(Err(Unparsable), item.next)
    case Ok(Some(x)) =>
      var comma := ConsumePunctuator(item.next, Tk.Comma);
      if comma.value.Some? then InitDeclarators(ParseInitDeclarator(comma.next), done + [x])
      else
        var semicolon := ExpectPunctuator(comma.next, Tk.Semicolon);
        match semicolon.result
        case Err(e) => Parsed(Err(e), semicolon.next)
        case Ok(_) => Parsed(Ok(done + [x]), semicolon.next)
  }

  /** `init_declarator`, a stub.  `declarator` below has the same body:
      the duplication is the source's own, as both Rust stubs are identical. */
  function ParseInitDeclarator(c: ParseContext): (r: Parsed<Option<InitDeclarator>>)
    requires c.Valid()
    ensures Follows(c, r.next)
  {
    Unfinished(c)
  }

  /** `declarator`, a stub that nothing calls: the same unfinished body as
      `init_declarator`, kept because the source defines it. */
  function ParseDeclarator(c: ParseContext): (r: Parsed<Option<Declarator>>)
    requires c.Valid()
    ensures Follows(c, r.next)
  {
    Unfinished(c)
  }
}

=== FILE: declaration_facts.dfy ===
/** What `src/parser/declaration.rs` promises about declarations.

    The keyword recognisers map exactly the keywords of the tables
    `StorageClassOf`, `TypeSpecifierKeyword` and `TypeQualifierKeyword`.
    The loop of `declaration_specifier` reads a run of such keywords in
    order and then reaches the `alignment_specifier` stub, so it never
    succeeds, and neither does `declaration`. */
module DeclarationFacts {
  import opened Prelude
  import Tk = Tokenizer
  import opened Cursor
  import U = Util
  import F = ExpressionFacts
  import opened DeclarationParser

  lemma Accepts(c: ParseContext, k: Tk.KeywordKind)
    requires c.Valid() && c.Current() == Tk.Keyword(k)
    ensures ConsumeKeyword(c, k) == Consumed(Some(()), F.Skip(c, 1))
  {
  }

  lemma Declines(c: ParseContext, k: Tk.KeywordKind)
    requires c.Valid() && c.Current() != Tk.Keyword(k)
    ensures ConsumeKeyword(c, k) == Consumed(None, c)
  {
  }

  // ---------------------------------------------------------------------
  // The keyword recognisers

  /** `storage_class_specifier` gives the storage class of the keyword at
      the cursor, and `None` exactly when there is none. */
  lemma StorageClassKeywords(c: ParseContext)
    requires c.Valid()
    ensures ParseStorageClassSpecifier(c).result == Ok(StorageClassOf(c.Current()))
  {
    hide ParseStorageClassSpecifier;
    if StorageClassOf(c.Current()).Some? {
      StorageClassNamed(c);
    } else {
      StorageClassUnnamed(c);
    }
  }

  lemma StorageClassNamed(c: ParseContext)
    requires c.Valid() && StorageClassOf(c.Current()).Some?
    ensures ParseStorageClassSpecifier(c).result == Ok(StorageClassOf(c.Current()))
  {
    hide ConsumeKeyword;
    var t := c.Current();
    if t == Tk.Keyword(Tk.Typedef) {
      Accepts(c, Tk.Typedef);
    } else if t == Tk.Keyword(Tk.Extern) {
      Declines(c, Tk.Typedef); Accepts(c, Tk.Extern);
    } else if t == Tk.Keyword(Tk.Static) {
      Declines(c, Tk.Typedef); Declines(c, Tk.Extern); Accepts(c, Tk.Static);
    } else {
      Declines(c, Tk.Typedef); Declines(c, Tk.Extern); Declines(c, Tk.Static);
      if t == Tk.Keyword(Tk.ThreadLocal) {
        Accepts(c, Tk.ThreadLocal);
      } else if t == Tk.Keyword(Tk.Auto) {
        Declines(c, Tk.ThreadLocal); Accepts(c, Tk.Auto);
      } else {
        Declines(c, Tk.ThreadLocal); Declines(c, Tk.Auto); Accepts(c, Tk.Register);
      }
    }
  }

  lemma StorageClassUnnamed(c: ParseContext)
    requires c.Valid() && StorageClassOf(c.Current()).None?
    ensures ParseStorageClassSpecifier(c).result == Ok(None)
  {
    hide ConsumeKeyword;
    Declines(c, Tk.Typedef); Declines(c, Tk.Extern); Declines(c, Tk.Static);
    Declines(c, Tk.ThreadLocal); Declines(c, Tk.Auto); Declines(c, Tk.Register);
  }

  /** `type_specifier` gives the type specifier of the keyword at the
      cursor, among `_Bool`, `char`, `short`, `int`, `long`, `float` and
      `double`. */
  lemma TypeSpecifierKeywords(c: ParseContext)
    requires c.Valid()
    ensures ParseTypeSpecifier(c).result == Ok(TypeSpecifierKeyword(c.Current()))
  {
    hide ParseTypeSpecifier;
    if TypeSpecifierKeyword(c.Current()).Some? {
      TypeSpecifierNamed(c);
    } else {
      TypeSpecifierUnnamed(c);
    }
  }

  lemma TypeSpecifierNamed(c: ParseContext)
    requires c.Valid() && TypeSpecifierKeyword(c.Current()).Some?
    ensures ParseTypeSpecifier(c).result == Ok(TypeSpecifierKeyword(c.Current()))
  {
    hide ConsumeKeyword;
    var t := c.Current();
    if t == Tk.Keyword(Tk.Bool) {
      Accepts(c, Tk.Bool);
    } else if t == Tk.Keyword(Tk.Char) {
      Declines(c, Tk.Bool); Accepts(c, Tk.Char);
    } else if t == Tk.Keyword(Tk.Short) {
      Declines(c, Tk.Bool); Declines(c, Tk.Char); Accepts(c, Tk.Short);
    } else if t == Tk.Keyword(Tk.Int) {
      Declines(c, Tk.Bool); Declines(c, Tk.Char); Declines(c, Tk.Short); Accepts(c, Tk.Int);
    } else if t == Tk.Keyword(Tk.Long) {
      Declines(c, Tk.Bool); Declines(c, Tk.Char); Declines(c, Tk.Short); Declines(c, Tk.Int); Accepts(c, Tk.Long);
    } else if t == Tk.Keyword(Tk.Float) {
      Declines(c, Tk.Bool); Declines(c, Tk.Char); Declines(c, Tk.Short); Declines(c, Tk.Int); Declines(c, Tk.Long); Accepts(c, Tk.Float);
    } else {
      Declines(c, Tk.Bool); Declines(c, Tk.Char); Declines(c, Tk.Short); Declines(c, Tk.Int); Declines(c, Tk.Long); Declines(c, Tk.Float); Accepts(c, Tk.Double);
    }
  }

  lemma TypeSpecifierUnnamed(c: ParseContext)
    requires c.Valid() && TypeSpecifierKeyword(c.Current()).None?
    ensures ParseTypeSpecifier(c).result == Ok(None)
  {
    hide ConsumeKeyword;
    Declines(c, Tk.Bool); Declines(c, Tk.Char); Declines(c, Tk.Short); Declines(c, Tk.Int); Declines(c, Tk.Long); Declines(c, Tk.Float); Declines(c, Tk.Double);
  }

  /** `type_qualifier` gives the qualifier of the keyword at the cursor. */
  lemma TypeQualifierKeywords(c: ParseContext)
    requires c.Valid()
    ensures ParseTypeQualifier(c).result == Ok(TypeQualifierKeyword(c.Current()))
  {
    hide ParseTypeQualifier;
    if TypeQualifierKeyword(c.Current()).Some? {
      TypeQualifierNamed(c);
    } else {
      TypeQualifierUnnamed(c);
    }
  }

  lemma TypeQualifierNamed(c: ParseContext)
    requires c.Valid() && TypeQualifierKeyword(c.Current()).Some?
    ensures ParseTypeQualifier(c).result == Ok(TypeQualifierKeyword(c.Current()))
  {
    hide ConsumeKeyword;
    var t := c.Current();
    if t == Tk.Keyword(Tk.Const) {
      Accepts(c, Tk.Const);
    } else if t == Tk.Keyword(Tk.Restrict) {
      Declines(c, Tk.Const); Accepts(c, Tk.Restrict);
    } else if t == Tk.Keyword(Tk.Volatile) {
      Declines(c, Tk.Const); Declines(c, Tk.Restrict); Accepts(c, Tk.Volatile);
    } else {
      Declines(c, Tk.Const); Declines(c, Tk.Restrict); Declines(c, Tk.Volatile); Accepts(c, Tk.Atomic);
    }
  }

  lemma TypeQualifierUnnamed(c: ParseContext)
    requires c.Valid() && TypeQualifierKeyword(c.Current()).None?
    ensures ParseTypeQualifier(c).result == Ok(None)
  {
    hide ConsumeKeyword;
    Declines(c, Tk.Const); Declines(c, Tk.Restrict); Declines(c, Tk.Volatile); Declines(c, Tk.Atomic);
  }

  /** `void`, `signed` and `unsigned` are type specifiers of C, but
      `type_specifier` does not recognise them and reads nothing. */
  lemma VoidAndSignsUnrecognised(c: ParseContext)
    requires c.Valid()
    requires c.Current() in {Tk.Keyword(Tk.Void), Tk.Keyword(Tk.Signed), Tk.Keyword(Tk.Unsigned)}
    ensures ParseTypeSpecifier(c) == Parsed(Ok(None), c)
  {
    TypeSpecifierKeywords(c);
  }

  // ---------------------------------------------------------------------
  // The loop of `declaration_specifier`

  /** The specifier a token starts, as the recognisers see it: a storage
      class, else a type specifier, else a type qualifier. */
  function SpecifierOf(t: Tk.Token): Option<DeclarationSpecifier> {
    if StorageClassOf(t).Some? then Some(StorageSpecifier(StorageClassOf(t).value))
    else if TypeSpecifierKeyword(t).Some? then Some(TypeSpecifierOf(TypeSpecifierKeyword(t).value))
    else if TypeQualifierKeyword(t).Some? then Some(TypeQualifierOf(TypeQualifierKeyword(t).value))
    else None
  }

  /** One iteration of the loop reads the specifier at the cursor; at any
      other token the chain reaches `alignment_specifier`, whose error ends
      the loop before the `break` is reached. */
  lemma OneSpecifier(c: ParseContext)
    requires c.Valid()
    ensures NextSpecifier(c, 0) ==
      if SpecifierOf(c.Current()).Some? then Parsed(Ok(SpecifierOf(c.Current())), F.Skip(c, 1))
      else Parsed(Err(NotImplemented), c)
  {
    hide NextSpecifier;
    var t := c.Current();
    if StorageClassOf(t).Some? {
      StorageStarts(c);
    } else if TypeSpecifierKeyword(t).Some? {
      TypeStarts(c);
    } else if TypeQualifierKeyword(t).Some? {
      QualifierStarts(c);
    } else {
      NothingStarts(c);
    }
  }

  lemma StorageStarts(c: ParseContext)
    requires c.Valid() && StorageClassOf(c.Current()).Some?
    ensures NextSpecifier(c, 0) == Parsed(Ok(Some(StorageSpecifier(StorageClassOf(c.Current()).value))), F.Skip(c, 1))
  {
    hide ParseStorageClassSpecifier, ParseTypeSpecifier, ParseTypeQualifier;
    StorageClassKeywords(c);
  }

  lemma TypeStarts(c: ParseContext)
    requires c.Valid() && StorageClassOf(c.Current()).None? && TypeSpecifierKeyword(c.Current()).Some?
    ensures NextSpecifier(c, 0) == Parsed(Ok(Some(TypeSpecifierOf(TypeSpecifierKeyword(c.Current()).value))), F.Skip(c, 1))
  {
    hide ParseStorageClassSpecifier, ParseTypeSpecifier, ParseTypeQualifier;
    StorageClassKeywords(c);
    TypeSpecifierKeywords(c);
    assert NextSpecifier(c, 0) == NextSpecifier(c, 1);
  }

  lemma QualifierStarts(c: ParseContext)
    requires c.Valid() && StorageClassOf(c.Current()).None? && TypeSpecifierKeyword(c.Current()).None?
    requires TypeQualifierKeyword(c.Current()).Some?
    ensures NextSpecifier(c, 0) == Parsed(Ok(Some(TypeQualifierOf(TypeQualifierKeyword(c.Current()).value))), F.Skip(c, 1))
  {
    hide ParseStorageClassSpecifier, ParseTypeSpecifier, ParseTypeQualifier;
    StorageClassKeywords(c);
    TypeSpecifierKeywords(c);
    TypeQualifierKeywords(c);
    assert NextSpecifier(c, 0) == NextSpecifier(c, 1);
    assert NextSpecifier(c, 1) == NextSpecifier(c, 2);
  }

  lemma NothingStarts(c: ParseContext)
    requires c.Valid() && StorageClassOf(c.Current()).None? && TypeSpecifierKeyword(c.Current()).None?
    requires TypeQualifierKeyword(c.Current()).None?
    ensures NextSpecifier(c, 0) == Parsed(Err(NotImplemented), c)
  {
    hide ParseStorageClassSpecifier, ParseTypeSpecifier, ParseTypeQualifier;
    StorageClassKeywords(c);
    TypeSpecifierKeywords(c);
    TypeQualifierKeywords(c);
    assert NextSpecifier(c, 0) == NextSpecifier(c, 1);
    assert NextSpecifier(c, 1) == NextSpecifier(c, 2);
    assert NextSpecifier(c, 2) == NextSpecifier(c, 3);
  }

  /** A specifier keyword is pushed after those read before it, and the
      loop goes on from the next token. */
  lemma SpecifierPushed(c: ParseContext, done: seq<DeclarationSpecifier>)
    requires c.Valid() && SpecifierOf(c.Current()).Some?
    ensures F.Skip(c, 1).Valid()
    ensures ParseDeclarationSpecifiers(c, done) ==
      ParseDeclarationSpecifiers(F.Skip(c, 1), done + [SpecifierOf(c.Current()).value])
  {
    OneSpecifier(c);
  }

  /** At any other token the loop ends with the error of
      `alignment_specifier`, before `break` could turn the list into a
      result. */
  lemma SpecifierLoopFails(c: ParseContext, done: seq<DeclarationSpecifier>)
    requires c.Valid() && SpecifierOf(c.Current()).None?
    ensures ParseDeclarationSpecifiers(c, done) == Parsed(Err(NotImplemented), c)
  {
    OneSpecifier(c);
  }

  /** The specifiers of a run of tokens, in order. */
  function SpecifiersOf(ts: seq<Tk.Token>): (r: seq<DeclarationSpecifier>)
    requires forall i | 0 <= i < |ts| :: SpecifierOf(ts[i]).Some?
    ensures |r| == |ts|
    ensures forall i | 0 <= i < |ts| :: r[i] == SpecifierOf(ts[i]).value
    decreases |ts|
  {
    if |ts| == 0 then [] else [SpecifierOf(ts[0]).value] + SpecifiersOf(ts[1..])
  }

  /** The `n` tokens from the cursor on are all specifier keywords. */
  predicate SpecifierRun(c: ParseContext, n: nat) {
    c.Valid() && c.pos + n < |c.tokens|
    && forall i | c.pos <= i < c.pos + n :: SpecifierOf(c.tokens[i]).Some?
  }

  /** Over a run of specifier keywords the loop pushes their specifiers in
      the order they are written. */
  lemma {:induction false} SpecifiersInOrder(c: ParseContext, done: seq<DeclarationSpecifier>, n: nat)
    requires SpecifierRun(c, n)
    ensures F.Skip(c, n).Valid()
    ensures ParseDeclarationSpecifiers(c, done) ==
      ParseDeclarationSpecifiers(F.Skip(c, n), done + SpecifiersOf(c.tokens[c.pos..c.pos + n]))
    decreases n
  {
    hide ParseDeclarationSpecifiers;
    if n == 0 {
      assert c.tokens[c.pos..c.pos + n] == [];
      assert F.Skip(c, n) == c;
      assert done + SpecifiersOf(c.tokens[c.pos..c.pos + n]) == done;
    } else {
      hide SpecifierOf;
      var run := c.tokens[c.pos..c.pos + n];
      var rest := c.tokens[c.pos + 1..c.pos + n];
      var s := SpecifierOf(c.Current()).value;
      SpecifierPushed(c, done);
      assert SpecifierRun(F.Skip(c, 1), n - 1);
      SpecifiersInOrder(F.Skip(c, 1), done + [s], n - 1);
      assert run[0] == c.Current() && run[1..] == rest;
      assert SpecifiersOf(run) == [s] + SpecifiersOf(rest);
      assert done + [s] + SpecifiersOf(rest) == done + SpecifiersOf(run);
      assert F.Skip(F.Skip(c, 1), n - 1) == F.Skip(c, n);
    }
  }

  /** Whatever the tokens, `declaration_specifier` fails with the error of
      `alignment_specifier`, on the first token that is not a specifier
      keyword, after reading every specifier keyword before it. */
  lemma {:induction false} SpecifiersNeverSucceed(c: ParseContext, done: seq<DeclarationSpecifier>)
    requires c.Valid()
    ensures ParseDeclarationSpecifiers(c, done).result == Err(NotImplemented)
    ensures SpecifierOf(ParseDeclarationSpecifiers(c, done).next.Current()).None?
    ensures SpecifierRun(c, ParseDeclarationSpecifiers(c, done).next.pos - c.pos)
    decreases c.Remaining()
  {
    hide ParseDeclarationSpecifiers;
    if SpecifierOf(c.Current()).None? {
      SpecifierLoopFails(c, done);
    } else {
      var s := SpecifierOf(c.Current()).value;
      SpecifierPushed(c, done);
      SpecifiersNeverSucceed(F.Skip(c, 1), done + [s]);
    }
  }

  // ---------------------------------------------------------------------
  // `declaration`

  /** `declaration` never succeeds: the error of `declaration_specifier`
      rises unchanged, with the cursor where that loop stopped. */
  lemma DeclarationNeverSucceeds(c: ParseContext)
    requires c.Valid()
    ensures ParseDeclaration(c) == Parsed(Err(NotImplemented), ParseDeclarationSpecifiers(c, []).next)
  {
    hide ParseDeclarationSpecifiers;
    SpecifiersNeverSucceed(c, []);
  }

  /** The stubs fail without reading. */
  lemma StubsFail(c: ParseContext)
    requires c.Valid()
    ensures ParseInitDeclarator(c) == Parsed(Err(NotImplemented), c)
    ensures ParseDeclarator(c) == Parsed(Err(NotImplemented), c)
  {
  }

  /** The loop of `declaration`: a missing init-declarator is
      `Err(Unparsable)` where it was looked for. */
  lemma InitDeclaratorMissing(d: ParseContext, done: seq<InitDeclarator>)
    requires d.Valid()
    ensures InitDeclarators(Parsed(Ok(None), d), done) == Parsed(Err(Unparsable), d)
  {
  }

  /** An init-declarator followed by `;` closes the list, appended in order. */
  lemma InitDeclaratorsClosed(x: InitDeclarator, d: ParseContext, done: seq<InitDeclarator>)
    requires d.Valid() && d.Current() == Tk.Punctuator(Tk.Semicolon)
    ensures InitDeclarators(Parsed(Ok(Some(x)), d), done) == Parsed(Ok(done + [x]), F.Skip(d, 1))
  {
    assert ConsumePunctuator(d, Tk.Comma).next == d;
  }

  /** An init-declarator followed by anything but `,` or `;` is
      `Err(ExpectedPunctuator(Semicolon))` on that token. */
  lemma InitDeclaratorsUnclosed(x: InitDeclarator, d: ParseContext, done: seq<InitDeclarator>)
    requires d.Valid()
    requires d.Current() != Tk.Punctuator(Tk.Comma) && d.Current() != Tk.Punctuator(Tk.Semicolon)
    ensures InitDeclarators(Parsed(Ok(Some(x)), d), done) == Parsed(Err(ExpectedPunctuator(Tk.Semicolon)), d)
  {
  }

  /** After a `,` the next init-declarator is read, and the stub fails
      there. */
  lemma InitDeclaratorsAfterComma(x: InitDeclarator, d: ParseContext, done: seq<InitDeclarator>)
    requires d.Valid() && d.Current() == Tk.Punctuator(Tk.Comma)
    ensures InitDeclarators(Parsed(Ok(Some(x)), d), done) == Parsed(Err(NotImplemented), F.Skip(d, 1))
  {
    assert ConsumePunctuator(d, Tk.Comma).next == F.Skip(d, 1);
  }
}

=== FILE: expression.dfy ===
/** The expression parser of `src/parser/expression.rs`: recursive descent
    with one function per precedence level.

    Twelve of the Rust functions (`expression`, `assign`, `logical_or` …
    `multiply`) are the same loop: parse an operand one level tighter, then
    while the next token is one of this level's operators, consume it, parse
    another operand and make the tree built so far its left child.  That
    loop is written once here, as `Binary` and `BinaryTail`, and a `Level`
    picks out which Rust function is meant: its operand parser (`Operand`)
    and its operator table (`Rules`).  `conditional`, `unary`, `postfix`,
    `primary` and `literal` have their own shapes and their own functions.

    Every parser takes a valid cursor and returns a `Parsed` value: the
    result and where the cursor was left (on an error, wherever the failing
    step left it).  They are mutually recursive; each call either reads
    fewer tokens or goes one step down a fixed ranking of the functions,
    which is what the `decreases` clauses say. */
module ExpressionParser {
  import opened Prelude
  import Tk = Tokenizer
  import opened Cursor

  datatype TernaryOperatorKind = Conditional

  datatype BinaryOperatorKind =
    | Add | Sub | Mul | Div | Mod | Dot | LeftShift | RightShift | Equal | NotEqual
    | LessThan | LessThanEqual | LogicalAnd | LogicalOr | BitwiseAnd | BitwiseXor
    | BitwiseOr | Assign | Comma

  /** `Cast(Type)` is not here: the parser never builds it. */
  datatype UnaryOperatorKind =
    | LogicalNot | BitwiseNot | Reference | Dereference
    | FunctionCall(arguments: seq<ExpressionNode>)

  datatype Immediate = String(text: string) | Char(character: char) | Number(number: Tk.Int32)

  /** The Rust tree shares children through `Arc`; here they are plain
      subtrees, so the shared operand of `x++` is two equal subtrees. */
  datatype ExpressionNode =
    | TernaryOperator(ternary: TernaryOperatorKind, first: ExpressionNode,
                      second: ExpressionNode, third: ExpressionNode)
    | BinaryOperator(binary: BinaryOperatorKind, lhs: ExpressionNode, rhs: ExpressionNode)
    | UnaryOperator(unary: UnaryOperatorKind, operand: ExpressionNode)
    | Immediate(immediate: Immediate)

  /** The `Type {}` placeholder a cast would carry. */
  datatype Type = Type

  // ---------------------------------------------------------------------
  // The binary levels, loosest first

  datatype Level =
    | CommaLevel | AssignLevel | LogicalOrLevel | LogicalAndLevel | InclusiveOrLevel
    | ExclusiveOrLevel | AndLevel | EqualityLevel | RelationalLevel | ShiftLevel
    | AdditiveLevel | MultiplicativeLevel

  /** How far from the loosest level: `expression` is 0, `multiply` 11. */
  function Depth(level: Level): nat {
    match level
    case CommaLevel => 0
    case AssignLevel => 1
    case LogicalOrLevel => 2
    case LogicalAndLevel => 3
    case InclusiveOrLevel => 4
    case ExclusiveOrLevel => 5
    case AndLevel => 6
    case EqualityLevel => 7
    case RelationalLevel => 8
    case ShiftLevel => 9
    case AdditiveLevel => 10
    case MultiplicativeLevel => 11
  }

  /** The level whose parser is called for operands of `level` (for
      `assign` the operand parser is `conditional`, which calls
      `logical_or`). */
  function Tighter(level: Level): (t: Level)
    requires level != MultiplicativeLevel
    ensures Depth(t) == Depth(level) + 1
  {
    match level
    case CommaLevel => AssignLevel
    case AssignLevel => LogicalOrLevel
    case LogicalOrLevel => LogicalAndLevel
    case LogicalAndLevel => InclusiveOrLevel
    case InclusiveOrLevel => ExclusiveOrLevel
    case ExclusiveOrLevel => AndLevel
    case AndLevel => EqualityLevel
    case EqualityLevel => RelationalLevel
    case RelationalLevel => ShiftLevel
    case ShiftLevel => AdditiveLevel
    case AdditiveLevel => MultiplicativeLevel
  }

  /** One `else if consume_punctuator(token)` arm of a level's loop: the node
      kind it builds, and whether the operands are swapped (the `>` and `>=`
      arms build `<` and `<=` with the new operand on the left). */
  datatype OperatorRule = OperatorRule(token: Tk.PunctuatorKind, kind: BinaryOperatorKind, swapped: bool)

  /** The arms of each level's loop, in the order the Rust code tries them. */
  function Rules(level: Level): seq<OperatorRule> {
    match level
    case CommaLevel => [OperatorRule(Tk.Comma, Comma, false)]
    case AssignLevel => [OperatorRule(Tk.Equal, Assign, false)]
    case LogicalOrLevel => [OperatorRule(Tk.DoublePipelines, LogicalOr, false)]
    case LogicalAndLevel => [OperatorRule(Tk.DoubleAmpersands, LogicalAnd, false)]
    case InclusiveOrLevel => [OperatorRule(Tk.Pipeline, BitwiseOr, false)]
    case ExclusiveOrLevel => [OperatorRule(Tk.Hat, BitwiseXor, false)]
    case AndLevel => [OperatorRule(Tk.Ampersand, BitwiseAnd, false)]
    case EqualityLevel =>
      [OperatorRule(Tk.DoubleEquals, Equal, false), OperatorRule(Tk.ExclamationEqual, NotEqual, false)]
    case RelationalLevel =>
      [OperatorRule(Tk.LessThan, LessThan, false), OperatorRule(Tk.GreaterThan, LessThan, true),
       OperatorRule(Tk.LessThanEqual, LessThanEqual, false),
       OperatorRule(Tk.GreaterThanEqual, LessThanEqual, true)]
    case ShiftLevel =>
      [OperatorRule(Tk.DoubleLessThans, LeftShift, false),
       OperatorRule(Tk.DoubleGreaterThans, RightShift, false)]
    case AdditiveLevel => [OperatorRule(Tk.Plus, Add, false), OperatorRule(Tk.Minus, Sub, false)]
    case MultiplicativeLevel =>
      [OperatorRule(Tk.Star, Mul, false), OperatorRule(Tk.Slash, Div, false),
       OperatorRule(Tk.Percent, Mod, false)]
  }

  /** The node one arm builds from the tree so far and the new operand. */
  function Combine(rule: OperatorRule, current: ExpressionNode, operand: ExpressionNode): (e: ExpressionNode)
    ensures e.BinaryOperator? && e.binary == rule.kind
    ensures rule.swapped ==> e.lhs == operand && e.rhs == current
    ensures !rule.swapped ==> e.lhs == current && e.rhs == operand
  {
    if rule.swapped then BinaryOperator(rule.kind, operand, current)
    else BinaryOperator(rule.kind, current, operand)
  }

  /** The `else if` chain of one loop iteration: the first rule whose
      punctuator is under the cursor, consumed; or nothing, consumed. */
  function MatchRule(rules: seq<OperatorRule>, c: ParseContext): (r: Consumed<OperatorRule>)
    requires c.Valid()
    ensures r.value.Some? ==>
      exists i :: 0 <= i < |rules| && rules[i] == r.value.value &&
        c.Current() == Tk.Punctuator(rules[i].token) &&
        forall j :: 0 <= j < i ==> c.Current() != Tk.Punctuator(rules[j].token)
    ensures r.value.Some? ==> r.next.tokens == c.tokens && r.next.pos == c.pos + 1
    ensures r.value.None? <==>
      forall i :: 0 <= i < |rules| ==> c.Current() != Tk.Punctuator(rules[i].token)
    ensures r.value.None? ==> r.next == c
    ensures Follows(c, r.next)
  {
    if |rules| == 0 then Consumed(None, c)
    else
      var step := ConsumePunctuator(c, rules[0].token);
      if step.value.Some? then Consumed(Some(rules[0]), step.next)
      else
        var rest := MatchRule(rules[1..], c);
        if rest.value.Some? then
          ghost var i :| 0 <= i < |rules[1..]| && rules[1..][i] == rest.value.value &&
            c.Current() == Tk.Punctuator(rules[1..][i].token) &&
            forall j :: 0 <= j < i ==> c.Current() != Tk.Punctuator(rules[1..][j].token);
          assert rules[i + 1] == rest.value.value;
          rest
        else rest
  }

  // ---------------------------------------------------------------------
  // The parsers

  /** `expression`: comma-separated assignments, folded to the left. */
  function Expression(c: ParseContext): (r: Parsed<ExpressionNode>)
    requires c.Valid()
    ensures Follows(c, r.next)
    ensures r.result.Ok? ==> c.pos < r.next.pos
    decreases c.Remaining(), 40
  {
    Binary(CommaLevel, c)
  }

  /** One of `expression`, `assign`, `logical_or` … `multiply`: an operand,
      then the loop over this level's operators. */
  function Binary(level: Level, c: ParseContext): (r: Parsed<ExpressionNode>)
    requires c.Valid()
    ensures Follows(c, r.next)
    ensures r.result.Ok? ==> c.pos < r.next.pos
    decreases c.Remaining(), 3 * (11 - Depth(level)) + 6
  {
    var first := Operand(level, c);
    match first.result
    case Err(e) => Parsed(Err(e), first.next)
    case Ok(lhs) => BinaryTail(level, lhs, first.next)
  }

  /** The operand parser a level calls. */
  function Operand(level: Level, c: ParseContext): (r: Parsed<ExpressionNode>)
    requires c.Valid()
    ensures Follows(c, r.next)
    ensures r.result.Ok? ==> c.pos < r.next.pos
    decreases c.Remaining(), 3 * (11 - Depth(level)) + 5
  {
    if level == AssignLevel then ConditionalExpression(c)
    else if level == MultiplicativeLevel then Unary(c)
    else Binary(Tighter(level), c)
  }

  /** The loop of a level, with `current` the tree built so far. */
  function BinaryTail(level: Level, current: ExpressionNode, c: ParseContext): (r: Parsed<ExpressionNode>)
    requires c.Valid()
    ensures Follows(c, r.next)
    decreases c.Remaining(), 0
  {
    var arm := MatchRule(Rules(level), c);
    match arm.value
    case None => Parsed(Ok(current), arm.next)
    case Some(rule) =>
      var operand := Operand(level, arm.next);
      match operand.result
      case Err(e) => Parsed(Err(e), operand.next)
      case Ok(rhs) => BinaryTail(level, Combine(rule, current, rhs), operand.next)
  }

  /** `conditional`: `c ? e : f` with a full expression in the middle and a
      conditional again after `:`, so it nests to the right. */
  function ConditionalExpression(c: ParseContext): (r: Parsed<ExpressionNode>)
    requires c.Valid()
    ensures Follows(c, r.next)
    ensures r.result.Ok? ==> c.pos < r.next.pos
    decreases c.Remaining(), 34
  {
    var condition := Binary(LogicalOrLevel, c);
    match condition.result
    case Err(e) => Parsed(Err(e), condition.next)
    case Ok(first) => ConditionalBranches(first, condition.next)
  }

  /** The part of `conditional` after the condition `first`. */
  function ConditionalBranches(first: ExpressionNode, c: ParseContext): (r: Parsed<ExpressionNode>)
    requires c.Valid()
    ensures Follows(c, r.next)
    decreases c.Remaining(), 33
  {
    var question := ConsumePunctuator(c, Tk.Question);
    if question.value.None? then Parsed(Ok(first), question.next)
    else
      var second := Expression(question.next);
      match second.result
      case Err(e) => Parsed(Err(e), second.next)
      case Ok(middle) =>
        var colon := ExpectPunctuator(second.next, Tk.Colon);
        match colon.result
        case Err(e) => Parsed(Err(e), colon.next)
        case Ok(_) =>
          var third := ConditionalExpression(colon.next);
          match third.result
          case Err(e) => Parsed(Err(e), third.next)
          case Ok(last) => Parsed(Ok(TernaryOperator(Conditional, first, middle, last)), third.next)
  }

  /** The first loop of `unary`: the prefix operators in source order. */
  function PrefixOperators(c: ParseContext): (r: (seq<UnaryOperatorKind>, ParseContext))
    requires c.Valid()
    ensures Follows(c, r.1) && r.1.pos == c.pos + |r.0|
    ensures forall k :: c.pos <= k < r.1.pos ==> IsPrefixToken(c.tokens[k])
    ensures !IsPrefixToken(r.1.Current())
    ensures |r.0| > 0 ==> PrefixOperatorAt(c) == Some(r.0[0])
    decreases c.Remaining()
  {
    match PrefixOperatorAt(c)
    case None => ([], c)
    case Some(op) =>
      assert c.pos != |c.tokens| - 1;  // `End` is no prefix operator
      var after := ConsumeToken(c);
      var rest := PrefixOperators(after);
      ([op] + rest.0, rest.1)
  }

  /** One iteration of that loop: the `else if` chain over `!`, `~`, `&`
      and `*`. */
  function PrefixOperatorAt(c: ParseContext): (r: Option<UnaryOperatorKind>)
    requires c.pos < |c.tokens|
    ensures r.Some? <==> IsPrefixToken(c.Current())
    ensures r.Some? ==> PrefixToken(r.value).Some? && c.Current() == Tk.Punctuator(PrefixToken(r.value).value)
  {
    if ConsumePunctuator(c, Tk.Exclamation).value.Some? then Some(LogicalNot)
    else if ConsumePunctuator(c, Tk.Tilde).value.Some? then Some(BitwiseNot)
    else if ConsumePunctuator(c, Tk.Ampersand).value.Some? then Some(Reference)
    else if ConsumePunctuator(c, Tk.Star).value.Some? then Some(Dereference)
    else None
  }

  /** The punctuator a prefix operator is written with. */
  function PrefixToken(op: UnaryOperatorKind): Option<Tk.PunctuatorKind> {
    match op
    case LogicalNot => Some(Tk.Exclamation)
    case BitwiseNot => Some(Tk.Tilde)
    case Reference => Some(Tk.Ampersand)
    case Dereference => Some(Tk.Star)
    case FunctionCall(_) => None
  }

  predicate IsPrefixToken(t: Tk.Token) {
    t == Tk.Punctuator(Tk.Exclamation) || t == Tk.Punctuator(Tk.Tilde) ||
    t == Tk.Punctuator(Tk.Ampersand) || t == Tk.Punctuator(Tk.Star)
  }

  /** The second loop of `unary`: pops the operator stack, so the operator
      pushed last is applied first and ends up innermost. */
  function WrapUnary(stack: seq<UnaryOperatorKind>, operand: ExpressionNode): (e: ExpressionNode)
    decreases |stack|
  {
    if |stack| == 0 then operand
    else WrapUnary(stack[..|stack| - 1], UnaryOperator(stack[|stack| - 1], operand))
  }

  /** `unary`: prefix operators, then a postfix expression. */
  function Unary(c: ParseContext): (r: Parsed<ExpressionNode>)
    requires c.Valid()
    ensures Follows(c, r.next)
    ensures r.result.Ok? ==> c.pos < r.next.pos
    decreases c.Remaining(), 4
  {
    var prefix := PrefixOperators(c);
    var operand := Postfix(prefix.1);
    match operand.result
    case Err(e) => Parsed(Err(e), operand.next)
    case Ok(e) => Parsed(Ok(WrapUnary(prefix.0, e)), operand.next)
  }

  /** `postfix`: a primary, then calls, subscripts, `++` and `--`. */
  function Postfix(c: ParseContext): (r: Parsed<ExpressionNode>)
    requires c.Valid()
    ensures Follows(c, r.next)
    ensures r.result.Ok? ==> c.pos < r.next.pos
    decreases c.Remaining(), 3
  {
    var first := Primary(c);
    match first.result
    case Err(e) => Parsed(Err(e), first.next)
    case Ok(e) => PostfixTail(e, first.next)
  }

  /** The loop of `postfix`.  `a[i]` becomes `a + i`, `x++` becomes
      `x = x + 1` and `x--` becomes `x = x - 1`.  After `(` the arguments
      are assignments separated by `,`; only an empty list has its `)`
      consumed. */
  function PostfixTail(current: ExpressionNode, c: ParseContext): (r: Parsed<ExpressionNode>)
    requires c.Valid()
    ensures Follows(c, r.next)
    decreases c.Remaining(), 0
  {
    var call := ConsumePunctuator(c, Tk.LeftRoundBracket);
    if call.value.Some? then
      var close := ConsumePunctuator(call.next, Tk.RightRoundBracket);
      var arguments := if close.value.Some? then Parsed(Ok([]), close.next) else Arguments(call.next, []);
      match arguments.result
      case Err(e) => Parsed(Err(e), arguments.next)
      case Ok(list) => PostfixTail(UnaryOperator(FunctionCall(list), current), arguments.next)
    else
      var subscript := ConsumePunctuator(c, Tk.LeftSquareBracket);
      if subscript.value.Some? then
        var index := Expression(subscript.next);
        match index.result
        case Err(e) => Parsed(Err(e), index.next)
        case Ok(i) =>
          var close := ExpectPunctuator(index.next, Tk.RightSquareBracket);
          match close.result
          case Err(e) => Parsed(Err(e), close.next)
          case Ok(_) => PostfixTail(BinaryOperator(Add, current, i), close.next)
      else
        var increment := ConsumePunctuator(c, Tk.DoublePluses);
        if increment.value.Some? then
          var sum := BinaryOperator(Add, current, Immediate(Number(1)));
          PostfixTail(BinaryOperator(Assign, current, sum), increment.next)
        else
          var decrement := ConsumePunctuator(c, Tk.DoubleMinuses);
          if decrement.value.Some? then
            var difference := BinaryOperator(Sub, current, Immediate(Number(1)));
            PostfixTail(BinaryOperator(Assign, current, difference), decrement.next)
          else Parsed(Ok(current), c)
  }

  /** The argument loop of `postfix`, with `done` the arguments so far. */
  function Arguments(c: ParseContext, done: seq<ExpressionNode>): (r: Parsed<seq<ExpressionNode>>)
    requires c.Valid()
    ensures Follows(c, r.next)
    ensures r.result.Ok? ==> c.pos < r.next.pos && |r.result.value| > |done|
    ensures r.result.Ok? ==> r.result.value[..|done|] == done
    decreases c.Remaining(), 41
  {
    var argument := Binary(AssignLevel, c);
    match argument.result
    case Err(e) => Parsed(Err(e), argument.next)
    case Ok(a) =>
      var comma := ConsumePunctuator(argument.next, Tk.Comma);
      if comma.value.None? then Parsed(Ok(done + [a]), comma.next)
      else
        var rest := Arguments(comma.next, done + [a]);
        assert rest.result.Ok? ==> rest.result.value[..|done|] == (done + [a])[..|done|];
        rest
  }

  /** `primary`: `(` expression `)`, or a literal.  When the inner
      expression fails the closing bracket is still looked for where it
      stopped, and a missing `)` is the error reported. */
  function Primary(c: ParseContext): (r: Parsed<ExpressionNode>)
    requires c.Valid()
    ensures Follows(c, r.next)
    ensures r.result.Ok? ==> c.pos < r.next.pos
    decreases c.Remaining(), 2
  {
    var open := ConsumePunctuator(c, Tk.LeftRoundBracket);
    if open.value.Some? then
      var inner := Expression(open.next);
      var close := ExpectPunctuator(inner.next, Tk.RightRoundBracket);
      match close.result
      case Err(e) => Parsed(Err(e), close.next)
      case Ok(_) => Parsed(inner.result, close.next)
    else LiteralExpression(c)
  }

  /** `literal`: the literal token under the cursor as an immediate. */
  function LiteralExpression(c: ParseContext): (r: Parsed<ExpressionNode>)
    requires c.Valid()
    ensures Follows(c, r.next)
    ensures r.result.Ok? <==> c.Current().Literal?
    ensures r.result.Ok? ==> r.next.pos == c.pos + 1 && r.result.value == Immediate(ImmediateOf(c.Current().literal))
    ensures r.result.Err? ==> r.result.error == ExpectedLiteral && r.next == c
  {
    var content := ExpectLiteral(c);
    match content.result
    case Err(e) => Parsed(Err(e), content.next)
    case Ok(literal) => Parsed(Ok(Immediate(ImmediateOf(literal))), content.next)
  }

  /** The immediate a literal token stands for. */
  function ImmediateOf(literal: Tk.Literal): Immediate {
    match literal
    case StringLit(text) => String(text)
    case CharLit(value) => Char(value)
    case NumberLit(value) => Number(value)
  }
}

=== FILE: expression_facts.dfy ===
/** Properties of the expression parser.

    The central one is a round trip: `Render` prints a tree as tokens with
    every operand in brackets, and `Expression` reads the printed tokens
    back to the same tree (`RenderParses`).  The printer is the parser's
    partner: it is written from the grammar, independently of the parser's
    levels, and the proof goes through every level of the parser.

    The remaining lemmas state the shapes the code promises for inputs that
    are not fully bracketed: operators of one level fold to the left (`=`
    included), a tighter level binds first, `>`/`>=` are stored as `<`/`<=`
    with the operands swapped, the conditional nests to the right, prefix
    operators nest first-outermost, and the postfix forms are rewritten. */
module ExpressionFacts {
  import opened Prelude
  import Tk = Tokenizer
  import opened Cursor
  import opened ExpressionParser

  // ---------------------------------------------------------------------
  // Positions in the token sequence

  function Skip(c: ParseContext, n: nat): ParseContext {
    ParseContext(c.tokens, c.pos + n)
  }

  /** The tokens `w` stand at the cursor. */
  predicate At(c: ParseContext, w: seq<Tk.Token>) {
    c.pos + |w| <= |c.tokens| && c.tokens[c.pos..c.pos + |w|] == w
  }

  lemma AtConcat(c: ParseContext, a: seq<Tk.Token>, b: seq<Tk.Token>)
    requires At(c, a + b)
    ensures At(c, a) && At(Skip(c, |a|), b)
  {
    assert c.tokens[c.pos..c.pos + |a|] == (a + b)[..|a|];
    assert c.tokens[c.pos + |a|..c.pos + |a| + |b|] == (a + b)[|a|..];
  }

  lemma AtToken(c: ParseContext, t: Tk.Token)
    requires At(c, [t])
    ensures c.pos < |c.tokens| && c.tokens[c.pos] == t
  {
    assert c.tokens[c.pos..c.pos + 1][0] == t;
  }

  // ---------------------------------------------------------------------
  // Which level an operator token belongs to

  /** The level whose loop consumes the punctuator `k`, if any. */
  function LevelOf(k: Tk.PunctuatorKind): Option<Level> {
    match k
    case Comma => Some(CommaLevel)
    case Equal => Some(AssignLevel)
    case DoublePipelines => Some(LogicalOrLevel)
    case DoubleAmpersands => Some(LogicalAndLevel)
    case Pipeline => Some(InclusiveOrLevel)
    case Hat => Some(ExclusiveOrLevel)
    case Ampersand => Some(AndLevel)
    case DoubleEquals => Some(EqualityLevel)
    case ExclamationEqual => Some(EqualityLevel)
    case LessThan => Some(RelationalLevel)
    case GreaterThan => Some(RelationalLevel)
    case LessThanEqual => Some(RelationalLevel)
    case GreaterThanEqual => Some(RelationalLevel)
    case DoubleLessThans => Some(ShiftLevel)
    case DoubleGreaterThans => Some(ShiftLevel)
    case Plus => Some(AdditiveLevel)
    case Minus => Some(AdditiveLevel)
    case Star => Some(MultiplicativeLevel)
    case Slash => Some(MultiplicativeLevel)
    case Percent => Some(MultiplicativeLevel)
    case _ => None
  }

  /** Where in its level's arms an operator punctuator is tried. */
  function ArmIndex(k: Tk.PunctuatorKind): nat {
    match k
    case ExclamationEqual => 1
    case GreaterThan => 1
    case LessThanEqual => 2
    case GreaterThanEqual => 3
    case DoubleGreaterThans => 1
    case Minus => 1
    case Slash => 1
    case Percent => 2
    case _ => 0
  }

  /** The loop of `level` does not continue at token `t`. */
  predicate Stops(level: Level, t: Tk.Token) {
    forall i :: 0 <= i < |Rules(level)| ==> t != Tk.Punctuator(Rules(level)[i].token)
  }

  /** Every level's loop stops at `t` except the one `LevelOf` names: each
      operator punctuator belongs to exactly one level. */
  lemma StopsUnlessOwnLevel(level: Level, t: Tk.Token)
    ensures Stops(level, t) <==> !(t.Punctuator? && LevelOf(t.punctuator) == Some(level))
  {
    hide LevelOf, ArmIndex, Rules;
    if t.Punctuator? && LevelOf(t.punctuator) == Some(level) {
      ArmOf(t.punctuator);
      assert Rules(level)[ArmIndex(t.punctuator)].token == t.punctuator;
    }
    if !Stops(level, t) {
      var i :| 0 <= i < |Rules(level)| && t == Tk.Punctuator(Rules(level)[i].token);
      RuleLevel(level, i);
    }
  }

  /** The punctuator of each arm belongs to the arm's level. */
  lemma RuleLevel(level: Level, i: nat)
    requires i < |Rules(level)|
    ensures LevelOf(Rules(level)[i].token) == Some(level)
  {
    match level
    case CommaLevel =>
    case AssignLevel =>
    case LogicalOrLevel =>
    case LogicalAndLevel =>
    case InclusiveOrLevel =>
    case ExclusiveOrLevel =>
    case AndLevel =>
    case EqualityLevel =>
    case RelationalLevel =>
    case ShiftLevel =>
    case AdditiveLevel =>
    case MultiplicativeLevel =>
  }

  /** `?` belongs to no level, so every level's loop stops at it. */
  lemma QuestionIsNoOperator()
    ensures LevelOf(Tk.Question).None?
    ensures forall n: nat :: Loose(Tk.Punctuator(Tk.Question), n)
  {
  }

  /** `t` is no operator of a level at depth `depth` or deeper. */
  predicate Loose(t: Tk.Token, depth: nat) {
    !t.Punctuator? || LevelOf(t.punctuator).None? || Depth(LevelOf(t.punctuator).value) < depth
  }

  predicate IsPostfixToken(t: Tk.Token) {
    t == Tk.Punctuator(Tk.LeftRoundBracket) || t == Tk.Punctuator(Tk.LeftSquareBracket) ||
    t == Tk.Punctuator(Tk.DoublePluses) || t == Tk.Punctuator(Tk.DoubleMinuses)
  }

  /** A token at which a complete expression ends: no level, the
      conditional and the postfix loop go on past it.  `)`, `]`, `:`, `;`,
      `}`, keywords, identifiers, literals and `End` are such tokens. */
  predicate Ends(t: Tk.Token) {
    Loose(t, 0) && t != Tk.Punctuator(Tk.Question) && !IsPostfixToken(t)
  }

  /** `unary` reads `v` at `c` and stops at `d`. */
  predicate UnaryAt(c: ParseContext, v: ExpressionNode, d: ParseContext) {
    c.Valid() && Unary(c) == Parsed(Ok(v), d) && d.Valid()
  }

  /** The punctuator `k` stands at `d`; after it `unary` reads `v` and
      stops at `e`. */
  predicate OperandAfter(d: ParseContext, k: Tk.PunctuatorKind, v: ExpressionNode, e: ParseContext) {
    d.Valid() && d.Current() == Tk.Punctuator(k) && UnaryAt(Skip(d, 1), v, e)
  }

  /** `? b :` stands at `d1`: a `?`, then an expression `b` that stops at
      `d3`, where a `:` stands. */
  predicate Branches(d1: ParseContext, b: ExpressionNode, d3: ParseContext) {
    d1.Valid() && d1.Current() == Tk.Punctuator(Tk.Question) &&
    Skip(d1, 1).Valid() && Expression(Skip(d1, 1)) == Parsed(Ok(b), d3) &&
    d3.Valid() && d3.Current() == Tk.Punctuator(Tk.Colon) && Skip(d3, 1).Valid()
  }

  /** `?` and `:` start no postfix operator, `:` ends an expression, and
      so does no token that starts a postfix operator. */
  lemma Separators(t: Tk.Token)
    ensures !IsPostfixToken(Tk.Punctuator(Tk.Question)) && Ends(Tk.Punctuator(Tk.Colon))
    ensures Ends(Tk.Punctuator(Tk.RightRoundBracket)) && Ends(Tk.Punctuator(Tk.Semicolon))
    ensures !IsPrefixToken(Tk.Punctuator(Tk.LeftRoundBracket))
    ensures Ends(t) ==> !IsPostfixToken(t)
  {
  }

  // ---------------------------------------------------------------------
  // One step of each parser
  //
  // Each lemma unfolds one parser once.  The longer proofs below hide the
  // parsers' bodies and go through these steps only, which keeps what the
  // solver sees small.

  lemma ExpressionStep(c: ParseContext)
    requires c.Valid()
    ensures Expression(c) == Binary(CommaLevel, c)
  {
  }

  lemma OperandStep(level: Level, c: ParseContext)
    requires c.Valid()
    ensures level == AssignLevel ==> Operand(level, c) == ConditionalExpression(c)
    ensures level == MultiplicativeLevel ==> Operand(level, c) == Unary(c)
    ensures level != AssignLevel && level != MultiplicativeLevel ==>
      Operand(level, c) == Binary(Tighter(level), c)
  {
  }

  lemma BinaryStep(level: Level, c: ParseContext, v: ExpressionNode, d: ParseContext)
    requires c.Valid() && Operand(level, c) == Parsed(Ok(v), d)
    ensures d.Valid() && Binary(level, c) == BinaryTail(level, v, d)
  {
  }

  lemma BinaryTailStep(level: Level, current: ExpressionNode, c: ParseContext, rule: OperatorRule,
                       d: ParseContext, rhs: ExpressionNode, e: ParseContext)
    requires c.Valid() && MatchRule(Rules(level), c) == Consumed(Some(rule), d)
    requires d.Valid() && Operand(level, d) == Parsed(Ok(rhs), e)
    ensures e.Valid() && BinaryTail(level, current, c) == BinaryTail(level, Combine(rule, current, rhs), e)
  {
  }

  /** What a level's loop does at a token it does not know. */
  lemma BinaryTailStops(level: Level, current: ExpressionNode, c: ParseContext)
    requires c.Valid() && Loose(c.Current(), Depth(level))
    ensures BinaryTail(level, current, c) == Parsed(Ok(current), c)
  {
    StopsUnlessOwnLevel(level, c.Current());
  }

  lemma ConditionalStep(c: ParseContext, v: ExpressionNode, d: ParseContext)
    requires c.Valid() && Binary(LogicalOrLevel, c) == Parsed(Ok(v), d)
    ensures d.Valid() && ConditionalExpression(c) == ConditionalBranches(v, d)
  {
  }

  lemma ConditionalStops(c: ParseContext, v: ExpressionNode, d: ParseContext)
    requires c.Valid() && Binary(LogicalOrLevel, c) == Parsed(Ok(v), d)
    requires d.Valid() && d.Current() != Tk.Punctuator(Tk.Question)
    ensures ConditionalExpression(c) == Parsed(Ok(v), d)
  {
    ConditionalStep(c, v, d);
    hide ConditionalExpression;
  }

  lemma BranchesStep(a: ExpressionNode, d1: ParseContext, b: ExpressionNode,
                     d3: ParseContext, x: ExpressionNode, d5: ParseContext)
    requires Branches(d1, b, d3) && ConditionalExpression(Skip(d3, 1)) == Parsed(Ok(x), d5)
    ensures ConditionalBranches(a, d1) == Parsed(Ok(TernaryOperator(Conditional, a, b, x)), d5)
  {
    hide Expression, ConditionalExpression;
  }

  lemma NoPrefix(c: ParseContext)
    requires c.Valid() && !IsPrefixToken(c.Current())
    ensures PrefixOperators(c) == ([], c)
  {
  }

  lemma OnePrefix(op: UnaryOperatorKind, c: ParseContext)
    requires c.Valid() && PrefixToken(op).Some? && c.Current() == Tk.Punctuator(PrefixToken(op).value)
    requires Skip(c, 1).Valid() && !IsPrefixToken(Skip(c, 1).Current())
    ensures PrefixOperators(c) == ([op], Skip(c, 1))
  {
    PrefixTokenInjective(PrefixOperatorAt(c).value, op);
    NoPrefix(Skip(c, 1));
    assert ConsumeToken(c) == Skip(c, 1);
    assert [op] + [] == [op];
  }

  lemma PrefixTokenInjective(a: UnaryOperatorKind, b: UnaryOperatorKind)
    requires PrefixToken(a).Some? && PrefixToken(a) == PrefixToken(b)
    ensures a == b
  {
  }

  lemma UnaryStep(c: ParseContext, ops: seq<UnaryOperatorKind>, d: ParseContext, x: ExpressionNode, e: ParseContext)
    requires c.Valid() && PrefixOperators(c) == (ops, d) && Postfix(d) == Parsed(Ok(x), e)
    ensures Unary(c) == Parsed(Ok(WrapUnary(ops, x)), e)
  {
  }

  lemma PostfixStep(c: ParseContext, x: ExpressionNode, d: ParseContext)
    requires c.Valid() && Primary(c) == Parsed(Ok(x), d)
    ensures d.Valid() && Postfix(c) == PostfixTail(x, d)
  {
  }

  /** When `postfix` has finished at a token the postfix loop stops at. */
  lemma PostfixTailStops(current: ExpressionNode, c: ParseContext)
    requires c.Valid() && !IsPostfixToken(c.Current())
    ensures PostfixTail(current, c) == Parsed(Ok(current), c)
  {
  }

  lemma EmptyCallStep(current: ExpressionNode, c: ParseContext)
    requires c.Valid() && c.Current() == Tk.Punctuator(Tk.LeftRoundBracket)
    requires Skip(c, 1).Valid() && Skip(c, 1).Current() == Tk.Punctuator(Tk.RightRoundBracket)
    ensures Skip(c, 2).Valid()
    ensures PostfixTail(current, c) == PostfixTail(UnaryOperator(FunctionCall([]), current), Skip(c, 2))
  {
    hide Expression, Arguments;
    var call := ConsumePunctuator(c, Tk.LeftRoundBracket);
    assert call.value.Some? && call.next == Skip(c, 1);
    var close := ConsumePunctuator(call.next, Tk.RightRoundBracket);
    assert close.value.Some? && close.next == Skip(c, 2);
  }

  lemma PrimaryLiteralStep(c: ParseContext)
    requires c.Valid() && c.Current().Literal?
    ensures Primary(c) == Parsed(Ok(Immediate(ImmediateOf(c.Current().literal))), Skip(c, 1))
  {
  }

  lemma PrimaryParenStep(c: ParseContext, x: ExpressionNode, d: ParseContext)
    requires c.Valid() && c.Current() == Tk.Punctuator(Tk.LeftRoundBracket)
    requires Skip(c, 1).Valid() && Expression(Skip(c, 1)) == Parsed(Ok(x), d)
    requires d.Valid() && d.Current() == Tk.Punctuator(Tk.RightRoundBracket)
    ensures Primary(c) == Parsed(Ok(x), Skip(d, 1))
  {
  }

  // ---------------------------------------------------------------------
  // An operand rising through the levels

  /** A tree parsed at a tight level is also what every looser level
      returns, as long as the next token is no operator of the levels in
      between (and not `?` when the conditional is among them). */
  lemma {:induction false} RiseFromBinary(level: Level, inner: Level, c: ParseContext, v: ExpressionNode, d: ParseContext)
    requires c.Valid() && Depth(level) < Depth(inner)
    requires Binary(inner, c) == Parsed(Ok(v), d)
    requires d.Valid() && Loose(d.Current(), Depth(level) + 1)
    requires Depth(level) <= 1 ==> d.Current() != Tk.Punctuator(Tk.Question)
    ensures Operand(level, c) == Parsed(Ok(v), d)
    ensures Loose(d.Current(), Depth(level)) ==> Binary(level, c) == Parsed(Ok(v), d)
    decreases Depth(inner) - Depth(level)
  {
    hide Binary, Operand, BinaryTail, ConditionalExpression, ConditionalBranches;
    var tighter := Tighter(level);
    if tighter != inner {
      RiseFromBinary(tighter, inner, c, v, d);
      assert Loose(d.Current(), Depth(tighter));
      assert Binary(tighter, c) == Parsed(Ok(v), d);
    }
    OperandStep(level, c);
    if level == AssignLevel {
      ConditionalStops(c, v, d);
    }
    assert Operand(level, c) == Parsed(Ok(v), d);
    if Loose(d.Current(), Depth(level)) {
      BinaryStep(level, c, v, d);
      BinaryTailStops(level, v, d);
    }
  }

  /** The same, starting from `unary`. */
  lemma RiseFromUnary(level: Level, c: ParseContext, v: ExpressionNode, d: ParseContext)
    requires c.Valid() && Unary(c) == Parsed(Ok(v), d)
    requires d.Valid() && Loose(d.Current(), Depth(level) + 1)
    requires Depth(level) <= 1 ==> d.Current() != Tk.Punctuator(Tk.Question)
    ensures Operand(level, c) == Parsed(Ok(v), d)
    ensures Loose(d.Current(), Depth(level)) ==> Binary(level, c) == Parsed(Ok(v), d)
  {
    hide Binary, Operand, BinaryTail, ConditionalExpression, ConditionalBranches, Unary;
    OperandStep(MultiplicativeLevel, c);
    if level == MultiplicativeLevel {
      if Loose(d.Current(), Depth(level)) {
        BinaryStep(level, c, v, d);
        BinaryTailStops(level, v, d);
      }
    } else {
      BinaryStep(MultiplicativeLevel, c, v, d);
      BinaryTailStops(MultiplicativeLevel, v, d);
      RiseFromBinary(level, MultiplicativeLevel, c, v, d);
    }
  }

  /** A conditional at the top: `assign` and `expression` return it. */
  lemma RiseFromConditional(c: ParseContext, v: ExpressionNode, d: ParseContext)
    requires c.Valid() && ConditionalExpression(c) == Parsed(Ok(v), d)
    requires d.Valid() && Loose(d.Current(), 0)
    ensures Expression(c) == Parsed(Ok(v), d)
  {
    hide Expression, Binary, Operand, BinaryTail, ConditionalExpression, ConditionalBranches;
    OperandStep(AssignLevel, c);
    BinaryStep(AssignLevel, c, v, d);
    BinaryTailStops(AssignLevel, v, d);
    assert Tighter(CommaLevel) == AssignLevel;
    OperandStep(CommaLevel, c);
    BinaryStep(CommaLevel, c, v, d);
    BinaryTailStops(CommaLevel, v, d);
    ExpressionStep(c);
  }

  // ---------------------------------------------------------------------
  // The printer

  /** The punctuator written for a binary operator: the one of the arm
      that builds it unswapped.  `.` is built by no arm, so it has none. */
  function OperatorToken(kind: BinaryOperatorKind): Option<Tk.PunctuatorKind> {
    match kind
    case Add => Some(Tk.Plus)
    case Sub => Some(Tk.Minus)
    case Mul => Some(Tk.Star)
    case Div => Some(Tk.Slash)
    case Mod => Some(Tk.Percent)
    case Dot => None
    case LeftShift => Some(Tk.DoubleLessThans)
    case RightShift => Some(Tk.DoubleGreaterThans)
    case Equal => Some(Tk.DoubleEquals)
    case NotEqual => Some(Tk.ExclamationEqual)
    case LessThan => Some(Tk.LessThan)
    case LessThanEqual => Some(Tk.LessThanEqual)
    case LogicalAnd => Some(Tk.DoubleAmpersands)
    case LogicalOr => Some(Tk.DoublePipelines)
    case BitwiseAnd => Some(Tk.Ampersand)
    case BitwiseXor => Some(Tk.Hat)
    case BitwiseOr => Some(Tk.Pipeline)
    case Assign => Some(Tk.Equal)
    case Comma => Some(Tk.Comma)
  }

  /** The level whose loop builds a printable binary operator. */
  function PrintLevel(kind: BinaryOperatorKind): Level
    requires OperatorToken(kind).Some?
  {
    LevelOf(OperatorToken(kind).value).value
  }

  /** The literal token an immediate is read from. */
  function LiteralOf(v: Immediate): Tk.Literal
    ensures ImmediateOf(LiteralOf(v)) == v
  {
    match v
    case String(text) => Tk.StringLit(text)
    case Char(character) => Tk.CharLit(character)
    case Number(number) => Tk.NumberLit(number)
  }

  /** The trees the parser can produce from some input and the printer
      can write: no `.` (no arm builds it) and calls only without
      arguments (a call with arguments leaves its `)` unread, see
      `CallWithArgumentsLeavesBracket`). */
  predicate Printable(e: ExpressionNode) {
    match e
    case TernaryOperator(_, a, b, x) => Printable(a) && Printable(b) && Printable(x)
    case BinaryOperator(kind, l, r) => OperatorToken(kind).Some? && Printable(l) && Printable(r)
    case UnaryOperator(op, x) => (PrefixToken(op).Some? || op == FunctionCall([])) && Printable(x)
    case Immediate(_) => true
  }

  /** `e` written out with every operand in brackets. */
  function Render(e: ExpressionNode): seq<Tk.Token>
    requires Printable(e)
    decreases e, 0
  {
    match e
    case TernaryOperator(_, a, b, x) =>
      Paren(a) + ([Tk.Punctuator(Tk.Question)] + (Paren(b) + ([Tk.Punctuator(Tk.Colon)] + Paren(x))))
    case BinaryOperator(kind, l, r) => Paren(l) + ([Tk.Punctuator(OperatorToken(kind).value)] + Paren(r))
    case UnaryOperator(op, x) =>
      if op.FunctionCall? then
        Paren(x) + [Tk.Punctuator(Tk.LeftRoundBracket), Tk.Punctuator(Tk.RightRoundBracket)]
      else [Tk.Punctuator(PrefixToken(op).value)] + Paren(x)
    case Immediate(v) => [Tk.Literal(LiteralOf(v))]
  }

  function Paren(e: ExpressionNode): seq<Tk.Token>
    requires Printable(e)
    decreases e, 1
  {
    [Tk.Punctuator(Tk.LeftRoundBracket)] + (Render(e) + [Tk.Punctuator(Tk.RightRoundBracket)])
  }

  /** Every operator punctuator has an arm at its own level, at `ArmIndex`. */
  lemma ArmOf(k: Tk.PunctuatorKind)
    requires LevelOf(k).Some?
    ensures ArmIndex(k) < |Rules(LevelOf(k).value)|
    ensures Rules(LevelOf(k).value)[ArmIndex(k)].token == k
  {
  }

  /** Within one level no two arms share a token. */
  lemma ArmUnique(level: Level, i: nat, k: Tk.PunctuatorKind)
    requires i < |Rules(level)| && Rules(level)[i].token == k
    ensures i == ArmIndex(k)
  {
  }

  /** The arm of its own level that an operator punctuator selects. */
  function Arm(k: Tk.PunctuatorKind): OperatorRule
    requires LevelOf(k).Some?
  {
    ArmOf(k);
    Rules(LevelOf(k).value)[ArmIndex(k)]
  }

  /** At an operator punctuator, the loop of its level takes its arm and
      steps over it. */
  lemma MatchesArm(k: Tk.PunctuatorKind, d: ParseContext)
    requires LevelOf(k).Some? && d.Valid() && d.Current() == Tk.Punctuator(k)
    ensures MatchRule(Rules(LevelOf(k).value), d) == Consumed(Some(Arm(k)), Skip(d, 1))
  {
    ArmOf(k);
    var level := LevelOf(k).value;
    hide Rules, MatchRule;
    var rules := Rules(level);
    var r := MatchRule(rules, d);
    assert rules[ArmIndex(k)].token == k;
    assert !(forall i :: 0 <= i < |rules| ==> d.Current() != Tk.Punctuator(rules[i].token));
    var i :| 0 <= i < |rules| && r.value.value == rules[i] && d.Current() == Tk.Punctuator(rules[i].token);
    ArmUnique(level, i, k);
  }

  /** The arm of a printed operator builds it, unswapped. */
  lemma PrintedArm(kind: BinaryOperatorKind)
    requires OperatorToken(kind).Some?
    ensures LevelOf(OperatorToken(kind).value).Some?
    ensures Arm(OperatorToken(kind).value) == OperatorRule(OperatorToken(kind).value, kind, false)
  {
    if kind == Add || kind == Sub || kind == Mul || kind == Div || kind == Mod || kind == LeftShift || kind == RightShift {
      ArithmeticArm(kind);
    } else if kind == Equal || kind == NotEqual || kind == LessThan || kind == LessThanEqual {
      ComparisonArm(kind);
    } else if kind == BitwiseAnd || kind == BitwiseXor || kind == BitwiseOr {
      BitwiseArm(kind);
    } else {
      LogicalArm(kind);
    }
  }

  lemma ArithmeticArm(kind: BinaryOperatorKind)
    requires kind == Add || kind == Sub || kind == Mul || kind == Div || kind == Mod || kind == LeftShift || kind == RightShift
    ensures OperatorToken(kind).Some? && LevelOf(OperatorToken(kind).value).Some?
    ensures Arm(OperatorToken(kind).value) == OperatorRule(OperatorToken(kind).value, kind, false)
  {
    if kind == Add {
    } else if kind == Sub {
    } else if kind == Mul {
    } else if kind == Div {
    } else if kind == Mod {
    } else if kind == LeftShift {
    } else {
    }
  }

  lemma ComparisonArm(kind: BinaryOperatorKind)
    requires kind == Equal || kind == NotEqual || kind == LessThan || kind == LessThanEqual
    ensures OperatorToken(kind).Some? && LevelOf(OperatorToken(kind).value).Some?
    ensures Arm(OperatorToken(kind).value) == OperatorRule(OperatorToken(kind).value, kind, false)
  {
    if kind == Equal {
    } else if kind == NotEqual {
    } else if kind == LessThan {
    } else {
    }
  }

  lemma BitwiseArm(kind: BinaryOperatorKind)
    requires kind == BitwiseAnd || kind == BitwiseXor || kind == BitwiseOr
    ensures OperatorToken(kind).Some? && LevelOf(OperatorToken(kind).value).Some?
    ensures Arm(OperatorToken(kind).value) == OperatorRule(OperatorToken(kind).value, kind, false)
  {
    if kind == BitwiseAnd {
    } else if kind == BitwiseXor {
    } else {
    }
  }

  lemma LogicalArm(kind: BinaryOperatorKind)
    requires kind == LogicalAnd || kind == LogicalOr || kind == Assign || kind == Comma
    ensures OperatorToken(kind).Some? && LevelOf(OperatorToken(kind).value).Some?
    ensures Arm(OperatorToken(kind).value) == OperatorRule(OperatorToken(kind).value, kind, false)
  {
    if kind == LogicalAnd {
    } else if kind == LogicalOr {
    } else if kind == Assign {
    } else {
    }
  }

  // ---------------------------------------------------------------------
  // Operands joined by operators

  /** A level starts its loop after an operand of `unary`. */
  lemma FirstOperand(level: Level, c: ParseContext, l: ExpressionNode, middle: ParseContext)
    requires c.Valid() && Unary(c) == Parsed(Ok(l), middle)
    requires middle.Valid() && Loose(middle.Current(), Depth(level) + 1)
    requires Depth(level) <= 1 ==> middle.Current() != Tk.Punctuator(Tk.Question)
    ensures Binary(level, c) == BinaryTail(level, l, middle)
  {
    hide Expression, Binary, Operand, BinaryTail, ConditionalExpression, ConditionalBranches, Unary, Postfix, PostfixTail, Primary, PrefixOperators;
    RiseFromUnary(level, c, l, middle);
    BinaryStep(level, c, l, middle);
  }

  /** One more operand of `unary`, after the operator `k`, joins the tree
      built so far by the loop of `k`'s level. */
  lemma TailStep(k: Tk.PunctuatorKind, current: ExpressionNode, middle: ParseContext, r: ExpressionNode, end: ParseContext)
    requires LevelOf(k).Some? && OperandAfter(middle, k, r, end)
    requires Loose(end.Current(), Depth(LevelOf(k).value) + 1)
    requires Depth(LevelOf(k).value) <= 1 ==> end.Current() != Tk.Punctuator(Tk.Question)
    ensures BinaryTail(LevelOf(k).value, current, middle) ==
      BinaryTail(LevelOf(k).value, Combine(Arm(k), current, r), end)
  {
    hide Expression, Binary, Operand, BinaryTail, ConditionalExpression, ConditionalBranches, Unary, Postfix, PostfixTail, Primary, PrefixOperators;
    hide LevelOf, Rules, MatchRule, Combine;
    var level := LevelOf(k).value;
    MatchesArm(k, middle);
    RiseFromUnary(level, Skip(middle, 1), r, end);
    BinaryTailStep(level, current, middle, Arm(k), Skip(middle, 1), r, end);
  }

  /** `l k r` at the level of `k`, followed by a looser token. */
  lemma OneOperator(k: Tk.PunctuatorKind, c: ParseContext, l: ExpressionNode, middle: ParseContext,
                    r: ExpressionNode, end: ParseContext)
    requires LevelOf(k).Some? && UnaryAt(c, l, middle) && OperandAfter(middle, k, r, end)
    requires Loose(end.Current(), Depth(LevelOf(k).value))
    requires Depth(LevelOf(k).value) <= 1 ==> end.Current() != Tk.Punctuator(Tk.Question)
    ensures Binary(LevelOf(k).value, c) == Parsed(Ok(Combine(Arm(k), l, r)), end)
  {
    hide Expression, Binary, Operand, BinaryTail, ConditionalExpression, ConditionalBranches, Unary, Postfix, PostfixTail, Primary, PrefixOperators;
    hide Rules, MatchRule, Combine;
    QuestionIsNoOperator();
    var level := LevelOf(k).value;
    FirstOperand(level, c, l, middle);
    TailStep(k, l, middle, r, end);
    BinaryTailStops(level, Combine(Arm(k), l, r), end);
  }

  /** What a level returns, `expression` returns when the next token ends
      an expression. */
  lemma BinaryToExpression(level: Level, c: ParseContext, v: ExpressionNode, end: ParseContext)
    requires c.Valid() && Binary(level, c) == Parsed(Ok(v), end)
    requires end.Valid() && Ends(end.Current())
    ensures Expression(c) == Parsed(Ok(v), end)
  {
    hide Expression, Binary, Operand, BinaryTail, ConditionalExpression, ConditionalBranches, Unary, Postfix, PostfixTail, Primary, PrefixOperators;
    hide LevelOf, Rules, MatchRule, Combine;
    if level != CommaLevel {
      RiseFromBinary(CommaLevel, level, c, v, end);
    }
    ExpressionStep(c);
  }

  // ---------------------------------------------------------------------
  // The round trip

  /** `unary` followed by a token that ends an expression is what
      `expression` returns. */
  lemma UnaryToExpression(c: ParseContext, v: ExpressionNode, d: ParseContext)
    requires c.Valid() && Unary(c) == Parsed(Ok(v), d)
    requires d.Valid() && Ends(d.Current())
    ensures Expression(c) == Parsed(Ok(v), d)
  {
    hide Expression, Binary, Operand, BinaryTail, ConditionalExpression, ConditionalBranches, Unary;
    RiseFromUnary(CommaLevel, c, v, d);
    ExpressionStep(c);
  }

  /** Where the pieces of a bracketed tree stand. */
  lemma ParenLayout(e: ExpressionNode, c: ParseContext)
    requires Printable(e) && At(c, Paren(e))
    ensures |Paren(e)| == |Render(e)| + 2
    ensures c.pos < |c.tokens| && c.tokens[c.pos] == Tk.Punctuator(Tk.LeftRoundBracket)
    ensures At(Skip(c, 1), Render(e))
    ensures c.pos + 1 + |Render(e)| < |c.tokens|
    ensures c.tokens[c.pos + 1 + |Render(e)|] == Tk.Punctuator(Tk.RightRoundBracket)
  {
    hide At;
    var open := Tk.Punctuator(Tk.LeftRoundBracket);
    var close := Tk.Punctuator(Tk.RightRoundBracket);
    AtConcat(c, [open], Render(e) + [close]);
    AtToken(c, open);
    AtConcat(Skip(c, 1), Render(e), [close]);
    AtToken(Skip(Skip(c, 1), |Render(e)|), close);
  }

  /** A bracketed printed tree is one primary. */
  lemma {:induction false} ParenPrimary(e: ExpressionNode, c: ParseContext)
    requires Printable(e) && c.Valid() && At(c, Paren(e))
    ensures Primary(c) == Parsed(Ok(e), Skip(c, |Paren(e)|))
    decreases e, 2
  {
    hide Expression, Binary, Operand, BinaryTail, ConditionalExpression, ConditionalBranches, Unary, Postfix, PostfixTail, Primary, PrefixOperators;
    hide Arguments, LiteralExpression, ImmediateOf, PrefixOperatorAt, PrefixToken, IsPrefixToken;
    hide MatchRule, Rules, Combine, LevelOf, ArmIndex, Depth, Tighter, Loose, Ends, IsPostfixToken, Stops;
    hide Render, Paren, Printable, OperatorToken, LiteralOf, At, Follows, ConsumePunctuator, ConsumeToken;
    ParenLayout(e, c);
    var inner := Skip(c, 1);
    var last := Skip(inner, |Render(e)|);
    Separators(last.Current());
    RenderParses(e, inner);
    PrimaryParenStep(c, e, last);
  }

  /** ... and, when no postfix operator follows, one `unary`. */
  lemma {:induction false} ParenUnary(e: ExpressionNode, c: ParseContext)
    requires Printable(e) && c.Valid() && At(c, Paren(e))
    requires c.pos + |Paren(e)| < |c.tokens| && !IsPostfixToken(c.tokens[c.pos + |Paren(e)|])
    ensures Unary(c) == Parsed(Ok(e), Skip(c, |Paren(e)|))
    decreases e, 3
  {
    hide Expression, Binary, Operand, BinaryTail, ConditionalExpression, ConditionalBranches, Unary, Postfix, PostfixTail, Primary, PrefixOperators;
    hide Arguments, LiteralExpression, ImmediateOf, PrefixOperatorAt, PrefixToken, IsPrefixToken;
    hide MatchRule, Rules, Combine, LevelOf, ArmIndex, Depth, Tighter, Loose, Ends, IsPostfixToken, Stops;
    hide Render, Paren, Printable, OperatorToken, LiteralOf, At, Follows, ConsumePunctuator, ConsumeToken;
    var d := Skip(c, |Paren(e)|);
    ParenLayout(e, c);
    ParenPrimary(e, c);
    Separators(c.Current());
    NoPrefix(c);
    PostfixStep(c, e, d);
    PostfixTailStops(e, d);
    UnaryStep(c, [], c, e, d);
  }

  /** Reading a printed tree back gives the tree, and the cursor stops
      right after it. */
  lemma {:induction false} RenderParses(e: ExpressionNode, c: ParseContext)
    requires Printable(e) && c.Valid() && At(c, Render(e))
    requires c.pos + |Render(e)| < |c.tokens| && Ends(c.tokens[c.pos + |Render(e)|])
    ensures Expression(c) == Parsed(Ok(e), Skip(c, |Render(e)|))
    decreases e, 1
  {
    hide Expression, Binary, Operand, BinaryTail, ConditionalExpression, ConditionalBranches, Unary, Postfix, PostfixTail, Primary, PrefixOperators;
    match e
    case Immediate(v) =>
      var end := Skip(c, 1);
      AtToken(c, Tk.Literal(LiteralOf(v)));
      NoPrefix(c);
      PrimaryLiteralStep(c);
      PostfixStep(c, e, end);
      PostfixTailStops(e, end);
      UnaryStep(c, [], c, e, end);
      UnaryToExpression(c, e, end);
    case BinaryOperator(kind, l, r) =>
      BinaryRoundTrip(e, c);
    case UnaryOperator(op, x) =>
      if op.FunctionCall? {
        CallRoundTrip(e, c);
      } else {
        PrefixRoundTrip(e, c);
      }
    case TernaryOperator(_, a, b, x) =>
      TernaryRoundTrip(e, c);
  }

  /** How a binary operator is printed. */
  lemma BinaryShape(e: ExpressionNode)
    requires e.BinaryOperator? && Printable(e)
    ensures OperatorToken(e.binary).Some? && Printable(e.lhs) && Printable(e.rhs)
    ensures !IsPostfixToken(Tk.Punctuator(OperatorToken(e.binary).value))
    ensures Render(e) == Paren(e.lhs) + ([Tk.Punctuator(OperatorToken(e.binary).value)] + Paren(e.rhs))
  {
  }

  /** Two operands of `unary` around a printable operator. */
  lemma BinaryParses(kind: BinaryOperatorKind, c: ParseContext, l: ExpressionNode, middle: ParseContext,
                     r: ExpressionNode, end: ParseContext)
    requires OperatorToken(kind).Some? && UnaryAt(c, l, middle)
    requires OperandAfter(middle, OperatorToken(kind).value, r, end) && Ends(end.Current())
    ensures Expression(c) == Parsed(Ok(BinaryOperator(kind, l, r)), end)
  {
    hide Expression, Binary, Operand, BinaryTail, ConditionalExpression, ConditionalBranches, Unary, Postfix, PostfixTail, Primary, PrefixOperators;
    hide Rules, MatchRule;
    var k := OperatorToken(kind).value;
    PrintedArm(kind);
    OneOperator(k, c, l, middle, r, end);
    BinaryToExpression(LevelOf(k).value, c, BinaryOperator(kind, l, r), end);
  }

  lemma {:induction false} BinaryRoundTrip(e: ExpressionNode, c: ParseContext)
    requires e.BinaryOperator? && Printable(e) && c.Valid() && At(c, Render(e))
    requires c.pos + |Render(e)| < |c.tokens| && Ends(c.tokens[c.pos + |Render(e)|])
    ensures Expression(c) == Parsed(Ok(e), Skip(c, |Render(e)|))
    decreases e, 0
  {
    hide Expression, Binary, Operand, BinaryTail, ConditionalExpression, ConditionalBranches, Unary, Postfix, PostfixTail, Primary, PrefixOperators;
    hide Arguments, LiteralExpression, ImmediateOf, PrefixOperatorAt, PrefixToken, IsPrefixToken;
    hide MatchRule, Rules, Combine, LevelOf, ArmIndex, Depth, Tighter, Loose, Ends, IsPostfixToken, Stops;
    hide Render, Paren, Printable, OperatorToken, LiteralOf, At, Follows, ConsumePunctuator, ConsumeToken;
    var BinaryOperator(kind, l, r) := e;
    BinaryShape(e);
    var t := Tk.Punctuator(OperatorToken(kind).value);
    AtConcat(c, Paren(l), [t] + Paren(r));
    var middle := Skip(c, |Paren(l)|);
    AtConcat(middle, [t], Paren(r));
    AtToken(middle, t);
    var right := Skip(middle, 1);
    var end := Skip(right, |Paren(r)|);
    assert end == Skip(c, |Render(e)|);
    Separators(end.Current());
    ParenUnary(l, c);
    ParenUnary(r, right);
    BinaryParses(kind, c, l, middle, r, end);
  }

  /** How a call is printed. */
  lemma CallShape(e: ExpressionNode)
    requires e.UnaryOperator? && e.unary.FunctionCall? && Printable(e)
    ensures e.unary == FunctionCall([]) && Printable(e.operand)
    ensures Render(e) ==
      Paren(e.operand) + ([Tk.Punctuator(Tk.LeftRoundBracket)] + [Tk.Punctuator(Tk.RightRoundBracket)])
  {
  }

  /** A primary followed by `()` is a call without arguments. */
  lemma CallParses(c: ParseContext, x: ExpressionNode, call: ParseContext, end: ParseContext)
    requires c.Valid() && !IsPrefixToken(c.Current()) && Primary(c) == Parsed(Ok(x), call)
    requires call.Valid() && call.Current() == Tk.Punctuator(Tk.LeftRoundBracket)
    requires Skip(call, 1).Valid() && Skip(call, 1).Current() == Tk.Punctuator(Tk.RightRoundBracket)
    requires end == Skip(call, 2) && end.Valid() && Ends(end.Current())
    ensures Expression(c) == Parsed(Ok(UnaryOperator(FunctionCall([]), x)), end)
  {
    hide Expression, Binary, Operand, BinaryTail, ConditionalExpression, ConditionalBranches, Unary, Postfix, PostfixTail, Primary, PrefixOperators;
    var e := UnaryOperator(FunctionCall([]), x);
    NoPrefix(c);
    PostfixStep(c, x, call);
    EmptyCallStep(x, call);
    PostfixTailStops(e, end);
    UnaryStep(c, [], c, e, end);
    UnaryToExpression(c, e, end);
  }

  lemma {:induction false} CallRoundTrip(e: ExpressionNode, c: ParseContext)
    requires e.UnaryOperator? && e.unary.FunctionCall? && Printable(e) && c.Valid() && At(c, Render(e))
    requires c.pos + |Render(e)| < |c.tokens| && Ends(c.tokens[c.pos + |Render(e)|])
    ensures Expression(c) == Parsed(Ok(e), Skip(c, |Render(e)|))
    decreases e, 0
  {
    hide Expression, Binary, Operand, BinaryTail, ConditionalExpression, ConditionalBranches, Unary, Postfix, PostfixTail, Primary, PrefixOperators;
    hide Arguments, LiteralExpression, ImmediateOf, PrefixOperatorAt, PrefixToken, IsPrefixToken;
    hide MatchRule, Rules, Combine, LevelOf, ArmIndex, Depth, Tighter, Loose, Ends, IsPostfixToken, Stops;
    hide Render, Paren, Printable, OperatorToken, LiteralOf, At, Follows, ConsumePunctuator, ConsumeToken;
    var x := e.operand;
    var open := Tk.Punctuator(Tk.LeftRoundBracket);
    var close := Tk.Punctuator(Tk.RightRoundBracket);
    CallShape(e);
    AtConcat(c, Paren(x), [open] + [close]);
    var call := Skip(c, |Paren(x)|);
    AtConcat(call, [open], [close]);
    AtToken(call, open);
    AtToken(Skip(call, 1), close);
    var end := Skip(call, 2);
    assert end == Skip(c, |Render(e)|);
    ParenLayout(x, c);
    Separators(c.Current());
    ParenPrimary(x, c);
    CallParses(c, x, call, end);
  }

  /** How a prefix operator is printed. */
  lemma PrefixShape(e: ExpressionNode)
    requires e.UnaryOperator? && !e.unary.FunctionCall? && Printable(e)
    ensures PrefixToken(e.unary).Some? && Printable(e.operand)
    ensures Render(e) == [Tk.Punctuator(PrefixToken(e.unary).value)] + Paren(e.operand)
  {
  }

  /** A prefix operator before a bracketed primary. */
  lemma PrefixParses(op: UnaryOperatorKind, c: ParseContext, x: ExpressionNode, end: ParseContext)
    requires PrefixToken(op).Some? && c.Valid() && c.Current() == Tk.Punctuator(PrefixToken(op).value)
    requires Skip(c, 1).Valid() && Skip(c, 1).Current() == Tk.Punctuator(Tk.LeftRoundBracket)
    requires Primary(Skip(c, 1)) == Parsed(Ok(x), end)
    requires end.Valid() && Ends(end.Current())
    ensures Expression(c) == Parsed(Ok(UnaryOperator(op, x)), end)
  {
    hide Expression, Binary, Operand, BinaryTail, ConditionalExpression, ConditionalBranches, Unary, Postfix, PostfixTail, Primary, PrefixOperators;
    var operand := Skip(c, 1);
    var e := UnaryOperator(op, x);
    OnePrefix(op, c);
    PostfixStep(operand, x, end);
    PostfixTailStops(x, end);
    UnaryStep(c, [op], operand, x, end);
    assert WrapUnary([op], x) == e;
    UnaryToExpression(c, e, end);
  }

  lemma {:induction false} PrefixRoundTrip(e: ExpressionNode, c: ParseContext)
    requires e.UnaryOperator? && !e.unary.FunctionCall? && Printable(e) && c.Valid() && At(c, Render(e))
    requires c.pos + |Render(e)| < |c.tokens| && Ends(c.tokens[c.pos + |Render(e)|])
    ensures Expression(c) == Parsed(Ok(e), Skip(c, |Render(e)|))
    decreases e, 0
  {
    hide Expression, Binary, Operand, BinaryTail, ConditionalExpression, ConditionalBranches, Unary, Postfix, PostfixTail, Primary, PrefixOperators;
    hide Arguments, LiteralExpression, ImmediateOf, PrefixOperatorAt, PrefixToken, IsPrefixToken;
    hide MatchRule, Rules, Combine, LevelOf, ArmIndex, Depth, Tighter, Loose, Ends, IsPostfixToken, Stops;
    hide Render, Paren, Printable, OperatorToken, LiteralOf, At, Follows, ConsumePunctuator, ConsumeToken;
    var UnaryOperator(op, x) := e;
    PrefixShape(e);
    var t := Tk.Punctuator(PrefixToken(op).value);
    AtConcat(c, [t], Paren(x));
    AtToken(c, t);
    var operand := Skip(c, 1);
    var end := Skip(operand, |Paren(x)|);
    assert end == Skip(c, |Render(e)|);
    ParenLayout(x, operand);
    ParenPrimary(x, operand);
    PrefixParses(op, c, x, end);
  }

  /** An operand of `unary` followed by `?` is the condition of a
      conditional. */
  lemma ConditionOperand(c: ParseContext, a: ExpressionNode, d1: ParseContext)
    requires UnaryAt(c, a, d1) && d1.Current() == Tk.Punctuator(Tk.Question)
    ensures Binary(LogicalOrLevel, c) == Parsed(Ok(a), d1)
  {
    hide Expression, Binary, Operand, BinaryTail, ConditionalExpression, ConditionalBranches, Unary, Postfix, PostfixTail, Primary, PrefixOperators;
    hide LevelOf, Rules, MatchRule, Combine;
    QuestionIsNoOperator();
    RiseFromUnary(LogicalOrLevel, c, a, d1);
  }

  /** An operand of `unary` followed by a token that ends an expression
      is a whole conditional. */
  lemma UnaryIsConditional(c: ParseContext, v: ExpressionNode, d: ParseContext)
    requires UnaryAt(c, v, d) && Ends(d.Current())
    ensures ConditionalExpression(c) == Parsed(Ok(v), d)
  {
    hide Expression, Binary, Operand, BinaryTail, ConditionalExpression, ConditionalBranches, Unary, Postfix, PostfixTail, Primary, PrefixOperators;
    hide LevelOf, Rules, MatchRule, Combine;
    RiseFromUnary(LogicalOrLevel, c, v, d);
    ConditionalStops(c, v, d);
  }

  /** `a ? b : x` with `a` an operand of `unary`, `b` an expression and
      `x` a conditional. */
  lemma ConditionalFrom(c: ParseContext, a: ExpressionNode, d1: ParseContext, b: ExpressionNode,
                        d3: ParseContext, x: ExpressionNode, end: ParseContext)
    requires UnaryAt(c, a, d1) && Branches(d1, b, d3)
    requires ConditionalExpression(Skip(d3, 1)) == Parsed(Ok(x), end)
    ensures ConditionalExpression(c) == Parsed(Ok(TernaryOperator(Conditional, a, b, x)), end)
  {
    hide Expression, Binary, Operand, BinaryTail, ConditionalExpression, ConditionalBranches, Unary, Postfix, PostfixTail, Primary, PrefixOperators;
    hide LevelOf, Rules, MatchRule, Combine;
    ConditionOperand(c, a, d1);
    ConditionalStep(c, a, d1);
    BranchesStep(a, d1, b, d3, x, end);
  }

  /** ... and, when the next token ends an expression, what `expression`
      returns. */
  lemma WholeConditional(c: ParseContext, a: ExpressionNode, d1: ParseContext, b: ExpressionNode,
                         d3: ParseContext, x: ExpressionNode, end: ParseContext)
    requires UnaryAt(c, a, d1) && Branches(d1, b, d3)
    requires ConditionalExpression(Skip(d3, 1)) == Parsed(Ok(x), end)
    requires end.Valid() && Ends(end.Current())
    ensures Expression(c) == Parsed(Ok(TernaryOperator(Conditional, a, b, x)), end)
  {
    hide Expression, Binary, Operand, BinaryTail, ConditionalExpression, ConditionalBranches, Unary, Postfix, PostfixTail, Primary, PrefixOperators;
    hide LevelOf, Rules, MatchRule, Combine;
    ConditionalFrom(c, a, d1, b, d3, x, end);
    RiseFromConditional(c, TernaryOperator(Conditional, a, b, x), end);
  }

  /** `a ? b : x` with `a` and `x` operands of `unary`. */
  lemma TernaryParses(c: ParseContext, a: ExpressionNode, d1: ParseContext, b: ExpressionNode,
                      d3: ParseContext, x: ExpressionNode, end: ParseContext)
    requires UnaryAt(c, a, d1) && Branches(d1, b, d3) && UnaryAt(Skip(d3, 1), x, end)
    requires Ends(end.Current())
    ensures Expression(c) == Parsed(Ok(TernaryOperator(Conditional, a, b, x)), end)
  {
    hide Expression, Binary, Operand, BinaryTail, ConditionalExpression, ConditionalBranches, Unary, Postfix, PostfixTail, Primary, PrefixOperators;
    hide LevelOf, Rules, MatchRule, Combine;
    UnaryIsConditional(Skip(d3, 1), x, end);
    WholeConditional(c, a, d1, b, d3, x, end);
  }

  /** Helper: where the parts of a printed conditional stand. */
  lemma TernaryLayout(c: ParseContext, a: ExpressionNode, b: ExpressionNode, x: ExpressionNode)
    requires Printable(a) && Printable(b) && Printable(x)
    requires At(c, Paren(a) + ([Tk.Punctuator(Tk.Question)] + (Paren(b) + ([Tk.Punctuator(Tk.Colon)] + Paren(x)))))
    ensures At(c, Paren(a))
    ensures var d1 := Skip(c, |Paren(a)|);
      d1.pos < |d1.tokens| && d1.Current() == Tk.Punctuator(Tk.Question) && At(Skip(d1, 1), Paren(b))
    ensures var d3 := Skip(c, |Paren(a)| + 1 + |Paren(b)|);
      d3.pos < |d3.tokens| && d3.Current() == Tk.Punctuator(Tk.Colon) && At(Skip(d3, 1), Paren(x))
  {
    hide Render, Paren, Printable, At;
    var question := Tk.Punctuator(Tk.Question);
    var colon := Tk.Punctuator(Tk.Colon);
    AtConcat(c, Paren(a), [question] + (Paren(b) + ([colon] + Paren(x))));
    var d1 := Skip(c, |Paren(a)|);
    AtConcat(d1, [question], Paren(b) + ([colon] + Paren(x)));
    AtToken(d1, question);
    var d2 := Skip(d1, 1);
    AtConcat(d2, Paren(b), [colon] + Paren(x));
    var d3 := Skip(d2, |Paren(b)|);
    AtConcat(d3, [colon], Paren(x));
    AtToken(d3, colon);
    assert d3 == Skip(c, |Paren(a)| + 1 + |Paren(b)|);
  }

  /** How a conditional is printed. */
  lemma TernaryShape(e: ExpressionNode)
    requires e.TernaryOperator? && Printable(e)
    ensures e.ternary == Conditional
    ensures Printable(e.first) && Printable(e.second) && Printable(e.third)
    ensures Render(e) == Paren(e.first) + ([Tk.Punctuator(Tk.Question)] +
      (Paren(e.second) + ([Tk.Punctuator(Tk.Colon)] + Paren(e.third))))
  {
  }

  lemma {:induction false} TernaryRoundTrip(e: ExpressionNode, c: ParseContext)
    requires e.TernaryOperator? && Printable(e) && c.Valid() && At(c, Render(e))
    requires c.pos + |Render(e)| < |c.tokens| && Ends(c.tokens[c.pos + |Render(e)|])
    ensures Expression(c) == Parsed(Ok(e), Skip(c, |Render(e)|))
    decreases e, 0
  {
    hide Expression, Binary, Operand, BinaryTail, ConditionalExpression, ConditionalBranches, Unary, Postfix, PostfixTail, Primary, PrefixOperators;
    hide Arguments, LiteralExpression, ImmediateOf, PrefixOperatorAt, PrefixToken, IsPrefixToken;
    hide MatchRule, Rules, Combine, LevelOf, ArmIndex, Depth, Tighter, Loose, Ends, IsPostfixToken, Stops;
    hide Render, Paren, Printable, OperatorToken, LiteralOf, At, Follows, ConsumePunctuator, ConsumeToken;
    var TernaryOperator(_, a, b, x) := e;
    TernaryShape(e);
    TernaryLayout(c, a, b, x);
    var d1 := Skip(c, |Paren(a)|);
    var d2 := Skip(d1, 1);
    var d3 := Skip(d2, |Paren(b)|);
    var d4 := Skip(d3, 1);
    var end := Skip(d4, |Paren(x)|);
    assert end == Skip(c, |Render(e)|);
    Separators(end.Current());
    ParenUnary(a, c);
    ParenUnary(b, d2);
    UnaryToExpression(d2, b, d3);
    ParenUnary(x, d4);
    TernaryParses(c, a, d1, b, d3, x, end);
  }
}

=== FILE: expression_shapes.dfy ===
/** The shapes the expression parser gives to inputs that are not fully
    bracketed.

    Operands here are whatever `unary` reads, so the lemmas hold for
    operands of any size: a level folds to the left (`=` included), a
    tighter level binds first on either side, `>` and `>=` become `<` and
    `<=` with the operands swapped, the conditional nests to the right and
    needs its `:`, prefix operators nest with the first one outermost, the
    postfix forms are rewritten, and a token that cannot start an operand
    is reported as a missing literal. */
module ExpressionShapes {
  import opened Prelude
  import Tk = Tokenizer
  import opened Cursor
  import opened ExpressionParser
  import opened ExpressionFacts

  // ---------------------------------------------------------------------
  // Binary levels

  /** `x o1 y o2 z` with both operators of one level: the left pair is
      built first.  `1 + 2 - 3` is `(1 + 2) - 3` and `a = b = c` is
      `(a = b) = c`. */
  lemma LeftFold(k1: BinaryOperatorKind, k2: BinaryOperatorKind, c: ParseContext,
                 x: ExpressionNode, d1: ParseContext, y: ExpressionNode, d3: ParseContext,
                 z: ExpressionNode, end: ParseContext)
    requires OperatorToken(k1).Some? && OperatorToken(k2).Some? && PrintLevel(k1) == PrintLevel(k2)
    requires UnaryAt(c, x, d1) && OperandAfter(d1, OperatorToken(k1).value, y, d3)
    requires OperandAfter(d3, OperatorToken(k2).value, z, end) && Ends(end.Current())
    ensures Expression(c) == Parsed(Ok(BinaryOperator(k2, BinaryOperator(k1, x, y), z)), end)
  {
    hide Expression, Binary, Operand, BinaryTail, ConditionalExpression, ConditionalBranches, Unary, Postfix, PostfixTail, Primary, PrefixOperators;
    hide LevelOf, Rules, MatchRule, Combine;
    QuestionIsNoOperator();
    var level := PrintLevel(k1);
    var left := BinaryOperator(k1, x, y);
    var whole := BinaryOperator(k2, left, z);
    PrintedArm(k1);
    PrintedArm(k2);
    FirstOperand(level, c, x, d1);
    TailStep(OperatorToken(k1).value, x, d1, y, d3);
    TailStep(OperatorToken(k2).value, left, d3, z, end);
    BinaryTailStops(level, whole, end);
    BinaryToExpression(level, c, whole, end);
  }

  /** `x o1 y o2 z` with `o2` the tighter operator: the right pair is built
      first, so `1 + 2 * 3` is `1 + (2 * 3)`. */
  lemma TighterOnRight(k1: BinaryOperatorKind, k2: BinaryOperatorKind, c: ParseContext,
                       x: ExpressionNode, d1: ParseContext, y: ExpressionNode, d3: ParseContext,
                       z: ExpressionNode, end: ParseContext)
    requires OperatorToken(k1).Some? && OperatorToken(k2).Some?
    requires Depth(PrintLevel(k1)) < Depth(PrintLevel(k2))
    requires UnaryAt(c, x, d1) && OperandAfter(d1, OperatorToken(k1).value, y, d3)
    requires OperandAfter(d3, OperatorToken(k2).value, z, end) && Ends(end.Current())
    ensures Expression(c) == Parsed(Ok(BinaryOperator(k1, x, BinaryOperator(k2, y, z))), end)
  {
    hide Expression, Binary, Operand, BinaryTail, ConditionalExpression, ConditionalBranches, Unary, Postfix, PostfixTail, Primary, PrefixOperators;
    hide LevelOf, Rules, MatchRule, Combine;
    QuestionIsNoOperator();
    var t1 := OperatorToken(k1).value;
    var outer, inner := PrintLevel(k1), PrintLevel(k2);
    var right := BinaryOperator(k2, y, z);
    var whole := BinaryOperator(k1, x, right);
    PrintedArm(k1);
    PrintedArm(k2);
    OneOperator(OperatorToken(k2).value, Skip(d1, 1), y, d3, z, end);
    RiseFromBinary(outer, inner, Skip(d1, 1), right, end);
    FirstOperand(outer, c, x, d1);
    MatchesArm(t1, d1);
    BinaryTailStep(outer, x, d1, Arm(t1), Skip(d1, 1), right, end);
    BinaryTailStops(outer, whole, end);
    BinaryToExpression(outer, c, whole, end);
  }

  /** `x o1 y o2 z` with `o1` the tighter operator: the left pair is built
      first, so `1 * 2 + 3` is `(1 * 2) + 3`. */
  lemma TighterOnLeft(k1: BinaryOperatorKind, k2: BinaryOperatorKind, c: ParseContext,
                      x: ExpressionNode, d1: ParseContext, y: ExpressionNode, d3: ParseContext,
                      z: ExpressionNode, end: ParseContext)
    requires OperatorToken(k1).Some? && OperatorToken(k2).Some?
    requires Depth(PrintLevel(k2)) < Depth(PrintLevel(k1))
    requires UnaryAt(c, x, d1) && OperandAfter(d1, OperatorToken(k1).value, y, d3)
    requires OperandAfter(d3, OperatorToken(k2).value, z, end) && Ends(end.Current())
    ensures Expression(c) == Parsed(Ok(BinaryOperator(k2, BinaryOperator(k1, x, y), z)), end)
  {
    hide Expression, Binary, Operand, BinaryTail, ConditionalExpression, ConditionalBranches, Unary, Postfix, PostfixTail, Primary, PrefixOperators;
    hide LevelOf, Rules, MatchRule, Combine;
    QuestionIsNoOperator();
    var inner, outer := PrintLevel(k1), PrintLevel(k2);
    var left := BinaryOperator(k1, x, y);
    var whole := BinaryOperator(k2, left, z);
    PrintedArm(k1);
    PrintedArm(k2);
    OneOperator(OperatorToken(k1).value, c, x, d1, y, d3);
    RiseFromBinary(outer, inner, c, left, d3);
    BinaryStep(outer, c, left, d3);
    TailStep(OperatorToken(k2).value, left, d3, z, end);
    BinaryTailStops(outer, whole, end);
    BinaryToExpression(outer, c, whole, end);
  }

  lemma SwappedArm(k: Tk.PunctuatorKind)
    requires k == Tk.GreaterThan || k == Tk.GreaterThanEqual
    ensures LevelOf(k) == Some(RelationalLevel)
    ensures Arm(k) == OperatorRule(k, if k == Tk.GreaterThan then LessThan else LessThanEqual, true)
  {
  }

  /** `l > r` is stored as `r < l` and `l >= r` as `r <= l`: there is no
      greater-than operator in the tree. */
  lemma ComparisonSwaps(k: Tk.PunctuatorKind, c: ParseContext, l: ExpressionNode, middle: ParseContext,
                        r: ExpressionNode, end: ParseContext)
    requires k == Tk.GreaterThan || k == Tk.GreaterThanEqual
    requires UnaryAt(c, l, middle) && OperandAfter(middle, k, r, end) && Ends(end.Current())
    ensures Expression(c) ==
      Parsed(Ok(BinaryOperator(if k == Tk.GreaterThan then LessThan else LessThanEqual, r, l)), end)
  {
    hide Expression, Binary, Operand, BinaryTail, ConditionalExpression, ConditionalBranches, Unary, Postfix, PostfixTail, Primary, PrefixOperators;
    var kind := if k == Tk.GreaterThan then LessThan else LessThanEqual;
    SwappedArm(k);
    hide LevelOf, Rules, MatchRule, Combine, Arm;
    OneOperator(k, c, l, middle, r, end);
    BinaryToExpression(RelationalLevel, c, BinaryOperator(kind, r, l), end);
  }

  // ---------------------------------------------------------------------
  // The conditional

  /** `x ? y : z` with `x` and `z` operands of `unary`, as the else branch
      of another conditional. */
  lemma InnerConditional(c: ParseContext, x: ExpressionNode, d5: ParseContext, y: ExpressionNode,
                         d7: ParseContext, z: ExpressionNode, end: ParseContext)
    requires UnaryAt(c, x, d5) && Branches(d5, y, d7) && UnaryAt(Skip(d7, 1), z, end)
    requires Ends(end.Current())
    ensures ConditionalExpression(c) == Parsed(Ok(TernaryOperator(Conditional, x, y, z)), end)
  {
    hide Expression, Binary, Operand, BinaryTail, ConditionalExpression, ConditionalBranches, Unary, Postfix, PostfixTail, Primary, PrefixOperators;
    hide LevelOf, Rules, MatchRule, Combine;
    UnaryIsConditional(Skip(d7, 1), z, end);
    ConditionalFrom(c, x, d5, y, d7, z, end);
  }

  /** `a ? b : x ? y : z` is `a ? b : (x ? y : z)`. */
  lemma ConditionalNestsRight(c: ParseContext, a: ExpressionNode, d1: ParseContext, b: ExpressionNode,
                              d3: ParseContext, x: ExpressionNode, d5: ParseContext, y: ExpressionNode,
                              d7: ParseContext, z: ExpressionNode, end: ParseContext)
    requires UnaryAt(c, a, d1) && Branches(d1, b, d3)
    requires UnaryAt(Skip(d3, 1), x, d5) && Branches(d5, y, d7) && UnaryAt(Skip(d7, 1), z, end)
    requires Ends(end.Current())
    ensures Expression(c) ==
      Parsed(Ok(TernaryOperator(Conditional, a, b, TernaryOperator(Conditional, x, y, z))), end)
  {
    hide Expression, Binary, Operand, BinaryTail, ConditionalExpression, ConditionalBranches, Unary, Postfix, PostfixTail, Primary, PrefixOperators;
    hide LevelOf, Rules, MatchRule, Combine;
    var inner := TernaryOperator(Conditional, x, y, z);
    InnerConditional(Skip(d3, 1), x, d5, y, d7, z, end);
    WholeConditional(c, a, d1, b, d3, inner, end);
  }

  lemma BranchesNeedColon(a: ExpressionNode, d1: ParseContext, b: ExpressionNode, d3: ParseContext)
    requires d1.Valid() && d1.Current() == Tk.Punctuator(Tk.Question)
    requires Skip(d1, 1).Valid() && Expression(Skip(d1, 1)) == Parsed(Ok(b), d3)
    requires d3.Valid() && d3.Current() != Tk.Punctuator(Tk.Colon)
    ensures ConditionalBranches(a, d1) == Parsed(Err(ExpectedPunctuator(Tk.Colon)), d3)
  {
    hide Expression, ConditionalExpression;
    var question := ConsumePunctuator(d1, Tk.Question);
    assert question.value.Some? && question.next == Skip(d1, 1);
  }

  lemma BinaryFails(level: Level, c: ParseContext, e: ParseError, d: ParseContext)
    requires c.Valid() && Operand(level, c) == Parsed(Err(e), d)
    ensures Binary(level, c) == Parsed(Err(e), d)
  {
  }

  lemma ConditionalFails(c: ParseContext, e: ParseError, d: ParseContext)
    requires c.Valid() && Binary(LogicalOrLevel, c) == Parsed(Err(e), d)
    ensures ConditionalExpression(c) == Parsed(Err(e), d)
  {
  }

  /** An error of the conditional is the error of the whole expression. */
  lemma ConditionalFailureRises(c: ParseContext, e: ParseError, d: ParseContext)
    requires c.Valid() && ConditionalExpression(c) == Parsed(Err(e), d)
    ensures Expression(c) == Parsed(Err(e), d)
  {
    hide Expression, Binary, Operand, BinaryTail, ConditionalExpression, ConditionalBranches, Unary, Postfix, PostfixTail, Primary, PrefixOperators;
    OperandStep(AssignLevel, c);
    BinaryFails(AssignLevel, c, e, d);
    assert Tighter(CommaLevel) == AssignLevel;
    OperandStep(CommaLevel, c);
    BinaryFails(CommaLevel, c, e, d);
    ExpressionStep(c);
  }

  /** `a ? b` not followed by `:` fails there, naming the `:`. */
  lemma ConditionalNeedsColon(c: ParseContext, a: ExpressionNode, d1: ParseContext, b: ExpressionNode, d3: ParseContext)
    requires c.Valid() && Unary(c) == Parsed(Ok(a), d1)
    requires d1.Valid() && d1.Current() == Tk.Punctuator(Tk.Question)
    requires Skip(d1, 1).Valid() && Expression(Skip(d1, 1)) == Parsed(Ok(b), d3)
    requires d3.Valid() && d3.Current() != Tk.Punctuator(Tk.Colon)
    ensures Expression(c) == Parsed(Err(ExpectedPunctuator(Tk.Colon)), d3)
  {
    hide Expression, Binary, Operand, BinaryTail, ConditionalExpression, ConditionalBranches, Unary, Postfix, PostfixTail, Primary, PrefixOperators;
    hide LevelOf, Rules, MatchRule, Combine;
    ConditionOperand(c, a, d1);
    ConditionalStep(c, a, d1);
    BranchesNeedColon(a, d1, b, d3);
    ConditionalFailureRises(c, ExpectedPunctuator(Tk.Colon), d3);
  }

  // ---------------------------------------------------------------------
  // A token that starts no operand

  /** A token `unary` can start with: a prefix operator, `(` or a literal. */
  predicate StartsOperand(t: Tk.Token) {
    IsPrefixToken(t) || t == Tk.Punctuator(Tk.LeftRoundBracket) || t.Literal?
  }

  /** An error of `unary` is the error of every level above it. */
  lemma {:induction false} FailureRises(level: Level, c: ParseContext, e: ParseError, d: ParseContext)
    requires c.Valid() && Unary(c) == Parsed(Err(e), d)
    ensures Binary(level, c) == Parsed(Err(e), d)
    decreases 11 - Depth(level)
  {
    hide Expression, Binary, Operand, BinaryTail, ConditionalExpression, ConditionalBranches, Unary, Postfix, PostfixTail, Primary, PrefixOperators;
    OperandStep(level, c);
    if level != MultiplicativeLevel {
      FailureRises(Tighter(level), c, e, d);
      if level == AssignLevel {
        assert Tighter(level) == LogicalOrLevel;
        ConditionalFails(c, e, d);
      }
    }
    BinaryFails(level, c, e, d);
  }

  /** An identifier, a keyword, `End` or any other token that starts no
      operand makes `expression` fail with the missing-literal error, the
      cursor unmoved: identifiers are never operands. */
  lemma ExpressionNeedsOperand(c: ParseContext)
    requires c.Valid() && !StartsOperand(c.Current())
    ensures Expression(c) == Parsed(Err(ExpectedLiteral), c)
  {
    NoPrefix(c);
    assert Primary(c) == Parsed(Err(ExpectedLiteral), c);
    assert Postfix(c) == Parsed(Err(ExpectedLiteral), c);
    assert Unary(c) == Parsed(Err(ExpectedLiteral), c);
    hide Expression, Binary, Operand, BinaryTail, ConditionalExpression, ConditionalBranches, Unary, Postfix, PostfixTail, Primary, PrefixOperators;
    FailureRises(CommaLevel, c, ExpectedLiteral, c);
    ExpressionStep(c);
  }

  // ---------------------------------------------------------------------
  // Primary

  /** After `(`, the `)` is looked for wherever the inner expression
      stopped, whether it succeeded or not; when it is missing that is the
      error reported. */
  lemma PrimaryNeedsClose(c: ParseContext)
    requires c.Valid() && c.Current() == Tk.Punctuator(Tk.LeftRoundBracket)
    requires Skip(c, 1).Valid() && Expression(Skip(c, 1)).next.Current() != Tk.Punctuator(Tk.RightRoundBracket)
    ensures Primary(c) == Parsed(Err(ExpectedPunctuator(Tk.RightRoundBracket)), Expression(Skip(c, 1)).next)
  {
    hide Expression;
    var open := ConsumePunctuator(c, Tk.LeftRoundBracket);
    assert open.value.Some? && open.next == Skip(c, 1);
  }

  /** ... and when the inner expression failed before a `)`, the `)` is
      consumed and the inner error is what `primary` reports. */
  lemma PrimaryKeepsInnerError(c: ParseContext, e: ParseError, d: ParseContext)
    requires c.Valid() && c.Current() == Tk.Punctuator(Tk.LeftRoundBracket)
    requires Skip(c, 1).Valid() && Expression(Skip(c, 1)) == Parsed(Err(e), d)
    requires d.Valid() && d.Current() == Tk.Punctuator(Tk.RightRoundBracket)
    ensures Primary(c) == Parsed(Err(e), Skip(d, 1))
  {
    hide Expression;
    var open := ConsumePunctuator(c, Tk.LeftRoundBracket);
    assert open.value.Some? && open.next == Skip(c, 1);
  }

  // ---------------------------------------------------------------------
  // Prefix operators

  /** Wrapping puts the first operator of the run outermost. */
  lemma {:induction false} WrapUnaryFirstOutermost(op: UnaryOperatorKind, ops: seq<UnaryOperatorKind>, e: ExpressionNode)
    ensures WrapUnary([op] + ops, e) == UnaryOperator(op, WrapUnary(ops, e))
    decreases |ops|
  {
    if |ops| == 0 {
      assert [op] + ops == [op];
      assert WrapUnary([op], e) == WrapUnary([], UnaryOperator(op, e));
    } else {
      var init, last := ops[..|ops| - 1], ops[|ops| - 1];
      var all := [op] + ops;
      assert all[..|all| - 1] == [op] + init;
      assert all[|all| - 1] == last;
      WrapUnaryFirstOutermost(op, init, UnaryOperator(last, e));
    }
  }

  lemma PrefixStep(op: UnaryOperatorKind, c: ParseContext)
    requires c.Valid() && PrefixToken(op).Some? && c.Current() == Tk.Punctuator(PrefixToken(op).value)
    ensures Skip(c, 1).Valid()
    ensures PrefixOperators(c) == ([op] + PrefixOperators(Skip(c, 1)).0, PrefixOperators(Skip(c, 1)).1)
  {
    PrefixTokenInjective(PrefixOperatorAt(c).value, op);
    assert ConsumeToken(c) == Skip(c, 1);
  }

  /** The run of prefix operators is read in source order: the `k`-th
      operator is the one spelled by the `k`-th token. */
  lemma {:induction false} PrefixOperatorsInOrder(c: ParseContext)
    requires c.Valid()
    ensures forall k :: 0 <= k < |PrefixOperators(c).0| ==>
      PrefixToken(PrefixOperators(c).0[k]).Some? &&
      c.tokens[c.pos + k] == Tk.Punctuator(PrefixToken(PrefixOperators(c).0[k]).value)
    decreases c.Remaining()
  {
    match PrefixOperatorAt(c)
    case None =>
      NoPrefix(c);
    case Some(op) =>
      PrefixStep(op, c);
      var after := Skip(c, 1);
      PrefixOperatorsInOrder(after);
      var ops := PrefixOperators(c).0;
      var rest := PrefixOperators(after).0;
      assert ops == [op] + rest;
      forall k | 0 <= k < |ops|
        ensures PrefixToken(ops[k]).Some? && c.tokens[c.pos + k] == Tk.Punctuator(PrefixToken(ops[k]).value)
      {
        if k > 0 {
          assert ops[k] == rest[k - 1];
          assert c.tokens[c.pos + k] == after.tokens[after.pos + (k - 1)];
        }
      }
  }

  /** `!~x` is `!(~x)`: two prefix operators nest with the first one
      outermost. */
  lemma TwoPrefixes(op1: UnaryOperatorKind, op2: UnaryOperatorKind, c: ParseContext, x: ExpressionNode, end: ParseContext)
    requires PrefixToken(op1).Some? && PrefixToken(op2).Some?
    requires c.Valid() && c.Current() == Tk.Punctuator(PrefixToken(op1).value)
    requires Skip(c, 1).Valid() && Skip(c, 1).Current() == Tk.Punctuator(PrefixToken(op2).value)
    requires Skip(c, 2).Valid() && !IsPrefixToken(Skip(c, 2).Current())
    requires Postfix(Skip(c, 2)) == Parsed(Ok(x), end)
    ensures Unary(c) == Parsed(Ok(UnaryOperator(op1, UnaryOperator(op2, x))), end)
  {
    hide Expression, Binary, Operand, BinaryTail, ConditionalExpression, ConditionalBranches, Unary, Postfix, PostfixTail, Primary, PrefixOperators;
    OnePrefix(op2, Skip(c, 1));
    PrefixStep(op1, c);
    assert Skip(Skip(c, 1), 1) == Skip(c, 2);
    assert [op1] + [op2] == [op1, op2];
    assert PrefixOperators(c) == ([op1, op2], Skip(c, 2));
    UnaryStep(c, [op1, op2], Skip(c, 2), x, end);
    WrapUnaryFirstOutermost(op1, [op2], x);
    WrapUnaryFirstOutermost(op2, [], x);
    assert [op2] + [] == [op2];
  }

  // ---------------------------------------------------------------------
  // Postfix forms

  /** `a[i]` is `a + i`. */
  lemma SubscriptStep(current: ExpressionNode, c: ParseContext, i: ExpressionNode, d: ParseContext)
    requires c.Valid() && c.Current() == Tk.Punctuator(Tk.LeftSquareBracket)
    requires Skip(c, 1).Valid() && Expression(Skip(c, 1)) == Parsed(Ok(i), d)
    requires d.Valid() && d.Current() == Tk.Punctuator(Tk.RightSquareBracket)
    ensures Skip(d, 1).Valid()
    ensures PostfixTail(current, c) == PostfixTail(BinaryOperator(Add, current, i), Skip(d, 1))
  {
    hide Expression, Arguments;
    var open := ConsumePunctuator(c, Tk.LeftSquareBracket);
    assert open.value.Some? && open.next == Skip(c, 1);
  }

  /** ... and the `]` is required. */
  lemma SubscriptNeedsBracket(current: ExpressionNode, c: ParseContext, i: ExpressionNode, d: ParseContext)
    requires c.Valid() && c.Current() == Tk.Punctuator(Tk.LeftSquareBracket)
    requires Skip(c, 1).Valid() && Expression(Skip(c, 1)) == Parsed(Ok(i), d)
    requires d.Valid() && d.Current() != Tk.Punctuator(Tk.RightSquareBracket)
    ensures PostfixTail(current, c) == Parsed(Err(ExpectedPunctuator(Tk.RightSquareBracket)), d)
  {
    hide Expression, Arguments;
    var open := ConsumePunctuator(c, Tk.LeftSquareBracket);
    assert open.value.Some? && open.next == Skip(c, 1);
  }

  /** `x++` is `x = x + 1`. */
  lemma IncrementStep(current: ExpressionNode, c: ParseContext)
    requires c.Valid() && c.Current() == Tk.Punctuator(Tk.DoublePluses)
    ensures Skip(c, 1).Valid()
    ensures PostfixTail(current, c) ==
      PostfixTail(BinaryOperator(Assign, current, BinaryOperator(Add, current, Immediate(Number(1)))), Skip(c, 1))
  {
    hide Expression, Arguments;
    assert ConsumePunctuator(c, Tk.LeftRoundBracket).value.None?;
    assert ConsumePunctuator(c, Tk.LeftSquareBracket).value.None?;
    assert ConsumePunctuator(c, Tk.DoublePluses) == Consumed(Some(()), Skip(c, 1));
  }

  /** `x--` is `x = x - 1`. */
  lemma DecrementStep(current: ExpressionNode, c: ParseContext)
    requires c.Valid() && c.Current() == Tk.Punctuator(Tk.DoubleMinuses)
    ensures Skip(c, 1).Valid()
    ensures PostfixTail(current, c) ==
      PostfixTail(BinaryOperator(Assign, current, BinaryOperator(Sub, current, Immediate(Number(1)))), Skip(c, 1))
  {
    hide Expression, Arguments;
    assert ConsumePunctuator(c, Tk.LeftRoundBracket).value.None?;
    assert ConsumePunctuator(c, Tk.LeftSquareBracket).value.None?;
    assert ConsumePunctuator(c, Tk.DoublePluses).value.None?;
    assert ConsumePunctuator(c, Tk.DoubleMinuses) == Consumed(Some(()), Skip(c, 1));
  }

  lemma OneArgument(c: ParseContext, a: ExpressionNode, d: ParseContext)
    requires c.Valid() && Binary(AssignLevel, c) == Parsed(Ok(a), d)
    requires d.Valid() && d.Current() != Tk.Punctuator(Tk.Comma)
    ensures Arguments(c, []) == Parsed(Ok([a]), d)
  {
    hide Binary;
    assert [] + [a] == [a];
  }

  /** `f(a)`: the call is built, but its `)` is left unread, so the loop
      stops on it. */
  lemma CallWithArgumentsLeavesBracket(current: ExpressionNode, c: ParseContext, a: ExpressionNode, d: ParseContext)
    requires c.Valid() && c.Current() == Tk.Punctuator(Tk.LeftRoundBracket)
    requires Skip(c, 1).Valid() && Skip(c, 1).Current() != Tk.Punctuator(Tk.RightRoundBracket)
    requires Binary(AssignLevel, Skip(c, 1)) == Parsed(Ok(a), d)
    requires d.Valid() && d.Current() == Tk.Punctuator(Tk.RightRoundBracket)
    ensures PostfixTail(current, c) == Parsed(Ok(UnaryOperator(FunctionCall([a]), current)), d)
  {
    hide Expression, Binary, Arguments;
    OneArgument(Skip(c, 1), a, d);
    var open := ConsumePunctuator(c, Tk.LeftRoundBracket);
    assert open.value.Some? && open.next == Skip(c, 1);
    var close := ConsumePunctuator(open.next, Tk.RightRoundBracket);
    assert close.value.None?;
    PostfixTailStops(UnaryOperator(FunctionCall([a]), current), d);
  }
}

=== FILE: parser.dfy ===
/** The entry point of `src/parser.rs`: `parse` reads one statement from
    the first token and makes it the root of the tree.  Nothing checks that
    the statement reaches `End`, so whatever follows it is dropped. */
module Parser {
  import opened Prelude
  import Tk = Tokenizer
  import opened Cursor
  import E = ExpressionParser
  import F = ExpressionFacts
  import opened StatementParser
  import SF = StatementFacts

  /** `AST`: the root statement. */
  datatype Ast = Ast(root: StatementNode)

  /** `parse`.  The tokens are those `tokenize` produces, which end in `End`. */
  function Parse(tokens: seq<Tk.Token>): (r: Result<Ast, ParseError>)
    requires |tokens| > 0 && tokens[|tokens| - 1] == Tk.End
    ensures r.Ok? <==> Statement(NewContext(tokens)).result.Ok?
    ensures r.Ok? ==> r.value.root == Statement(NewContext(tokens)).result.value
    ensures r.Err? ==> r.error == Statement(NewContext(tokens)).result.error
  {
    match Statement(NewContext(tokens)).result
    case Err(e) => Err(e)
    case Ok(node) => Ok(Ast(node))
  }

  /** Every token sequence `tokenize` returns is one `parse` accepts as input. */
  lemma TokenizedInputsParse(source: string)
    requires Tk.Tokenize(source).Ok?
    ensures var tokens := Tk.Tokenize(source).value; |tokens| > 0 && tokens[|tokens| - 1] == Tk.End
  {
  }

  /** A leading `;` is the whole tree: the tokens after it are never read. */
  lemma TrailingTokensIgnored(rest: seq<Tk.Token>)
    requires |rest| > 0 && rest[|rest| - 1] == Tk.End
    ensures Parse([Tk.Punctuator(Tk.Semicolon)] + rest) == Ok(Ast(Null))
  {
    var c := NewContext([Tk.Punctuator(Tk.Semicolon)] + rest);
    SF.NullStatementShape(c);
  }

  /** `{ return n ; }` followed by anything parses to a block of a `return`
      and, because `return` does not read its `;`, an empty statement. */
  lemma ReturnBlockParses(n: Tk.Int32, rest: seq<Tk.Token>)
    requires |rest| > 0 && rest[|rest| - 1] == Tk.End
    ensures
      var block := [Tk.Punctuator(Tk.LeftCurlyBracket), Tk.Keyword(Tk.Return), Tk.Literal(Tk.NumberLit(n)),
                    Tk.Punctuator(Tk.Semicolon), Tk.Punctuator(Tk.RightCurlyBracket)];
      Parse(block + rest) == Ok(Ast(Compound([Return(E.Immediate(E.Number(n))), Null])))
  {
    var block := [Tk.Punctuator(Tk.LeftCurlyBracket), Tk.Keyword(Tk.Return), Tk.Literal(Tk.NumberLit(n)),
                  Tk.Punctuator(Tk.Semicolon), Tk.Punctuator(Tk.RightCurlyBracket)];
    var c := NewContext(block + rest);
    assert (block + rest)[0..5] == block;
    SF.ReturnInBlock(c, n);
  }
}

=== FILE: prelude.dfy ===
/** The two failure-carrying wrappers every other module uses: Rust's
    `Option` and `Result`. */
module Prelude {

  datatype Option<+T> = None | Some(value: T)

  datatype Result<+T, +E> = Ok(value: T) | Err(error: E)
}

=== FILE: statement.dfy ===
/** The statement parser of `src/parser/statement.rs`.

    `statement` tries thirteen recognisers one after another.  Each returns
    `Ok(None)` without moving the cursor when the statement does not start
    with its leading token, `Ok(Some(s))` when it parsed `s`, and an error
    when it committed to its form and then failed.  Here the fixed order is
    the constant `Forms`, `Recognize` dispatches to the recogniser of one
    form, and `TryForms` is the `if let … else if let …` chain walking that
    order. */
module StatementParser {
  import opened Prelude
  import Tk = Tokenizer
  import opened Cursor
  import E = ExpressionParser

  datatype StatementNode =
    | Null
    | Expression(expression: E.ExpressionNode)
    | If(condition: E.ExpressionNode, statement: StatementNode)
    | Switch(condition: E.ExpressionNode, statement: StatementNode)
    | Labeled(name: string)
    | While(condition: E.ExpressionNode, statement: StatementNode)
    | DoWhile(condition: E.ExpressionNode, statement: StatementNode)
    | For(initialization: E.ExpressionNode, condition: E.ExpressionNode,
          afterthought: E.ExpressionNode, statement: StatementNode)
    | Compound(statements: seq<StatementNode>)
    | Return(value: E.ExpressionNode)
    | Break
    | Continue
    | Goto(name: string)

  /** One recogniser of `statement`. */
  datatype Form =
    | NullForm | IfForm | SwitchForm | LabeledForm | WhileForm | DoWhileForm | ForForm
    | CompoundForm | ReturnForm | BreakForm | ContinueForm | GotoForm | ExpressionForm

  /** The order in which `statement` tries its recognisers. */
  const Forms: seq<Form> := [NullForm, IfForm, SwitchForm, LabeledForm, WhileForm, DoWhileForm,
    ForForm, CompoundForm, ReturnForm, BreakForm, ContinueForm, GotoForm, ExpressionForm]

  /** `statement`: the first recogniser that does not decline decides. */
  function Statement(c: ParseContext): (r: Parsed<StatementNode>)
    requires c.Valid()
    ensures Follows(c, r.next)
    ensures r.result.Ok? ==> c.pos < r.next.pos
    decreases c.Remaining(), 3, 0
  {
    TryForms(c, 0)
  }

  /** The chain of `statement` from its `i`-th recogniser on; running past
      the last one is the closing `Err("statement is expected …")`. */
  function TryForms(c: ParseContext, i: nat): (r: Parsed<StatementNode>)
    requires c.Valid() && i <= |Forms|
    ensures Follows(c, r.next)
    ensures r.result.Ok? ==> c.pos < r.next.pos
    decreases c.Remaining(), 2, |Forms| - i
  {
    if i == |Forms| then Parsed(Err(StatementExpected), c)
    else
      var attempt := Recognize(Forms[i], c);
      match attempt.result
      case Err(e) => Parsed(Err(e), attempt.next)
      case Ok(Some(s)) => Parsed(Ok(s), attempt.next)
      case Ok(None) => TryForms(attempt.next, i + 1)
  }

  /** The recogniser of `form`. */
  function Recognize(form: Form, c: ParseContext): (r: Parsed<Option<StatementNode>>)
    requires c.Valid()
    ensures Follows(c, r.next)
    ensures r.result == Ok(None) ==> r.next == c
    ensures r.result.Ok? && r.result.value.Some? ==> c.pos < r.next.pos
    decreases c.Remaining(), 1, 0
  {
    match form
    case NullForm => NullStatement(c)
    case IfForm => IfStatement(c)
    case SwitchForm => SwitchStatement(c)
    case LabeledForm => LabeledStatement(c)
    case WhileForm => WhileStatement(c)
    case DoWhileForm => DoWhileStatement(c)
    case ForForm => ForStatement(c)
    case CompoundForm => CompoundStatement(c)
    case ReturnForm => ReturnStatement(c)
    case BreakForm => BreakStatement(c)
    case ContinueForm => ContinueStatement(c)
    case GotoForm => GotoStatement(c)
    case ExpressionForm => ExpressionStatement(c)
  }

  /** `null_statement`: a lone `;`. */
  function NullStatement(c: ParseContext): (r: Parsed<Option<StatementNode>>)
    requires c.Valid()
    ensures Follows(c, r.next)
    ensures r.result.Ok?
    ensures r.result.value.Some? <==> c.Current() == Tk.Punctuator(Tk.Semicolon)
    ensures r.result.value.Some? ==> r.result.value.value == Null && r.next.pos == c.pos + 1
    ensures r.result.value.None? ==> r.next == c
  {
    var semicolon := ConsumePunctuator(c, Tk.Semicolon);
    Parsed(Ok(if semicolon.value.Some? then Some(Null) else None), semicolon.next)
  }

  /** An `expression` followed by the punctuator `close`, as the recognisers
      write `expression(context)?` and then `expect_punctuator(context, close)?`. */
  function ExpressionThen(c: ParseContext, close: Tk.PunctuatorKind): (r: Parsed<E.ExpressionNode>)
    requires c.Valid()
    ensures Follows(c, r.next)
    ensures r.result.Ok? ==> c.pos < r.next.pos
    ensures r.result.Ok? <==>
      E.Expression(c).result.Ok? && E.Expression(c).next.Current() == Tk.Punctuator(close)
    ensures r.result.Ok? ==> r.result.value == E.Expression(c).result.value
    ensures E.Expression(c).result.Ok? && r.result.Err? ==>
      r.result.error == ExpectedPunctuator(close) && r.next == E.Expression(c).next
  {
    var value := E.Expression(c);
    match value.result
    case Err(e) => Parsed(Err(e), value.next)
    case Ok(x) =>
      var after := ExpectPunctuator(value.next, close);
      match after.result
      case Err(e) => Parsed(Err(e), after.next)
      case Ok(_) => Parsed(Ok(x), after.next)
  }

  /** `expression_statement`: an expression closed by `;`.  It never
      declines, so the chain of `statement` always ends here. */
  function ExpressionStatement(c: ParseContext): (r: Parsed<Option<StatementNode>>)
    requires c.Valid()
    ensures Follows(c, r.next)
    ensures r.result.Ok? ==> r.result.value.Some? && c.pos < r.next.pos
    decreases c.Remaining(), 0, 0
  {
    var value := ExpressionThen(c, Tk.Semicolon);
    match value.result
    case Err(e) => Parsed(Err(e), value.next)
    case Ok(x) => Parsed(Ok(Some(Expression(x))), value.next)
  }

  /** `( condition ) statement`, the part `if`, `switch`, `while` and
      `do … while` share after their keyword. */
  function Guard(c: ParseContext): (r: Parsed<(E.ExpressionNode, StatementNode)>)
    requires c.Valid()
    ensures Follows(c, r.next)
    ensures r.result.Ok? ==> c.pos < r.next.pos
    decreases c.Remaining(), 0, 0
  {
    var open := ExpectPunctuator(c, Tk.LeftRoundBracket);
    match open.result
    case Err(e) => Parsed(Err(e), open.next)
    case Ok(_) =>
      var condition := ExpressionThen(open.next, Tk.RightRoundBracket);
      match condition.result
      case Err(e) => Parsed(Err(e), condition.next)
      case Ok(x) =>
        var body := Statement(condition.next);
        match body.result
        case Err(e) => Parsed(Err(e), body.next)
        case Ok(s) => Parsed(Ok((x, s)), body.next)
  }

  /** `if_statement`: `if ( condition ) statement`, with no `else`. */
  function IfStatement(c: ParseContext): (r: Parsed<Option<StatementNode>>)
    requires c.Valid()
    ensures Follows(c, r.next)
    ensures r.result == Ok(None) <==> c.Current() != Tk.Keyword(Tk.If)
    ensures r.result == Ok(None) ==> r.next == c
    ensures r.result.Ok? && r.result.value.Some? ==> c.pos < r.next.pos && r.result.value.value.If?
    decreases c.Remaining(), 0, 0
  {
    var keyword := ConsumeKeyword(c, Tk.If);
    if keyword.value.None? then Parsed(Ok(None), keyword.next)
    else
      var guarded := Guard(keyword.next);
      match guarded.result
      case Err(e) => Parsed(Err(e), guarded.next)
      case Ok((x, s)) => Parsed(Ok(Some(If(x, s))), guarded.next)
  }

  /** `switch_statement`: `switch ( condition ) statement`. */
  function SwitchStatement(c: ParseContext): (r: Parsed<Option<StatementNode>>)
    requires c.Valid()
    ensures Follows(c, r.next)
    ensures r.result == Ok(None) <==> c.Current() != Tk.Keyword(Tk.Switch)
    ensures r.result == Ok(None) ==> r.next == c
    ensures r.result.Ok? && r.result.value.Some? ==> c.pos < r.next.pos && r.result.value.value.Switch?
    decreases c.Remaining(), 0, 0
  {
    var keyword := ConsumeKeyword(c, Tk.Switch);
    if keyword.value.None? then Parsed(Ok(None), keyword.next)
    else
      var guarded := Guard(keyword.next);
      match guarded.result
      case Err(e) => Parsed(Err(e), guarded.next)
      case Ok((x, s)) => Parsed(Ok(Some(Switch(x, s))), guarded.next)
  }

  /** `labeled_statement`: an identifier and then `:`.  Because
      `consume_identifier` does not move the cursor, the `:` is looked for
      on the identifier itself. */
  function LabeledStatement(c: ParseContext): (r: Parsed<Option<StatementNode>>)
    requires c.Valid()
    ensures Follows(c, r.next)
    ensures r.result == Ok(None) <==> !c.Current().Identifier?
    ensures r.result == Ok(None) ==> r.next == c
    ensures r.result.Ok? && r.result.value.Some? ==> c.pos < r.next.pos
    decreases c.Remaining(), 0, 0
  {
    var identifier := ConsumeIdentifier(c);
    match identifier.value
    case None => Parsed(Ok(None), identifier.next)
    case Some(name) =>
      var colon := ExpectPunctuator(identifier.next, Tk.Colon);
      match colon.result
      case Err(e) => Parsed(Err(e), colon.next)
      case Ok(_) => Parsed(Ok(Some(Labeled(name))), colon.next)
  }

  /** `while_statement`: `while ( condition ) statement`. */
  function WhileStatement(c: ParseContext): (r: Parsed<Option<StatementNode>>)
    requires c.Valid()
    ensures Follows(c, r.next)
    ensures r.result == Ok(None) <==> c.Current() != Tk.Keyword(Tk.While)
    ensures r.result == Ok(None) ==> r.next == c
    ensures r.result.Ok? && r.result.value.Some? ==> c.pos < r.next.pos && r.result.value.value.While?
    decreases c.Remaining(), 0, 0
  {
    var keyword := ConsumeKeyword(c, Tk.While);
    if keyword.value.None? then Parsed(Ok(None), keyword.next)
    else
      var guarded := Guard(keyword.next);
      match guarded.result
      case Err(e) => Parsed(Err(e), guarded.next)
      case Ok((x, s)) => Parsed(Ok(Some(While(x, s))), guarded.next)
  }

  /** `do_while_statement`: `do ( condition ) statement while`, and the
      keyword `while` is the last thing it reads. */
  function DoWhileStatement(c: ParseContext): (r: Parsed<Option<StatementNode>>)
    requires c.Valid()
    ensures Follows(c, r.next)
    ensures r.result == Ok(None) <==> c.Current() != Tk.Keyword(Tk.Do)
    ensures r.result == Ok(None) ==> r.next == c
    ensures r.result.Ok? && r.result.value.Some? ==> c.pos < r.next.pos && r.result.value.value.DoWhile?
    decreases c.Remaining(), 0, 0
  {
    var keyword := ConsumeKeyword(c, Tk.Do);
    if keyword.value.None? then Parsed(Ok(None), keyword.next)
    else
      var guarded := Guard(keyword.next);
      match guarded.result
      case Err(e) => Parsed(Err(e), guarded.next)
      case Ok((x, s)) =>
        var closing := ExpectKeyword(guarded.next, Tk.While);
        match closing.result
        case Err(e) => Parsed(Err(e), closing.next)
        case Ok(_) => Parsed(Ok(Some(DoWhile(x, s))), closing.next)
  }

  /** `for_statement`: `for ( e ; e ; e ) statement`, all three expressions
      required. */
  function ForStatement(c: ParseContext): (r: Parsed<Option<StatementNode>>)
    requires c.Valid()
    ensures Follows(c, r.next)
    ensures r.result == Ok(None) <==> c.Current() != Tk.Keyword(Tk.For)
    ensures r.result == Ok(None) ==> r.next == c
    ensures r.result.Ok? && r.result.value.Some? ==> c.pos < r.next.pos && r.result.value.value.For?
    decreases c.Remaining(), 0, 0
  {
    var keyword := ConsumeKeyword(c, Tk.For);
    if keyword.value.None? then Parsed(Ok(None), keyword.next)
    else
      var open := ExpectPunctuator(keyword.next, Tk.LeftRoundBracket);
      match open.result
      case Err(e) => Parsed(Err(e), open.next)
      case Ok(_) => ForClauses(open.next)
  }

  /** The rest of `for_statement` after `for (`: three expressions, each
      followed by its separator, then the body. */
  function ForClauses(c: ParseContext): (r: Parsed<Option<StatementNode>>)
    requires c.Valid()
    ensures Follows(c, r.next)
    ensures r.result.Ok? ==> r.result.value.Some? && c.pos < r.next.pos && r.result.value.value.For?
    decreases c.Remaining(), 0, 0
  {
    var initialization := ExpressionThen(c, Tk.Semicolon);
    match initialization.result
    case Err(e) => Parsed(Err(e), initialization.next)
    case Ok(x) =>
      var condition := ExpressionThen(initialization.next, Tk.Semicolon);
      match condition.result
      case Err(e) => Parsed(Err(e), condition.next)
      case Ok(y) =>
        var afterthought := ExpressionThen(condition.next, Tk.RightRoundBracket);
        match afterthought.result
        case Err(e) => Parsed(Err(e), afterthought.next)
        case Ok(z) =>
          var body := Statement(afterthought.next);
          match body.result
          case Err(e) => Parsed(Err(e), body.next)
          case Ok(s) => Parsed(Ok(Some(For(x, y, z, s))), body.next)
  }

  /** `compound_statement`: `{`, then statements up to the matching `}`. */
  function CompoundStatement(c: ParseContext): (r: Parsed<Option<StatementNode>>)
    requires c.Valid()
    ensures Follows(c, r.next)
    ensures r.result == Ok(None) <==> c.Current() != Tk.Punctuator(Tk.LeftCurlyBracket)
    ensures r.result == Ok(None) ==> r.next == c
    ensures r.result.Ok? && r.result.value.Some? ==> c.pos < r.next.pos && r.result.value.value.Compound?
    decreases c.Remaining(), 0, 0
  {
    var open := ConsumePunctuator(c, Tk.LeftCurlyBracket);
    if open.value.None? then Parsed(Ok(None), open.next)
    else
      var items := CompoundItems(open.next, []);
      match items.result
      case Err(e) => Parsed(Err(e), items.next)
      case Ok(list) => Parsed(Ok(Some(Compound(list))), items.next)
  }

  /** The loop of `compound_statement`: `done` holds the statements pushed so
      far; a `}` ends the loop and any other token starts one more statement. */
  function CompoundItems(c: ParseContext, done: seq<StatementNode>): (r: Parsed<seq<StatementNode>>)
    requires c.Valid()
    ensures Follows(c, r.next)
    ensures r.result.Ok? ==> c.pos < r.next.pos
    ensures r.result.Ok? ==> |done| <= |r.result.value| && r.result.value[..|done|] == done
    decreases c.Remaining(), 4, 0
  {
    var close := ConsumePunctuator(c, Tk.RightCurlyBracket);
    if close.value.Some? then Parsed(Ok(done), close.next)
    else
      var item := Statement(close.next);
      match item.result
      case Err(e) => Parsed(Err(e), item.next)
      case Ok(s) =>
        var rest := CompoundItems(item.next, done + [s]);
        assert rest.result.Ok? ==> rest.result.value[..|done|] == (done + [s])[..|done|];
        rest
  }

  /** `return_statement`: `return` and an expression; the `;` after it is
      not read. */
  function ReturnStatement(c: ParseContext): (r: Parsed<Option<StatementNode>>)
    requires c.Valid()
    ensures Follows(c, r.next)
    ensures r.result == Ok(None) <==> c.Current() != Tk.Keyword(Tk.Return)
    ensures r.result == Ok(None) ==> r.next == c
    ensures r.result.Ok? && r.result.value.Some? ==> c.pos < r.next.pos && r.result.value.value.Return?
    decreases c.Remaining(), 0, 0
  {
    var keyword := ConsumeKeyword(c, Tk.Return);
    if keyword.value.None? then Parsed(Ok(None), keyword.next)
    else
      var value := E.Expression(keyword.next);
      match value.result
      case Err(e) => Parsed(Err(e), value.next)
      case Ok(x) => Parsed(Ok(Some(Return(x))), value.next)
  }

  /** `break_statement`: `break ;`. */
  function BreakStatement(c: ParseContext): (r: Parsed<Option<StatementNode>>)
    requires c.Valid()
    ensures Follows(c, r.next)
    ensures r.result == Ok(None) <==> c.Current() != Tk.Keyword(Tk.Break)
    ensures r.result == Ok(None) ==> r.next == c
    ensures r.result.Ok? && r.result.value.Some? ==> r.result.value.value == Break && r.next.pos == c.pos + 2
    decreases c.Remaining(), 0, 0
  {
    var keyword := ConsumeKeyword(c, Tk.Break);
    if keyword.value.None? then Parsed(Ok(None), keyword.next)
    else
      var semicolon := ExpectPunctuator(keyword.next, Tk.Semicolon);
      match semicolon.result
      case Err(e) => Parsed(Err(e), semicolon.next)
      case Ok(_) => Parsed(Ok(Some(Break)), semicolon.next)
  }

  /** `continue_statement`: `continue ;`. */
  function ContinueStatement(c: ParseContext): (r: Parsed<Option<StatementNode>>)
    requires c.Valid()
    ensures Follows(c, r.next)
    ensures r.result == Ok(None) <==> c.Current() != Tk.Keyword(Tk.Continue)
    ensures r.result == Ok(None) ==> r.next == c
    ensures r.result.Ok? && r.result.value.Some? ==> r.result.value.value == Continue && r.next.pos == c.pos + 2
    decreases c.Remaining(), 0, 0
  {
    var keyword := ConsumeKeyword(c, Tk.Continue);
    if keyword.value.None? then Parsed(Ok(None), keyword.next)
    else
      var semicolon := ExpectPunctuator(keyword.next, Tk.Semicolon);
      match semicolon.result
      case Err(e) => Parsed(Err(e), semicolon.next)
      case Ok(_) => Parsed(Ok(Some(Continue)), semicolon.next)
  }

  /** `goto_statement`: `goto` and a label, read by the non-advancing
      `expect_identifier`, so the cursor stays on the label. */
  function GotoStatement(c: ParseContext): (r: Parsed<Option<StatementNode>>)
    requires c.Valid()
    ensures Follows(c, r.next)
    ensures r.result == Ok(None) <==> c.Current() != Tk.Keyword(Tk.Goto)
    ensures r.result == Ok(None) ==> r.next == c
    ensures r.result.Ok? && r.result.value.Some? ==> r.next.pos == c.pos + 1 && r.result.value.value.Goto?
    decreases c.Remaining(), 0, 0
  {
    var keyword := ConsumeKeyword(c, Tk.Goto);
    if keyword.value.None? then Parsed(Ok(None), keyword.next)
    else
      var target := ExpectIdentifier(keyword.next);
      match target.result
      case Err(e) => Parsed(Err(e), target.next)
      case Ok(name) => Parsed(Ok(Some(Goto(name))), target.next)
  }
}

=== FILE: statement_facts.dfy ===
/** What `src/parser/statement.rs` promises about statements.

    The central fact is `FirstMatchWins`: the chain of recognisers in
    `statement` is decided by the first token alone, as the table `FormOf`
    states, and the chain never runs past `expression_statement`, so its
    closing `Err("statement is expected …")` cannot be reached.  The other
    lemmas give the shape each recogniser reads, including the quirks of
    the code: no `else`, nothing read after `do … while`, `return` leaving
    its `;` behind, and identifiers never moving the cursor. */
module StatementFacts {
  import opened Prelude
  import Tk = Tokenizer
  import opened Cursor
  import E = ExpressionParser
  import F = ExpressionFacts
  import opened StatementParser

  /** The recogniser that takes over at token `t`: each recogniser but the
      last commits on one kind of leading token, and those kinds are
      disjoint; every other token is left to `expression_statement`. */
  function FormOf(t: Tk.Token): Form {
    match t
    case Punctuator(p) =>
      if p == Tk.Semicolon then NullForm
      else if p == Tk.LeftCurlyBracket then CompoundForm
      else ExpressionForm
    case Keyword(k) =>
      if k == Tk.If then IfForm
      else if k == Tk.Switch then SwitchForm
      else if k == Tk.While then WhileForm
      else if k == Tk.Do then DoWhileForm
      else if k == Tk.For then ForForm
      else if k == Tk.Return then ReturnForm
      else if k == Tk.Break then BreakForm
      else if k == Tk.Continue then ContinueForm
      else if k == Tk.Goto then GotoForm
      else ExpressionForm
    case Identifier(_) => LabeledForm
    case _ => ExpressionForm
  }

  /** The token each form of `FormOf` stands for. */
  lemma FormOfLeaders(t: Tk.Token)
    ensures FormOf(t) == NullForm <==> t == Tk.Punctuator(Tk.Semicolon)
    ensures FormOf(t) == CompoundForm <==> t == Tk.Punctuator(Tk.LeftCurlyBracket)
    ensures FormOf(t) == LabeledForm <==> t.Identifier?
    ensures FormOf(t) == IfForm <==> t == Tk.Keyword(Tk.If)
    ensures FormOf(t) == SwitchForm <==> t == Tk.Keyword(Tk.Switch)
    ensures FormOf(t) == WhileForm <==> t == Tk.Keyword(Tk.While)
    ensures FormOf(t) == DoWhileForm <==> t == Tk.Keyword(Tk.Do)
    ensures FormOf(t) == ForForm <==> t == Tk.Keyword(Tk.For)
    ensures FormOf(t) == ReturnForm <==> t == Tk.Keyword(Tk.Return)
    ensures FormOf(t) == BreakForm <==> t == Tk.Keyword(Tk.Break)
    ensures FormOf(t) == ContinueForm <==> t == Tk.Keyword(Tk.Continue)
    ensures FormOf(t) == GotoForm <==> t == Tk.Keyword(Tk.Goto)
  {
  }

  /** Where `form` stands in the order of `statement`. */
  function IndexOf(form: Form): (i: nat)
    ensures i < |Forms| && Forms[i] == form
    ensures forall j :: 0 <= j < i ==> Forms[j] != form && Forms[j] != ExpressionForm
  {
    match form
    case NullForm => 0
    case IfForm => 1
    case SwitchForm => 2
    case LabeledForm => 3
    case WhileForm => 4
    case DoWhileForm => 5
    case ForForm => 6
    case CompoundForm => 7
    case ReturnForm => 8
    case BreakForm => 9
    case ContinueForm => 10
    case GotoForm => 11
    case ExpressionForm => 12
  }

  /** A recogniser's `Parsed<Option<_>>` as the chain of `statement` turns it
      into its own result, for a recogniser that did not decline. */
  function Settle(attempt: Parsed<Option<StatementNode>>): Parsed<StatementNode> {
    match attempt.result
    case Err(e) => Parsed(Err(e), attempt.next)
    case Ok(Some(s)) => Parsed(Ok(s), attempt.next)
    case Ok(None) => Parsed(Err(StatementExpected), attempt.next)
  }

  /** A recogniser declines, leaving the cursor alone, exactly when the
      first token is not the one `FormOf` gives it. */
  lemma DeclinesExactly(form: Form, c: ParseContext)
    requires c.Valid()
    ensures Recognize(form, c).result == Ok(None) <==> form != ExpressionForm && form != FormOf(c.Current())
    ensures Recognize(form, c).result == Ok(None) ==> Recognize(form, c).next == c
  {
    hide NullStatement, IfStatement, SwitchStatement, LabeledStatement, WhileStatement, DoWhileStatement, ForStatement, CompoundStatement, ReturnStatement, BreakStatement, ContinueStatement, GotoStatement, ExpressionStatement;
    hide Statement, TryForms, Guard, ExpressionThen, CompoundItems;
    FormOfLeaders(c.Current());
    hide FormOf;
    match form
    case NullForm =>
    case IfForm =>
    case SwitchForm =>
    case LabeledForm =>
    case WhileForm =>
    case DoWhileForm =>
    case ForForm =>
    case CompoundForm =>
    case ReturnForm =>
    case BreakForm =>
    case ContinueForm =>
    case GotoForm =>
    case ExpressionForm =>
  }

  /** Recognisers that decline hand the unmoved cursor to the next one. */
  lemma {:induction false} SkipDeclining(c: ParseContext, i: nat, k: nat)
    requires c.Valid() && i <= k < |Forms|
    requires forall j :: i <= j < k ==> Recognize(Forms[j], c).result == Ok(None)
    ensures TryForms(c, i) == TryForms(c, k)
    decreases k - i
  {
    if i < k {
      assert Recognize(Forms[i], c).next == c;
      SkipDeclining(c, i + 1, k);
    }
  }

  /** `statement` is the recogniser `FormOf` names for the first token, and
      that recogniser never declines: the closing error of the chain is
      unreachable. */
  lemma FirstMatchWins(c: ParseContext)
    requires c.Valid()
    ensures Recognize(FormOf(c.Current()), c).result != Ok(None)
    ensures Statement(c) == Settle(Recognize(FormOf(c.Current()), c))
  {
    var form := FormOf(c.Current());
    var k := IndexOf(form);
    forall j | 0 <= j < k
      ensures Recognize(Forms[j], c).result == Ok(None)
    {
      DeclinesExactly(Forms[j], c);
    }
    SkipDeclining(c, 0, k);
    DeclinesExactly(form, c);
  }

  /** `FirstMatchWins` for a token whose form is already known. */
  lemma Dispatch(c: ParseContext, form: Form)
    requires c.Valid() && FormOf(c.Current()) == form
    ensures Statement(c) == Settle(Recognize(form, c))
  {
    FirstMatchWins(c);
  }

  // ---------------------------------------------------------------------
  // One lemma per form

  /** `;` alone is the null statement and consumes exactly that token. */
  lemma NullStatementShape(c: ParseContext)
    requires c.Valid() && c.Current() == Tk.Punctuator(Tk.Semicolon)
    ensures Statement(c) == Parsed(Ok(Null), F.Skip(c, 1))
  {
    hide Statement, TryForms, Guard, ExpressionThen, CompoundItems, E.Expression;
    FormOfLeaders(c.Current());
    Dispatch(c, NullForm);
  }

  /** A statement that starts with an identifier always fails, at the `:`
      check, with the cursor still on the identifier. */
  lemma LabelAlwaysFails(c: ParseContext)
    requires c.Valid() && c.Current().Identifier?
    ensures Statement(c) == Parsed(Err(ExpectedPunctuator(Tk.Colon)), c)
  {
    hide Statement, TryForms, Guard, ExpressionThen, CompoundItems, E.Expression;
    FormOfLeaders(c.Current());
    Dispatch(c, LabeledForm);
  }

  /** `goto x` gives `Goto("x")` but leaves the cursor on `x`; without a
      label it fails right after `goto`. */
  lemma GotoStaysOnLabel(c: ParseContext)
    requires c.Valid() && c.Current() == Tk.Keyword(Tk.Goto)
    ensures F.Skip(c, 1).Valid()
    ensures F.Skip(c, 1).Current().Identifier? ==>
      Statement(c) == Parsed(Ok(Goto(F.Skip(c, 1).Current().name)), F.Skip(c, 1))
    ensures !F.Skip(c, 1).Current().Identifier? ==>
      Statement(c) == Parsed(Err(ExpectedIdentifier), F.Skip(c, 1))
  {
    hide Statement, TryForms, Guard, ExpressionThen, CompoundItems, E.Expression;
    FormOfLeaders(c.Current());
    Dispatch(c, GotoForm);
    assert ConsumeKeyword(c, Tk.Goto).next == F.Skip(c, 1);
  }

  /** `break` and `continue` each need the `;` that follows them. */
  lemma JumpsNeedSemicolon(c: ParseContext)
    requires c.Valid()
    requires c.Current() == Tk.Keyword(Tk.Break) || c.Current() == Tk.Keyword(Tk.Continue)
    ensures F.Skip(c, 1).Valid()
    ensures F.Skip(c, 1).Current() == Tk.Punctuator(Tk.Semicolon) ==>
      Statement(c) == Parsed(Ok(if c.Current() == Tk.Keyword(Tk.Break) then Break else Continue), F.Skip(c, 2))
    ensures F.Skip(c, 1).Current() != Tk.Punctuator(Tk.Semicolon) ==>
      Statement(c) == Parsed(Err(ExpectedPunctuator(Tk.Semicolon)), F.Skip(c, 1))
  {
    hide Statement, TryForms, Guard, ExpressionThen, CompoundItems, E.Expression;
    FormOfLeaders(c.Current());
    if c.Current() == Tk.Keyword(Tk.Break) {
      Dispatch(c, BreakForm);
      assert ConsumeKeyword(c, Tk.Break).next == F.Skip(c, 1);
    } else {
      Dispatch(c, ContinueForm);
      assert ConsumeKeyword(c, Tk.Continue).next == F.Skip(c, 1);
    }
  }

  /** `return` takes the expression after it and stops there: whatever
      follows, a `;` included, is left for the caller. */
  lemma ReturnLeavesRest(c: ParseContext, x: E.ExpressionNode, d: ParseContext)
    requires c.Valid() && c.Current() == Tk.Keyword(Tk.Return)
    requires F.Skip(c, 1).Valid() && E.Expression(F.Skip(c, 1)) == Parsed(Ok(x), d)
    ensures Statement(c) == Parsed(Ok(Return(x)), d)
  {
    hide Statement, TryForms, Guard, ExpressionThen, CompoundItems, E.Expression;
    FormOfLeaders(c.Current());
    Dispatch(c, ReturnForm);
    assert ConsumeKeyword(c, Tk.Return).next == F.Skip(c, 1);
  }

  /** Any token that leads no other form starts an expression statement:
      an expression and then a required `;`. */
  lemma ExpressionStatementShape(c: ParseContext)
    requires c.Valid() && FormOf(c.Current()) == ExpressionForm
    ensures Statement(c).next == ExpressionThen(c, Tk.Semicolon).next
    ensures Statement(c).result.Ok? <==> ExpressionThen(c, Tk.Semicolon).result.Ok?
    ensures Statement(c).result.Ok? ==>
      Statement(c).result.value == Expression(ExpressionThen(c, Tk.Semicolon).result.value)
    ensures Statement(c).result.Err? ==>
      Statement(c).result.error == ExpressionThen(c, Tk.Semicolon).result.error
  {
    hide Statement, TryForms, Guard, CompoundItems, E.Expression;
    Dispatch(c, ExpressionForm);
  }

  // ---------------------------------------------------------------------
  // `if`, `switch`, `while` and `do`

  /** At `c` stand the expression `x` and the punctuator `close`. */
  predicate ClosedAt(c: ParseContext, close: Tk.PunctuatorKind, x: E.ExpressionNode, d: ParseContext) {
    c.Valid() && E.Expression(c) == Parsed(Ok(x), d) && d.Valid() && d.Current() == Tk.Punctuator(close)
  }
  lemma ClosedParses(c: ParseContext, close: Tk.PunctuatorKind, x: E.ExpressionNode, d: ParseContext)
    requires ClosedAt(c, close, x, d)
    ensures ExpressionThen(c, close) == Parsed(Ok(x), F.Skip(d, 1))
  {
    assert ConsumePunctuator(d, close).next == F.Skip(d, 1);
  }

  /** At `c` stand `( x )` and then the statement `s`, ending at `end`. */
  predicate GuardAt(c: ParseContext, x: E.ExpressionNode, d: ParseContext, s: StatementNode, end: ParseContext) {
    c.Valid() && c.Current() == Tk.Punctuator(Tk.LeftRoundBracket) &&
    ClosedAt(F.Skip(c, 1), Tk.RightRoundBracket, x, d) &&
    F.Skip(d, 1).Valid() && Statement(F.Skip(d, 1)) == Parsed(Ok(s), end)
  }

  lemma GuardParses(c: ParseContext, x: E.ExpressionNode, d: ParseContext, s: StatementNode, end: ParseContext)
    requires GuardAt(c, x, d, s, end)
    ensures Guard(c) == Parsed(Ok((x, s)), end)
  {
    hide Statement, E.Expression, ExpressionThen;
    ClosedParses(F.Skip(c, 1), Tk.RightRoundBracket, x, d);
    assert ConsumePunctuator(c, Tk.LeftRoundBracket).next == F.Skip(c, 1);
  }

  lemma GuardMissingOpen(c: ParseContext)
    requires c.Valid() && c.Current() != Tk.Punctuator(Tk.LeftRoundBracket)
    ensures Guard(c) == Parsed(Err(ExpectedPunctuator(Tk.LeftRoundBracket)), c)
  {
  }

  lemma GuardMissingClose(c: ParseContext, x: E.ExpressionNode, d: ParseContext)
    requires c.Valid() && c.Current() == Tk.Punctuator(Tk.LeftRoundBracket)
    requires F.Skip(c, 1).Valid() && E.Expression(F.Skip(c, 1)) == Parsed(Ok(x), d)
    requires d.Valid() && d.Current() != Tk.Punctuator(Tk.RightRoundBracket)
    ensures Guard(c) == Parsed(Err(ExpectedPunctuator(Tk.RightRoundBracket)), d)
  {
  }

  /** The keywords that are followed by `( condition ) statement`. */
  predicate GuardKeyword(t: Tk.Token) {
    t == Tk.Keyword(Tk.If) || t == Tk.Keyword(Tk.Switch) || t == Tk.Keyword(Tk.While) || t == Tk.Keyword(Tk.Do)
  }

  /** After `if`, `switch`, `while` or `do`, a failure to read
      `( condition ) statement` is the failure of the whole statement. */
  lemma GuardFailureRises(c: ParseContext)
    requires c.Valid() && GuardKeyword(c.Current())
    ensures F.Skip(c, 1).Valid()
    ensures Guard(F.Skip(c, 1)).result.Err? ==>
      Statement(c) == Parsed(Err(Guard(F.Skip(c, 1)).result.error), Guard(F.Skip(c, 1)).next)
  {
    hide Statement, Guard;
    if c.Current() == Tk.Keyword(Tk.If) { IfFailureRises(c); }
    else if c.Current() == Tk.Keyword(Tk.Switch) { SwitchFailureRises(c); }
    else if c.Current() == Tk.Keyword(Tk.While) { WhileFailureRises(c); }
    else { DoWhileFailureRises(c); }
  }

  /** `GuardFailureRises` after `if`. */
  lemma IfFailureRises(c: ParseContext)
    requires c.Valid() && c.Current() == Tk.Keyword(Tk.If)
    ensures F.Skip(c, 1).Valid()
    ensures Guard(F.Skip(c, 1)).result.Err? ==>
      Statement(c) == Parsed(Err(Guard(F.Skip(c, 1)).result.error), Guard(F.Skip(c, 1)).next)
  {
    hide Statement, TryForms, Guard, ExpressionThen, CompoundItems, E.Expression;
    FormOfLeaders(c.Current());
    Dispatch(c, IfForm);
    assert ConsumeKeyword(c, Tk.If).next == F.Skip(c, 1);
  }

  /** `GuardFailureRises` after `switch`. */
  lemma SwitchFailureRises(c: ParseContext)
    requires c.Valid() && c.Current() == Tk.Keyword(Tk.Switch)
    ensures F.Skip(c, 1).Valid()
    ensures Guard(F.Skip(c, 1)).result.Err? ==>
      Statement(c) == Parsed(Err(Guard(F.Skip(c, 1)).result.error), Guard(F.Skip(c, 1)).next)
  {
    hide Statement, TryForms, Guard, ExpressionThen, CompoundItems, E.Expression;
    FormOfLeaders(c.Current());
    Dispatch(c, SwitchForm);
    assert ConsumeKeyword(c, Tk.Switch).next == F.Skip(c, 1);
  }

  /** `GuardFailureRises` after `while`. */
  lemma WhileFailureRises(c: ParseContext)
    requires c.Valid() && c.Current() == Tk.Keyword(Tk.While)
    ensures F.Skip(c, 1).Valid()
    ensures Guard(F.Skip(c, 1)).result.Err? ==>
      Statement(c) == Parsed(Err(Guard(F.Skip(c, 1)).result.error), Guard(F.Skip(c, 1)).next)
  {
    hide Statement, TryForms, Guard, ExpressionThen, CompoundItems, E.Expression;
    FormOfLeaders(c.Current());
    Dispatch(c, WhileForm);
    assert ConsumeKeyword(c, Tk.While).next == F.Skip(c, 1);
  }

  /** `GuardFailureRises` after `do`. */
  lemma DoWhileFailureRises(c: ParseContext)
    requires c.Valid() && c.Current() == Tk.Keyword(Tk.Do)
    ensures F.Skip(c, 1).Valid()
    ensures Guard(F.Skip(c, 1)).result.Err? ==>
      Statement(c) == Parsed(Err(Guard(F.Skip(c, 1)).result.error), Guard(F.Skip(c, 1)).next)
  {
    hide Statement, TryForms, Guard, ExpressionThen, CompoundItems, E.Expression;
    FormOfLeaders(c.Current());
    Dispatch(c, DoWhileForm);
    assert ConsumeKeyword(c, Tk.Do).next == F.Skip(c, 1);
  }

  /** `if`, `switch` and `while` read `( x )` and exactly one statement; in
      particular an `else` after that statement is not read. */
  lemma GuardedStatements(c: ParseContext, x: E.ExpressionNode, d: ParseContext, s: StatementNode, end: ParseContext)
    requires c.Valid() && GuardAt(F.Skip(c, 1), x, d, s, end)
    ensures c.Current() == Tk.Keyword(Tk.If) ==> Statement(c) == Parsed(Ok(If(x, s)), end)
    ensures c.Current() == Tk.Keyword(Tk.Switch) ==> Statement(c) == Parsed(Ok(Switch(x, s)), end)
    ensures c.Current() == Tk.Keyword(Tk.While) ==> Statement(c) == Parsed(Ok(While(x, s)), end)
  {
    hide Statement, TryForms, Guard, ExpressionThen, CompoundItems, E.Expression, GuardAt;
    GuardParses(F.Skip(c, 1), x, d, s, end);
    FormOfLeaders(c.Current());
    if c.Current() == Tk.Keyword(Tk.If) {
      Dispatch(c, IfForm);
      assert ConsumeKeyword(c, Tk.If).next == F.Skip(c, 1);
    } else if c.Current() == Tk.Keyword(Tk.Switch) {
      Dispatch(c, SwitchForm);
      assert ConsumeKeyword(c, Tk.Switch).next == F.Skip(c, 1);
    } else if c.Current() == Tk.Keyword(Tk.While) {
      Dispatch(c, WhileForm);
      assert ConsumeKeyword(c, Tk.While).next == F.Skip(c, 1);
    }
  }

  /** `do ( x ) s while`: the keyword `while` is required after the body and
      is the last token read. */
  lemma DoWhileShape(c: ParseContext, x: E.ExpressionNode, d: ParseContext, s: StatementNode, end: ParseContext)
    requires c.Valid() && c.Current() == Tk.Keyword(Tk.Do) && GuardAt(F.Skip(c, 1), x, d, s, end)
    ensures end.Current() == Tk.Keyword(Tk.While) ==> Statement(c) == Parsed(Ok(DoWhile(x, s)), F.Skip(end, 1))
    ensures end.Current() != Tk.Keyword(Tk.While) ==> Statement(c) == Parsed(Err(ExpectedKeyword(Tk.While)), end)
  {
    hide Statement, TryForms, DoWhileStatement, GuardAt;
    DoWhileStatementParses(c, x, d, s, end);
    FormOfLeaders(c.Current());
    Dispatch(c, DoWhileForm);
  }

  /** `DoWhileShape` for the recogniser itself. */
  lemma DoWhileStatementParses(c: ParseContext, x: E.ExpressionNode, d: ParseContext, s: StatementNode, end: ParseContext)
    requires c.Valid() && c.Current() == Tk.Keyword(Tk.Do) && GuardAt(F.Skip(c, 1), x, d, s, end)
    ensures end.Valid()
    ensures DoWhileStatement(c) ==
      if end.Current() == Tk.Keyword(Tk.While) then Parsed(Ok(Some(DoWhile(x, s))), F.Skip(end, 1))
      else Parsed(Err(ExpectedKeyword(Tk.While)), end)
  {
    hide Statement, Guard, ExpressionThen, E.Expression, GuardAt;
    GuardParses(F.Skip(c, 1), x, d, s, end);
    assert ConsumeKeyword(c, Tk.Do).next == F.Skip(c, 1);
  }

  /** A condition not closed by `)` makes `if`, `switch`, `while` and `do`
      fail with the expected-`)` error, where the condition stopped. */
  lemma GuardNeedsClose(c: ParseContext, x: E.ExpressionNode, d: ParseContext)
    requires c.Valid() && GuardKeyword(c.Current())
    requires F.Skip(c, 1).Valid() && F.Skip(c, 1).Current() == Tk.Punctuator(Tk.LeftRoundBracket)
    requires F.Skip(c, 2).Valid() && E.Expression(F.Skip(c, 2)) == Parsed(Ok(x), d)
    requires d.Current() != Tk.Punctuator(Tk.RightRoundBracket)
    ensures Statement(c) == Parsed(Err(ExpectedPunctuator(Tk.RightRoundBracket)), d)
  {
    GuardMissingClose(F.Skip(c, 1), x, d);
    GuardFailureRises(c);
  }

  /** ... and one without `(` fails right after the keyword. */
  lemma GuardNeedsOpen(c: ParseContext)
    requires c.Valid() && GuardKeyword(c.Current())
    requires F.Skip(c, 1).Valid() && F.Skip(c, 1).Current() != Tk.Punctuator(Tk.LeftRoundBracket)
    ensures Statement(c) == Parsed(Err(ExpectedPunctuator(Tk.LeftRoundBracket)), F.Skip(c, 1))
  {
    GuardMissingOpen(F.Skip(c, 1));
    GuardFailureRises(c);
  }

  // ---------------------------------------------------------------------
  // `for`

  /** At `c` stand `( x ; y ; z )` and then the statement `s`. */
  predicate ForHeadAt(c: ParseContext, x: E.ExpressionNode, d1: ParseContext, y: E.ExpressionNode, d2: ParseContext,
                      z: E.ExpressionNode, d3: ParseContext, s: StatementNode, end: ParseContext) {
    c.Valid() && c.Current() == Tk.Punctuator(Tk.LeftRoundBracket) &&
    ClosedAt(F.Skip(c, 1), Tk.Semicolon, x, d1) && ClosedAt(F.Skip(d1, 1), Tk.Semicolon, y, d2) &&
    ClosedAt(F.Skip(d2, 1), Tk.RightRoundBracket, z, d3) &&
    F.Skip(d3, 1).Valid() && Statement(F.Skip(d3, 1)) == Parsed(Ok(s), end)
  }

  lemma ForStatementParses(c: ParseContext, x: E.ExpressionNode, d1: ParseContext, y: E.ExpressionNode, d2: ParseContext,
                           z: E.ExpressionNode, d3: ParseContext, s: StatementNode, end: ParseContext)
    requires c.Valid() && c.Current() == Tk.Keyword(Tk.For) && ForHeadAt(F.Skip(c, 1), x, d1, y, d2, z, d3, s, end)
    ensures ForStatement(c) == Parsed(Ok(Some(For(x, y, z, s))), end)
  {
    hide Statement, ExpressionThen, E.Expression, ClosedAt, ForClauses;
    ForClausesParse(F.Skip(c, 2), x, d1, y, d2, z, d3, s, end);
    assert ConsumeKeyword(c, Tk.For).next == F.Skip(c, 1);
    assert ConsumePunctuator(F.Skip(c, 1), Tk.LeftRoundBracket).next == F.Skip(c, 2);
  }

  /** The three clauses and the body after `for (`. */
  lemma ForClausesParse(c: ParseContext, x: E.ExpressionNode, d1: ParseContext, y: E.ExpressionNode, d2: ParseContext,
                        z: E.ExpressionNode, d3: ParseContext, s: StatementNode, end: ParseContext)
    requires ClosedAt(c, Tk.Semicolon, x, d1) && ClosedAt(F.Skip(d1, 1), Tk.Semicolon, y, d2)
    requires ClosedAt(F.Skip(d2, 1), Tk.RightRoundBracket, z, d3)
    requires F.Skip(d3, 1).Valid() && Statement(F.Skip(d3, 1)) == Parsed(Ok(s), end)
    ensures ForClauses(c) == Parsed(Ok(Some(For(x, y, z, s))), end)
  {
    hide Statement, ExpressionThen, E.Expression, ClosedAt;
    ClosedParses(c, Tk.Semicolon, x, d1);
    ClosedParses(F.Skip(d1, 1), Tk.Semicolon, y, d2);
    ClosedParses(F.Skip(d2, 1), Tk.RightRoundBracket, z, d3);
  }

  /** `for ( x ; y ; z ) s`: three expressions, each required, then a body. */
  lemma ForShape(c: ParseContext, x: E.ExpressionNode, d1: ParseContext, y: E.ExpressionNode, d2: ParseContext,
                 z: E.ExpressionNode, d3: ParseContext, s: StatementNode, end: ParseContext)
    requires c.Valid() && c.Current() == Tk.Keyword(Tk.For) && ForHeadAt(F.Skip(c, 1), x, d1, y, d2, z, d3, s, end)
    ensures Statement(c) == Parsed(Ok(For(x, y, z, s)), end)
  {
    hide Statement, TryForms, ForStatement, ForHeadAt;
    ForStatementParses(c, x, d1, y, d2, z, d3, s, end);
    FormOfLeaders(c.Current());
    Dispatch(c, ForForm);
  }

  // ---------------------------------------------------------------------
  // Compound statements

  /** The statements `items` stand one after another from `c` to `end`,
      none of them starting with `}`. */
  ghost predicate StatementsFrom(c: ParseContext, items: seq<StatementNode>, end: ParseContext)
    decreases |items|
  {
    if items == [] then c == end
    else
      c.Valid() && c.Current() != Tk.Punctuator(Tk.RightCurlyBracket) &&
      Statement(c).result == Ok(items[0]) && StatementsFrom(Statement(c).next, items[1..], end)
  }

  /** The loop of `compound_statement` appends the statements it reads, in
      order, to those it already has. */
  lemma {:induction false} ItemsInOrder(c: ParseContext, done: seq<StatementNode>, items: seq<StatementNode>, end: ParseContext)
    requires c.Valid() && StatementsFrom(c, items, end)
    requires end.Valid() && end.Current() == Tk.Punctuator(Tk.RightCurlyBracket)
    ensures CompoundItems(c, done) == Parsed(Ok(done + items), F.Skip(end, 1))
    decreases |items|
  {
    if items == [] {
      assert done + items == done;
    } else {
      var d := Statement(c).next;
      assert d.Valid();
      ItemsInOrder(d, done + [items[0]], items[1..], end);
      assert done + [items[0]] + items[1..] == done + items;
    }
  }

  /** `{ s1 … sn }` is the compound statement of `s1 … sn`, in order. */
  lemma CompoundCollects(c: ParseContext, items: seq<StatementNode>, end: ParseContext)
    requires c.Valid() && c.Current() == Tk.Punctuator(Tk.LeftCurlyBracket)
    requires F.Skip(c, 1).Valid() && StatementsFrom(F.Skip(c, 1), items, end)
    requires end.Valid() && end.Current() == Tk.Punctuator(Tk.RightCurlyBracket)
    ensures Statement(c) == Parsed(Ok(Compound(items)), F.Skip(end, 1))
  {
    hide Statement, TryForms, CompoundStatement, StatementsFrom;
    CompoundStatementParses(c, items, end);
    FormOfLeaders(c.Current());
    Dispatch(c, CompoundForm);
  }

  /** `CompoundCollects` for the recogniser itself. */
  lemma CompoundStatementParses(c: ParseContext, items: seq<StatementNode>, end: ParseContext)
    requires c.Valid() && c.Current() == Tk.Punctuator(Tk.LeftCurlyBracket)
    requires F.Skip(c, 1).Valid() && StatementsFrom(F.Skip(c, 1), items, end)
    requires end.Valid() && end.Current() == Tk.Punctuator(Tk.RightCurlyBracket)
    ensures CompoundStatement(c) == Parsed(Ok(Some(Compound(items))), F.Skip(end, 1))
  {
    hide Statement, CompoundItems, StatementsFrom;
    ItemsInOrder(F.Skip(c, 1), [], items, end);
    assert [] + items == items;
    assert ConsumePunctuator(c, Tk.LeftCurlyBracket).next == F.Skip(c, 1);
  }

  /** `{}` is the empty compound statement. */
  lemma EmptyCompound(c: ParseContext)
    requires c.Valid() && c.Current() == Tk.Punctuator(Tk.LeftCurlyBracket)
    requires F.Skip(c, 1).Valid() && F.Skip(c, 1).Current() == Tk.Punctuator(Tk.RightCurlyBracket)
    ensures Statement(c) == Parsed(Ok(Compound([])), F.Skip(c, 2))
  {
    CompoundCollects(c, [], F.Skip(c, 1));
  }

  // ---------------------------------------------------------------------
  // Two complete statements

  /** A number literal before a token that ends expressions is the
      expression of that number. */
  lemma NumberExpression(c: ParseContext, n: Tk.Int32)
    requires c.Valid() && c.Current() == Tk.Literal(Tk.NumberLit(n))
    requires F.Skip(c, 1).Valid() && F.Ends(F.Skip(c, 1).Current())
    ensures E.Expression(c) == Parsed(Ok(E.Immediate(E.Number(n))), F.Skip(c, 1))
  {
    var e := E.Immediate(E.Number(n));
    assert F.Render(e) == [Tk.Literal(Tk.NumberLit(n))];
    assert c.tokens[c.pos..c.pos + 1] == [c.Current()];
    F.RenderParses(e, c);
  }

  /** `return n ;` reads as two statements: `return n` and a null
      statement for the `;` that `return` leaves behind. */
  lemma ReturnThenNull(c: ParseContext, n: Tk.Int32)
    requires c.Valid() && F.At(c, [Tk.Keyword(Tk.Return), Tk.Literal(Tk.NumberLit(n)), Tk.Punctuator(Tk.Semicolon)])
    requires F.Skip(c, 3).Valid()
    ensures StatementsFrom(c, [Return(E.Immediate(E.Number(n))), Null], F.Skip(c, 3))
  {
    hide Statement, E.Expression, StatementsFrom, F.At, F.Ends;
    AtThree(c, Tk.Keyword(Tk.Return), Tk.Literal(Tk.NumberLit(n)), Tk.Punctuator(Tk.Semicolon));
    var x := E.Immediate(E.Number(n));
    ReturnNumberParses(c, n);
    NullStatementShape(F.Skip(c, 2));
    StatementsNil(F.Skip(c, 3));
    StatementsCons(F.Skip(c, 2), Null, F.Skip(c, 3), [], F.Skip(c, 3));
    assert [Null] + [] == [Null];
    StatementsCons(c, Return(x), F.Skip(c, 2), [Null], F.Skip(c, 3));
    assert [Return(x)] + [Null] == [Return(x), Null];
  }

  /** Helper: `return n` followed by `;` reads two tokens. */
  lemma ReturnNumberParses(c: ParseContext, n: Tk.Int32)
    requires c.Valid() && c.Current() == Tk.Keyword(Tk.Return)
    requires c.pos + 2 < |c.tokens| && c.tokens[c.pos + 1] == Tk.Literal(Tk.NumberLit(n))
    requires c.tokens[c.pos + 2] == Tk.Punctuator(Tk.Semicolon)
    ensures Statement(c) == Parsed(Ok(Return(E.Immediate(E.Number(n)))), F.Skip(c, 2))
  {
    hide Statement, E.Expression, F.Ends;
    F.Separators(c.Current());
    NumberExpression(F.Skip(c, 1), n);
    ReturnLeavesRest(c, E.Immediate(E.Number(n)), F.Skip(c, 2));
  }

  /** Helper: the three tokens a cursor stands on. */
  lemma AtThree(c: ParseContext, t0: Tk.Token, t1: Tk.Token, t2: Tk.Token)
    requires F.At(c, [t0, t1, t2])
    ensures c.pos + 3 <= |c.tokens|
    ensures c.tokens[c.pos] == t0 && c.tokens[c.pos + 1] == t1 && c.tokens[c.pos + 2] == t2
  {
    var w := c.tokens[c.pos..c.pos + 3];
    assert w == [t0, t1, t2];
    assert w[0] == t0 && w[1] == t1 && w[2] == t2;
  }

  /** Helper: no statements stand between a cursor and itself. */
  lemma StatementsNil(c: ParseContext)
    ensures StatementsFrom(c, [], c)
  {
  }

  /** Helper: one statement in front of a run of statements. */
  lemma StatementsCons(c: ParseContext, item: StatementNode, d: ParseContext, rest: seq<StatementNode>, end: ParseContext)
    requires c.Valid() && c.Current() != Tk.Punctuator(Tk.RightCurlyBracket)
    requires Statement(c) == Parsed(Ok(item), d) && StatementsFrom(d, rest, end)
    ensures StatementsFrom(c, [item] + rest, end)
  {
    assert ([item] + rest)[1..] == rest;
  }

  /** `{ return n; }` is the compound statement of `return n` and a null
      statement. */
  lemma ReturnInBlock(c: ParseContext, n: Tk.Int32)
    requires c.Valid()
    requires F.At(c, [Tk.Punctuator(Tk.LeftCurlyBracket), Tk.Keyword(Tk.Return), Tk.Literal(Tk.NumberLit(n)),
                      Tk.Punctuator(Tk.Semicolon), Tk.Punctuator(Tk.RightCurlyBracket)])
    requires F.Skip(c, 5).Valid()
    ensures Statement(c) == Parsed(Ok(Compound([Return(E.Immediate(E.Number(n))), Null])), F.Skip(c, 5))
  {
    var w := [Tk.Punctuator(Tk.LeftCurlyBracket), Tk.Keyword(Tk.Return), Tk.Literal(Tk.NumberLit(n)),
              Tk.Punctuator(Tk.Semicolon), Tk.Punctuator(Tk.RightCurlyBracket)];
    F.AtConcat(c, [w[0]], w[1..4] + [w[4]]);
    F.AtConcat(F.Skip(c, 1), w[1..4], [w[4]]);
    F.AtToken(c, w[0]);
    F.AtToken(F.Skip(c, 4), w[4]);
    hide Statement, StatementsFrom;
    ReturnThenNull(F.Skip(c, 1), n);
    CompoundCollects(c, [Return(E.Immediate(E.Number(n))), Null], F.Skip(c, 4));
  }

  /** `( n ) ;` is a condition and the null statement. */
  lemma NumberGuard(c: ParseContext, n: Tk.Int32)
    requires c.Valid() && c.Current() == Tk.Punctuator(Tk.LeftRoundBracket)
    requires F.Skip(c, 1).Valid() && F.Skip(c, 1).Current() == Tk.Literal(Tk.NumberLit(n))
    requires F.Skip(c, 2).Valid() && F.Skip(c, 2).Current() == Tk.Punctuator(Tk.RightRoundBracket)
    requires F.Skip(c, 3).Valid() && F.Skip(c, 3).Current() == Tk.Punctuator(Tk.Semicolon)
    requires F.Skip(c, 4).Valid()
    ensures GuardAt(c, E.Immediate(E.Number(n)), F.Skip(c, 2), Null, F.Skip(c, 4))
  {
    hide Statement, E.Expression;
    F.Separators(Tk.End);
    NumberExpression(F.Skip(c, 1), n);
    NullStatementShape(F.Skip(c, 3));
  }

  /** `if ( n ) ;` is an `if` statement with the null statement as body,
      and it ends there: an `else` after it is not read. */
  lemma IfWithoutElse(c: ParseContext, n: Tk.Int32)
    requires c.Valid()
    requires F.At(c, [Tk.Keyword(Tk.If), Tk.Punctuator(Tk.LeftRoundBracket), Tk.Literal(Tk.NumberLit(n)),
                      Tk.Punctuator(Tk.RightRoundBracket), Tk.Punctuator(Tk.Semicolon)])
    requires F.Skip(c, 5).Valid()
    ensures Statement(c) == Parsed(Ok(If(E.Immediate(E.Number(n)), Null)), F.Skip(c, 5))
  {
    var w := [Tk.Keyword(Tk.If), Tk.Punctuator(Tk.LeftRoundBracket), Tk.Literal(Tk.NumberLit(n)),
              Tk.Punctuator(Tk.RightRoundBracket), Tk.Punctuator(Tk.Semicolon)];
    assert c.tokens[c.pos] == w[0] && c.tokens[c.pos + 1] == w[1] && c.tokens[c.pos + 2] == w[2] &&
           c.tokens[c.pos + 3] == w[3] && c.tokens[c.pos + 4] == w[4] by {
      assert c.tokens[c.pos..c.pos + 5] == w;
    }
    hide Statement, E.Expression, GuardAt;
    var x := E.Immediate(E.Number(n));
    NumberGuard(F.Skip(c, 1), n);
    GuardedStatements(c, x, F.Skip(c, 3), Null, F.Skip(c, 5));
  }
}

=== FILE: tokenizer.dfy ===
/** The tokenizer: turns C source text into a token sequence that ends in
    `End`.

    The Rust code keeps the unread input as a string slice `head` that only
    ever shrinks from the front; every scanner here takes that remaining
    input and returns what it recognised together with the new remaining
    input.  Characters are classified as ASCII. */
module Tokenizer {
  import opened Prelude

  datatype PunctuatorKind =
    | LeftSquareBracket | RightSquareBracket | LeftRoundBracket | RightRoundBracket
    | LeftCurlyBracket | RightCurlyBracket | Dot | Arrow | DoublePluses | DoubleMinuses
    | Ampersand | Star | Plus | Minus | Tilde | Exclamation | Slash | Percent
    | DoubleGreaterThans | DoubleLessThans | GreaterThan | LessThan
    | GreaterThanEqual | LessThanEqual | DoubleEquals | ExclamationEqual | Hat
    | Pipeline | DoubleAmpersands | DoublePipelines | Question | Colon | Semicolon
    | TripleDots | Equal | StarEqual | SlashEqual | PercentEqual | PlusEqual
    | MinusEqual | DoubleGreaterThansEqual | DoubleLessThansEqual | AmpersandEqual
    | HatEqual | PipelineEqual | Comma | Sharp | DoubleSharps | LessThanColon
    | ColonGreaterThan | LessThanPercent | PercentGreaterThan | PercentColon
    | DoublePercentColons

  datatype KeywordKind =
    | Auto | Break | Case | Char | Const | Continue | Default | Do | Double | Else
    | Enum | Extern | Float | For | Goto | If | Inline | Int | Long | Register
    | Restrict | Return | Short | Signed | Sizeof | Static | Struct | Switch
    | Typedef | Union | Unsigned | Void | Volatile | While | Alignas | Alignof
    | Atomic | Bool | Complex | Generic | Imaginary | Noreturn | StaticAssert
    | ThreadLocal

  const I32Max: int := 0x7FFF_FFFF

  /** Rust's `i32`. */
  type Int32 = n: int | -0x8000_0000 <= n <= I32Max

  datatype Literal = StringLit(text: string) | CharLit(value: char) | NumberLit(number: Int32)

  datatype Token =
    | Punctuator(punctuator: PunctuatorKind)
    | Keyword(keyword: KeywordKind)
    | Identifier(name: string)
    | Literal(literal: Literal)
    | End

  /** `InvalidToken` is the `Err("invalid token")` return, carrying the
      remaining input that the code prints just before returning it.
      `Panic` stands for an `assert!`, an `unwrap` of `None`, an out-of-range
      slice or an unsigned underflow: the Rust program aborts there. */
  datatype TokenizeError = InvalidToken(head: string) | Panic(reason: string)

  // ---------------------------------------------------------------------
  // Character classes (ASCII)

  predicate IsWhitespace(c: char) {
    c == ' ' || '\t' <= c <= '\r'
  }

  predicate IsDigit(c: char) {
    '0' <= c <= '9'
  }

  predicate IsIdentifierHead(c: char) {
    c == '_' || 'a' <= c <= 'z' || 'A' <= c <= 'Z'
  }

  predicate IsIdentifierBody(c: char) {
    IsIdentifierHead(c) || IsDigit(c)
  }

  predicate NotDoubleQuote(c: char) {
    c != '"'
  }

  /** Length of the longest prefix of `s` whose characters all satisfy `p`. */
  function LeadingRun(s: string, p: char -> bool): (n: nat)
    ensures n <= |s|
    ensures forall k :: 0 <= k < n ==> p(s[k])
    ensures n == |s| || !p(s[n])
  {
    if |s| > 0 && p(s[0]) then 1 + LeadingRun(s[1..], p) else 0
  }

  // ---------------------------------------------------------------------
  // Moving the head

  /** `str::starts_with`. */
  predicate StartsWith(head: string, q: string) {
    q <= head
  }

  function ConsumeStr(head: string, count: nat): (rest: string)
    requires count <= |head|
    ensures |rest| == |head| - count
    ensures head == head[..count] + rest
  {
    head[count..]
  }

  function SkipWhitespace(head: string): (rest: string)
    ensures |rest| <= |head| && rest == head[|head| - |rest|..]
    ensures forall k :: 0 <= k < |head| - |rest| ==> IsWhitespace(head[k])
    ensures |rest| == 0 || !IsWhitespace(rest[0])
  {
    ConsumeStr(head, LeadingRun(head, IsWhitespace))
  }

  /** Consumes `q` when the head starts with it; otherwise nothing changes. */
  function ConsumeReserved(head: string, q: string): (r: (bool, string))
    ensures r.0 <==> StartsWith(head, q)
    ensures r.0 ==> head == q + r.1
    ensures !r.0 ==> r.1 == head
  {
    if StartsWith(head, q) then (true, ConsumeStr(head, |q|)) else (false, head)
  }

  // ---------------------------------------------------------------------
  // Reserved spellings, in the order of the `else if consume_reserved(..)`
  // chain in `tokenize`

  /** A spelling and the token it stands for. */
  type ReservedEntry = (string, Token)

  /* The punctuator part of the chain.  The code lists the spellings from
     longest to shortest; the four blocks below keep its order exactly
     (including the second, unreachable, test for "%:"). */
  const FourCharPunctuators: seq<ReservedEntry> :=
    [("%:%:", Punctuator(DoublePercentColons))]
  const ThreeCharPunctuators: seq<ReservedEntry> :=
    [("...", Punctuator(TripleDots)), ("<<=", Punctuator(DoubleLessThansEqual)),
     (">>=", Punctuator(DoubleGreaterThansEqual))]
  const TwoCharPunctuators: seq<ReservedEntry> :=
    [("->", Punctuator(Arrow)), ("++", Punctuator(DoublePluses)),
     ("--", Punctuator(DoubleMinuses)), ("<<", Punctuator(DoubleLessThans)),
     (">>", Punctuator(DoubleGreaterThans)), ("<=", Punctuator(LessThanEqual)),
     (">=", Punctuator(GreaterThanEqual)), ("==", Punctuator(DoubleEquals)),
     ("!=", Punctuator(ExclamationEqual)), ("&&", Punctuator(DoubleAmpersands)),
     ("||", Punctuator(DoublePipelines)), ("*=", Punctuator(StarEqual)),
     ("/=", Punctuator(SlashEqual)), ("%=", Punctuator(PercentEqual)),
     ("+=", Punctuator(PlusEqual)), ("-=", Punctuator(MinusEqual)),
     ("&=", Punctuator(AmpersandEqual)), ("^=", Punctuator(HatEqual)),
     ("|=", Punctuator(PipelineEqual)), ("##", Punctuator(DoubleSharps)),
     ("<:", Punctuator(LessThanColon)), (":>", Punctuator(ColonGreaterThan)),
     ("<%", Punctuator(LessThanPercent)), ("%>", Punctuator(PercentGreaterThan)),
     ("%:", Punctuator(PercentColon)), ("%:", Punctuator(PercentColon))]
  const OneCharPunctuators: seq<ReservedEntry> :=
    [("[", Punctuator(LeftSquareBracket)), ("]", Punctuator(RightSquareBracket)),
     ("(", Punctuator(LeftRoundBracket)), (")", Punctuator(RightRoundBracket)),
     ("{", Punctuator(LeftCurlyBracket)), ("}", Punctuator(RightCurlyBracket)),
     (".", Punctuator(Dot)), ("&", Punctuator(Ampersand)), ("*", Punctuator(Star)),
     ("+", Punctuator(Plus)), ("-", Punctuator(Minus)), ("~", Punctuator(Tilde)),
     ("!", Punctuator(Exclamation)), ("/", Punctuator(Slash)), ("%", Punctuator(Percent)),
     ("<", Punctuator(LessThan)), (">", Punctuator(GreaterThan)), ("^", Punctuator(Hat)),
     ("|", Punctuator(Pipeline)), ("?", Punctuator(Question)), (":", Punctuator(Colon)),
     (";", Punctuator(Semicolon)), ("=", Punctuator(Equal)), (",", Punctuator(Comma)),
     ("#", Punctuator(Sharp))]

  const Punctuators: seq<ReservedEntry> :=
    FourCharPunctuators + ThreeCharPunctuators + TwoCharPunctuators + OneCharPunctuators

  /* The keyword part of the chain, tried after every punctuator, again in
     the order of the code: the plain C keywords, then those that start with
     an underscore. */
  const KeywordsAutoToLong: seq<ReservedEntry> :=
    [("auto", Keyword(Auto)), ("break", Keyword(Break)), ("case", Keyword(Case)),
     ("char", Keyword(Char)), ("const", Keyword(Const)), ("continue", Keyword(Continue)),
     ("default", Keyword(Default)), ("do", Keyword(Do)), ("double", Keyword(Double)),
     ("else", Keyword(Else)), ("enum", Keyword(Enum)), ("extern", Keyword(Extern)),
     ("float", Keyword(Float)), ("for", Keyword(For)), ("goto", Keyword(Goto)),
     ("if", Keyword(If)), ("inline", Keyword(Inline)), ("int", Keyword(Int)),
     ("long", Keyword(Long))]
  const KeywordsRegisterToWhile: seq<ReservedEntry> :=
    [("register", Keyword(Register)), ("restrict", Keyword(Restrict)),
     ("return", Keyword(Return)), ("short", Keyword(Short)), ("signed", Keyword(Signed)),
     ("sizeof", Keyword(Sizeof)), ("static", Keyword(Static)), ("struct", Keyword(Struct)),
     ("switch", Keyword(Switch)), ("typedef", Keyword(Typedef)), ("union", Keyword(Union)),
     ("unsigned", Keyword(Unsigned)), ("void", Keyword(Void)),
     ("volatile", Keyword(Volatile)), ("while", Keyword(While))]
  const UnderscoreKeywords: seq<ReservedEntry> :=
    [("_Alignas", Keyword(Alignas)), ("_Alignof", Keyword(Alignof)),
     ("_Atomic", Keyword(Atomic)), ("_Bool", Keyword(Bool)), ("_Complex", Keyword(Complex)),
     ("_Generic", Keyword(Generic)), ("_Imaginary", Keyword(Imaginary)),
     ("_Noreturn", Keyword(Noreturn)), ("_Static_assert", Keyword(StaticAssert)),
     ("_Thread_local", Keyword(ThreadLocal))]

  const Keywords: seq<ReservedEntry> :=
    KeywordsAutoToLong + KeywordsRegisterToWhile + UnderscoreKeywords

  /** The whole chain of `consume_reserved` tests, in order. */
  const ReservedWords: seq<ReservedEntry> := Punctuators + Keywords

  /** The length of the punctuator spelling at position `i` of the chain:
      one four-character spelling, three of three, twenty-six of two, the
      rest of one. */
  function PunctuatorLengthAt(i: nat): nat {
    if i < 1 then 4 else if i < 4 then 3 else if i < 30 then 2 else 1
  }

  /** A punctuator starts with a character that cannot start a word, a
      number, a character literal or a string literal. */
  predicate IsSymbolStart(c: char) {
    !IsIdentifierBody(c) && c != '"' && c != '\''
  }

  lemma FourCharBlock()
    ensures forall i :: 0 <= i < |FourCharPunctuators| ==>
      |FourCharPunctuators[i].0| == 4 && IsSymbolStart(FourCharPunctuators[i].0[0])
      && FourCharPunctuators[i].1.Punctuator?
  {
  }

  lemma ThreeCharBlock()
    ensures forall i :: 0 <= i < |ThreeCharPunctuators| ==>
      |ThreeCharPunctuators[i].0| == 3 && IsSymbolStart(ThreeCharPunctuators[i].0[0])
      && ThreeCharPunctuators[i].1.Punctuator?
  {
  }

  lemma TwoCharBlock()
    ensures forall i :: 0 <= i < |TwoCharPunctuators| ==>
      |TwoCharPunctuators[i].0| == 2 && IsSymbolStart(TwoCharPunctuators[i].0[0])
      && TwoCharPunctuators[i].1.Punctuator?
  {
  }

  lemma OneCharBlock()
    ensures forall i :: 0 <= i < |OneCharPunctuators| ==>
      |OneCharPunctuators[i].0| == 1 && IsSymbolStart(OneCharPunctuators[i].0[0])
      && OneCharPunctuators[i].1.Punctuator?
  {
  }

  lemma PunctuatorShape(i: nat)
    requires i < |Punctuators|
    ensures |Punctuators[i].0| == PunctuatorLengthAt(i)
    ensures IsSymbolStart(Punctuators[i].0[0])
    ensures Punctuators[i].1.Punctuator?
  {
    if i < 1 {
      FourCharBlock();
      assert Punctuators[i] == FourCharPunctuators[i];
    } else if i < 4 {
      ThreeCharBlock();
      assert Punctuators[i] == ThreeCharPunctuators[i - 1];
    } else if i < 30 {
      TwoCharBlock();
      assert Punctuators[i] == TwoCharPunctuators[i - 4];
    } else {
      OneCharBlock();
      assert Punctuators[i] == OneCharPunctuators[i - 30];
    }
  }

  lemma KeywordsAutoToLongBlock()
    ensures forall i :: 0 <= i < |KeywordsAutoToLong| ==>
      IsIdentifierHead(KeywordsAutoToLong[i].0[0]) && KeywordsAutoToLong[i].1.Keyword?
      && (KeywordsAutoToLong[i].1 == Keyword(Double) ==> i == 8)
  {
  }

  lemma KeywordsRegisterToWhileBlock()
    ensures forall i :: 0 <= i < |KeywordsRegisterToWhile| ==>
      IsIdentifierHead(KeywordsRegisterToWhile[i].0[0]) && KeywordsRegisterToWhile[i].1.Keyword?
      && KeywordsRegisterToWhile[i].1 != Keyword(Double)
  {
  }

  lemma UnderscoreKeywordsBlock()
    ensures forall i :: 0 <= i < |UnderscoreKeywords| ==>
      IsIdentifierHead(UnderscoreKeywords[i].0[0]) && UnderscoreKeywords[i].1.Keyword?
      && UnderscoreKeywords[i].1 != Keyword(Double)
  {
  }

  lemma KeywordShape(j: nat)
    requires j < |Keywords|
    ensures IsIdentifierHead(Keywords[j].0[0])
    ensures Keywords[j].1.Keyword?
    ensures Keywords[j].1 == Keyword(Double) ==> j == 8
  {
    if j < 19 {
      KeywordsAutoToLongBlock();
      assert Keywords[j] == KeywordsAutoToLong[j];
    } else if j < 34 {
      KeywordsRegisterToWhileBlock();
      assert Keywords[j] == KeywordsRegisterToWhile[j - 19];
    } else {
      UnderscoreKeywordsBlock();
      assert Keywords[j] == UnderscoreKeywords[j - 34];
    }
  }

  /** Every entry of the chain has a non-empty spelling and a punctuator or
      keyword token. */
  lemma ReservedEntryShape(k: nat)
    requires k < |ReservedWords|
    ensures |ReservedWords[k].0| > 0 && !ReservedWords[k].1.End?
  {
    if k < |Punctuators| {
      PunctuatorShape(k);
      assert ReservedWords[k] == Punctuators[k];
    } else {
      KeywordShape(k - |Punctuators|);
      assert ReservedWords[k] == Keywords[k - |Punctuators|];
    }
  }

  /** Position of the first entry of `table`, from `from` on, whose spelling
      the head starts with. */
  function FirstReserved(head: string, table: seq<ReservedEntry>, from: nat): (r: Option<nat>)
    decreases |table| - from
    ensures r.Some? ==> from <= r.value < |table| && StartsWith(head, table[r.value].0)
    ensures r.Some? ==> forall j :: from <= j < r.value ==> !StartsWith(head, table[j].0)
    ensures r.None? ==> forall j :: from <= j < |table| ==> !StartsWith(head, table[j].0)
  {
    if from >= |table| then None
    else if ConsumeReserved(head, table[from].0).0 then Some(from)
    else FirstReserved(head, table, from + 1)
  }

  /** The reserved-word chain: punctuators first, then keywords. */
  function ConsumeAnyReserved(head: string): (r: Option<(Token, string)>)
    ensures r.Some? ==> r.value.0 != End
    ensures r.Some? ==> |r.value.1| < |head|
  {
    match FirstReserved(head, ReservedWords, 0)
    case Some(k) =>
      ReservedEntryShape(k);
      Some((ReservedWords[k].1, ConsumeReserved(head, ReservedWords[k].0).1))
    case None => None
  }

  // ---------------------------------------------------------------------
  // Identifiers and literals

  function CountIdentifierLength(head: string): (n: nat)
    ensures n <= |head|
    ensures n == 0 <==> |head| == 0 || !IsIdentifierHead(head[0])
    ensures n > 0 ==> forall k :: 1 <= k < n ==> IsIdentifierBody(head[k])
    ensures n > 0 ==> n == |head| || !IsIdentifierBody(head[n])
  {
    if |head| == 0 || !IsIdentifierHead(head[0]) then 0
    else 1 + LeadingRun(head[1..], IsIdentifierBody)
  }

  function ConsumeIdentifier(head: string): (r: (Option<string>, string))
    ensures r.0.Some? <==> CountIdentifierLength(head) > 0
    ensures r.0.Some? ==> head == r.0.value + r.1 && r.0.value == head[..CountIdentifierLength(head)]
    ensures r.0.None? ==> r.1 == head
  {
    var n := CountIdentifierLength(head);
    if n > 0 then (Some(head[..n]), ConsumeStr(head, n)) else (None, head)
  }

  function DigitValue(c: char): nat
    requires IsDigit(c)
  {
    (c as int) - ('0' as int)
  }

  /** The value `str::parse` gives a non-empty run of decimal digits, before
      any range check. */
  function DecimalValue(digits: string): nat
    requires forall k :: 0 <= k < |digits| ==> IsDigit(digits[k])
  {
    if |digits| == 0 then 0
    else 10 * DecimalValue(digits[..|digits| - 1]) + DigitValue(digits[|digits| - 1])
  }

  /** The literal scanner.  `Ok((None, rest))` means "no literal": `rest` is
      the head unchanged, or past the digits of a number that does not fit
      in `i32` (the code consumes them before it checks the parse). */
  function ConsumeLiteral(head: string): (r: Result<(Option<Literal>, string), TokenizeError>)
    ensures r.Ok? ==> |r.value.1| <= |head|
    ensures r.Ok? && r.value.0.Some? ==> |r.value.1| < |head|
  {
    if |head| == 0 then Ok((None, head))
    else if head[0] == '"' then
      var count := LeadingRun(head[1..], NotDoubleQuote);
      if count == 0 then Err(Panic("attempt to subtract with overflow"))
      else if count - 1 < 1 then Err(Panic("slice index starts at 1 but ends at 0"))
      else Ok((Some(StringLit(head[1..count - 1])), ConsumeStr(head, count)))
    else if head[0] == '\'' then
      if |head| < 2 then Err(Panic("called `Option::unwrap()` on a `None` value"))
      else if |head| < 3 then Err(Panic("assertion failed: context.head.len() >= count"))
      else Ok((Some(CharLit(head[1])), ConsumeStr(head, 3)))
    else if IsDigit(head[0]) then
      var count := LeadingRun(head, IsDigit);
      var value := DecimalValue(head[..count]);
      if value <= I32Max then Ok((Some(NumberLit(value)), ConsumeStr(head, count)))
      else Ok((None, ConsumeStr(head, count)))
    else Ok((None, head))
  }

  // ---------------------------------------------------------------------
  // The main loop

  /** One iteration of the loop body after whitespace was skipped. */
  function NextToken(head: string): (r: Result<(Token, string), TokenizeError>)
    ensures r.Ok? ==> r.value.0 != End
    ensures r.Ok? ==> |r.value.1| < |head|
  {
    match ConsumeAnyReserved(head)
    case Some(reserved) => Ok(reserved)
    case None =>
      match ConsumeIdentifier(head)
      case (Some(name), rest) => Ok((Identifier(name), rest))
      case (None, _) =>
        match ConsumeLiteral(head)
        case Err(e) => Err(e)
        case Ok((Some(literal), rest)) => Ok((Literal(literal), rest))
        case Ok((None, rest)) => Err(InvalidToken(rest))
  }

  /** The `loop` of `tokenize`, from the current head to the end. */
  function TokenizeFrom(head: string): (r: Result<seq<Token>, TokenizeError>)
    decreases |head|
    ensures |head| == 0 ==> r == Ok([End])
    ensures r.Ok? ==> |r.value| > 0 && r.value[|r.value| - 1] == End
  {
    if |head| == 0 then Ok([End])
    else
      match NextToken(SkipWhitespace(head))
      case Err(e) => Err(e)
      case Ok((token, rest)) =>
        match TokenizeFrom(rest)
        case Err(e) => Err(e)
        case Ok(tail) => Ok([token] + tail)
  }

  function Tokenize(source: string): (r: Result<seq<Token>, TokenizeError>)
    ensures |source| == 0 ==> r == Ok([End])
    ensures r.Ok? ==> |r.value| > 0 && r.value[|r.value| - 1] == End
  {
    TokenizeFrom(source)
  }
}

=== FILE: tokenizer_facts.dfy ===
/** Properties of the tokenizer that go beyond a single scanner: the order of
    the reserved-word chain, what the chain implies for whole inputs, the
    literal scanners, and whitespace handling. */
module TokenizerFacts {
  import opened Prelude
  import opened Tokenizer

  // ---------------------------------------------------------------------
  // Shape of the reserved-word tables

  /** The punctuators are listed longest first, so among the punctuators a
      head starts with, the chain reaches the longest one first. */
  lemma PunctuatorsLongestFirst(i: nat, j: nat)
    requires i <= j < |Punctuators|
    ensures |Punctuators[i].0| >= |Punctuators[j].0|
  {
    PunctuatorShape(i);
    PunctuatorShape(j);
  }

  /** No punctuator is a prefix of input that starts with a letter, a digit
      or `_`, nor of one that starts with a quote. */
  lemma NoPunctuatorBeforeWordOrLiteral(head: string)
    requires |head| > 0 && !IsSymbolStart(head[0])
    ensures forall i :: 0 <= i < |Punctuators| ==> !StartsWith(head, Punctuators[i].0)
  {
    forall i | 0 <= i < |Punctuators|
      ensures !StartsWith(head, Punctuators[i].0)
    {
      PunctuatorShape(i);
    }
  }

  /** No keyword is a prefix of input that does not start with a letter or
      `_`. */
  lemma NoKeywordBeforeNonWord(head: string)
    requires |head| > 0 && !IsIdentifierHead(head[0])
    ensures forall j :: 0 <= j < |Keywords| ==> !StartsWith(head, Keywords[j].0)
  {
    forall j | 0 <= j < |Keywords|
      ensures !StartsWith(head, Keywords[j].0)
    {
      KeywordShape(j);
    }
  }

  // ---------------------------------------------------------------------
  // The reserved-word chain

  /** The first entry of the chain that the head starts with decides the
      token, whatever follows the spelling: there is no check that a keyword
      ends at a word boundary. */
  lemma FirstReservedWins(head: string, k: nat)
    requires k < |ReservedWords| && StartsWith(head, ReservedWords[k].0)
    requires forall j :: 0 <= j < k ==> !StartsWith(head, ReservedWords[j].0)
    ensures NextToken(head) == Ok((ReservedWords[k].1, head[|ReservedWords[k].0|..]))
  {
    assert FirstReserved(head, ReservedWords, 0) == Some(k);
  }

  /** When no reserved spelling matches and the head starts a word, the token
      is the whole longest word. */
  lemma WordIsIdentifier(head: string)
    requires forall j :: 0 <= j < |ReservedWords| ==> !StartsWith(head, ReservedWords[j].0)
    requires CountIdentifierLength(head) > 0
    ensures var n := CountIdentifierLength(head);
            NextToken(head) == Ok((Identifier(head[..n]), head[n..]))
  {
    assert FirstReserved(head, ReservedWords, 0).None?;
  }

  /** Maximal munch: the punctuator a head yields is the longest punctuator
      spelling the head starts with. */
  lemma PunctuatorMaximalMunch(head: string)
    requires NextToken(head).Ok? && NextToken(head).value.0.Punctuator?
    ensures var (token, rest) := NextToken(head).value;
            |rest| <= |head| && (head[..|head| - |rest|], token) in Punctuators
    ensures var rest := NextToken(head).value.1;
            forall i :: 0 <= i < |Punctuators| && StartsWith(head, Punctuators[i].0) ==>
              |Punctuators[i].0| <= |head| - |rest|
  {
    var r := FirstReserved(head, ReservedWords, 0);
    assert r.Some?;
    var k := r.value;
    assert k < |Punctuators| by {
      if k >= |Punctuators| {
        KeywordShape(k - |Punctuators|);
      }
    }
    assert ReservedWords[k] == Punctuators[k];
    var (token, rest) := NextToken(head).value;
    assert head[..|head| - |rest|] == Punctuators[k].0;
    forall i | 0 <= i < |Punctuators| && StartsWith(head, Punctuators[i].0)
      ensures |Punctuators[i].0| <= |head| - |rest|
    {
      assert ReservedWords[i] == Punctuators[i];
      PunctuatorsLongestFirst(k, i);
    }
  }

  /** `do` comes before `double` in the chain and is a prefix of it, so the
      `Double` keyword is never produced. */
  lemma KeywordDoubleNeverProduced(head: string)
    ensures NextToken(head).Ok? ==> NextToken(head).value.0 != Keyword(Double)
  {
    var r := FirstReserved(head, ReservedWords, 0);
    assert ReservedWords[|Punctuators| + 7] == ("do", Keyword(Do));
    if r.Some? {
      var k := r.value;
      if k < |Punctuators| {
        PunctuatorShape(k);
        assert ReservedWords[k] == Punctuators[k];
      } else {
        KeywordShape(k - |Punctuators|);
      }
    }
  }

  // ---------------------------------------------------------------------
  // Literals

  /** A number token is the maximal run of digits; a run whose value does
      not fit in `i32` ends tokenizing with the input after the digits. */
  lemma NumberToken(head: string)
    requires |head| > 0 && IsDigit(head[0])
    ensures var n := LeadingRun(head, IsDigit);
            var value := DecimalValue(head[..n]);
            NextToken(head) ==
              if value <= I32Max then Ok((Literal(NumberLit(value)), head[n..]))
              else Err(InvalidToken(head[n..]))
  {
    NothingReservedBeforeLiteral(head);
    assert head[0] != '"' && head[0] != '\'';
  }

  /** A character literal is the character after the quote; the character
      after that is skipped without being checked to be the closing quote. */
  lemma CharToken(head: string)
    requires |head| >= 3 && head[0] == '\''
    ensures NextToken(head) == Ok((Literal(CharLit(head[1])), head[3..]))
  {
    NothingReservedBeforeLiteral(head);
  }

  /** A string literal of `count` characters before the closing quote yields
      the characters at positions 1 to `count - 2` of the head, and the
      input resumes at position `count`, the last character before the
      closing quote.  Fewer than two characters make the program abort. */
  lemma StringToken(head: string)
    requires |head| > 0 && head[0] == '"'
    ensures var count := LeadingRun(head[1..], NotDoubleQuote);
            if count < 2 then NextToken(head).Err? && NextToken(head).error.Panic?
            else NextToken(head) == Ok((Literal(StringLit(head[1..count - 1])), head[count..]))
  {
    NothingReservedBeforeLiteral(head);
  }

  /** Nothing in the reserved-word chain starts with a digit or a quote. */
  lemma NothingReservedBeforeLiteral(head: string)
    requires |head| > 0 && !IsSymbolStart(head[0]) && !IsIdentifierHead(head[0])
    ensures ConsumeAnyReserved(head).None?
  {
    NoPunctuatorBeforeWordOrLiteral(head);
    NoKeywordBeforeNonWord(head);
  }

  function Pow10(n: nat): (p: nat)
    ensures p >= 1
  {
    if n == 0 then 1 else 10 * Pow10(n - 1)
  }

  /** `n` decimal digits denote less than `10^n`. */
  lemma {:induction false} DecimalValueBound(digits: string)
    requires forall k :: 0 <= k < |digits| ==> IsDigit(digits[k])
    ensures DecimalValue(digits) < Pow10(|digits|)
  {
    if |digits| > 0 {
      DecimalValueBound(digits[..|digits| - 1]);
    }
  }

  /** So a run of at most nine digits always becomes a number token. */
  lemma ShortNumbersFit(digits: string)
    requires forall k :: 0 <= k < |digits| ==> IsDigit(digits[k])
    requires |digits| <= 9
    ensures DecimalValue(digits) <= I32Max
  {
    DecimalValueBound(digits);
    PowMonotone(|digits|, 9);
  }

  lemma {:induction false} PowMonotone(m: nat, n: nat)
    requires m <= n
    ensures Pow10(m) <= Pow10(n)
  {
    if m < n {
      PowMonotone(m, n - 1);
    }
  }

  /** Leading zeros do not change the value of a digit run. */
  lemma {:induction false} LeadingZeroIgnored(digits: string)
    requires forall k :: 0 <= k < |digits| ==> IsDigit(digits[k])
    ensures DecimalValue("0" + digits) == DecimalValue(digits)
  {
    if |digits| > 0 {
      var init := digits[..|digits| - 1];
      assert ("0" + digits)[..|digits|] == "0" + init;
      LeadingZeroIgnored(init);
    }
  }

  // ---------------------------------------------------------------------
  // Whitespace

  /** A head holding nothing but whitespace is skipped to the empty head,
      which matches no scanner: the input is rejected. */
  lemma WhitespaceOnlyHeadFails(head: string)
    requires |head| > 0
    requires forall k :: 0 <= k < |head| ==> IsWhitespace(head[k])
    ensures TokenizeFrom(head) == Err(InvalidToken(""))
  {
    SkipsAllWhitespace(head);
    EmptyHeadInvalid();
    hide NextToken, SkipWhitespace;
  }

  lemma SkipsAllWhitespace(head: string)
    requires forall k :: 0 <= k < |head| ==> IsWhitespace(head[k])
    ensures SkipWhitespace(head) == ""
  {
  }

  /** The empty head matches no scanner. */
  lemma EmptyHeadInvalid()
    ensures NextToken("") == Err(InvalidToken(""))
  {
    assert ConsumeAnyReserved("").None? by {
      hide ConsumeAnyReserved;
    }
  }

  /** Whitespace before a token does not change the result. */
  lemma LeadingWhitespaceIgnored(ws: string, s: string)
    requires forall k :: 0 <= k < |ws| ==> IsWhitespace(ws[k])
    requires |s| > 0 && !IsWhitespace(s[0])
    ensures Tokenize(ws + s) == Tokenize(s)
  {
    assert (ws + s)[|ws|] == s[0];
    assert SkipWhitespace(ws + s) == s;
    assert SkipWhitespace(s) == s;
  }

  // ---------------------------------------------------------------------
  // Whole inputs

  /** No iteration of the loop produces `End`: it is only ever the last
      token. */
  lemma {:induction false} EndOnlyLast(head: string)
    decreases |head|
    ensures TokenizeFrom(head).Ok? ==> End !in TokenizeFrom(head).value[..|TokenizeFrom(head).value| - 1]
  {
    hide NextToken, SkipWhitespace;
    if |head| > 0 {
      var next := NextToken(SkipWhitespace(head));
      if next.Ok? {
        var (token, rest) := next.value;
        EndOnlyLast(rest);
        var tail := TokenizeFrom(rest);
        if tail.Ok? {
          assert ([token] + tail.value)[..|tail.value|] == [token] + tail.value[..|tail.value| - 1];
        }
      }
    }
  }

  /** Helper: one step of the loop, seen from outside. */
  lemma TokenThenRest(head: string, token: Token, rest: string)
    requires |head| > 0 && !IsWhitespace(head[0])
    requires NextToken(head) == Ok((token, rest))
    requires TokenizeFrom(rest).Ok?
    ensures TokenizeFrom(head) == Ok([token] + TokenizeFrom(rest).value)
    ensures rest == "" ==> TokenizeFrom(head) == Ok([token, End])
  {
    assert [token] + [End] == [token, End];
    assert SkipWhitespace(head) == head;
    hide NextToken;
  }

  /** The entries from `lo` to `hi` of `table` each differ from the head in
      one of its first two characters. */
  predicate DiffersEarly(head: string, table: seq<ReservedEntry>, lo: nat, hi: nat)
    requires lo <= hi <= |table| && |head| >= 2
  {
    forall j :: lo <= j < hi ==>
      |table[j].0| > 0 &&
      (table[j].0[0] != head[0] || (|table[j].0| >= 2 && table[j].0[1] != head[1]))
  }

  /** Helper: such entries are not prefixes of the head. */
  lemma NoEntryMatchesIn(head: string, table: seq<ReservedEntry>, lo: nat, hi: nat)
    requires lo <= hi <= |table| && |head| >= 2
    requires DiffersEarly(head, table, lo, hi)
    ensures forall j :: lo <= j < hi ==> !StartsWith(head, table[j].0)
  {
    forall j | lo <= j < hi
      ensures !StartsWith(head, table[j].0)
    {
      PrefixAgreesOnFirstTwo(head, table[j].0);
    }
  }

  lemma PrefixAgreesOnFirstTwo(head: string, w: string)
    ensures StartsWith(head, w) && |w| >= 1 ==> w[0] == head[0]
    ensures StartsWith(head, w) && |w| >= 2 ==> w[1] == head[1]
  {
  }

  lemma LongestPunctuatorExample()
    ensures Tokenize("<<=") == Ok([Punctuator(DoubleLessThansEqual), End])
  {
    var head := "<<=";
    assert ReservedWords[2] == ("<<=", Punctuator(DoubleLessThansEqual));
    forall j | 0 <= j < 2
      ensures !StartsWith(head, ReservedWords[j].0)
    {
      assert ReservedWords[j].0[0] != '<';
    }
    FirstReservedWins(head, 2);
    TokenThenRest(head, Punctuator(DoubleLessThansEqual), "");
  }

  lemma DigraphExample()
    ensures Tokenize("%:%:") == Ok([Punctuator(DoublePercentColons), End])
  {
    assert ReservedWords[0] == ("%:%:", Punctuator(DoublePercentColons));
    FirstReservedWins("%:%:", 0);
    TokenThenRest("%:%:", Punctuator(DoublePercentColons), "");
  }

  /** "double" is the keyword `do` followed by the identifier "uble". */
  lemma DoubleExample()
    ensures Tokenize("double") == Ok([Keyword(Do), Identifier("uble"), End])
  {
    hide NextToken, TokenizeFrom;
    DoStartsDouble();
    UbleIsIdentifier();
    TokenThenRest("uble", Identifier("uble"), "");
    TokenThenRest("double", Keyword(Do), "uble");
    assert [Keyword(Do)] + [Identifier("uble"), End] == [Keyword(Do), Identifier("uble"), End];
  }

  /** "integer" is the keyword `int` followed by the identifier "eger": no
      keyword match checks that the word ends there. */
  lemma IntegerExample()
    ensures Tokenize("integer") == Ok([Keyword(Int), Identifier("eger"), End])
  {
    hide NextToken, TokenizeFrom;
    IntStartsInteger();
    EgerIsIdentifier();
    TokenThenRest("eger", Identifier("eger"), "");
    TokenThenRest("integer", Keyword(Int), "eger");
    assert [Keyword(Int)] + [Identifier("eger"), End] == [Keyword(Int), Identifier("eger"), End];
  }

  lemma IntStartsInteger()
    ensures NextToken("integer") == Ok((Keyword(Int), "eger"))
  {
    var head := "integer";
    NoPunctuatorBeforeWordOrLiteral(head);
    NoEntryMatchesIn(head, KeywordsAutoToLong, 0, 16);
    assert !StartsWith(head, KeywordsAutoToLong[16].0) by {
      assert KeywordsAutoToLong[16].0 == "inline";
      assert head[2] != "inline"[2];
    }
    assert Keywords[17] == ("int", Keyword(Int));
    forall j | 0 <= j < |Punctuators| + 17
      ensures !StartsWith(head, ReservedWords[j].0)
    {
      if j < |Punctuators| {
        assert ReservedWords[j] == Punctuators[j];
      } else {
        assert ReservedWords[j] == Keywords[j - |Punctuators|];
        assert Keywords[j - |Punctuators|] == KeywordsAutoToLong[j - |Punctuators|];
      }
    }
    FirstReservedWins(head, |Punctuators| + 17);
  }

  lemma EgerIsIdentifier()
    ensures NextToken("eger") == Ok((Identifier("eger"), ""))
  {
    var head := "eger";
    NotReserved(head);
    WholeWord(head);
    assert head[..4] == "eger" && head[4..] == "";
    WordIsIdentifier(head);
  }

  lemma DoStartsDouble()
    ensures NextToken("double") == Ok((Keyword(Do), "uble"))
  {
    var head := "double";
    NoPunctuatorBeforeWordOrLiteral(head);
    NoEntryMatchesIn(head, KeywordsAutoToLong, 0, 7);
    assert Keywords[7] == ("do", Keyword(Do));
    forall j | 0 <= j < |Punctuators| + 7
      ensures !StartsWith(head, ReservedWords[j].0)
    {
      if j < |Punctuators| {
        assert ReservedWords[j] == Punctuators[j];
      } else {
        assert ReservedWords[j] == Keywords[j - |Punctuators|];
      }
    }
    FirstReservedWins(head, |Punctuators| + 7);
  }

  lemma UbleIsIdentifier()
    ensures NextToken("uble") == Ok((Identifier("uble"), ""))
  {
    var head := "uble";
    NotReserved(head);
    WholeWord(head);
    assert head[..4] == "uble" && head[4..] == "";
    WordIsIdentifier(head);
  }

  /** A head that is one word is identified whole. */
  lemma WholeWord(w: string)
    requires |w| > 0 && IsIdentifierHead(w[0])
    requires forall k :: 0 <= k < |w| ==> IsIdentifierBody(w[k])
    ensures CountIdentifierLength(w) == |w|
  {
  }

  /** Helper: a word that differs early from every keyword is not
      reserved. */
  lemma NotReserved(head: string)
    requires |head| >= 2 && IsIdentifierHead(head[0])
    requires DiffersEarly(head, KeywordsAutoToLong, 0, |KeywordsAutoToLong|)
    requires DiffersEarly(head, KeywordsRegisterToWhile, 0, |KeywordsRegisterToWhile|)
    requires DiffersEarly(head, UnderscoreKeywords, 0, |UnderscoreKeywords|)
    ensures forall j :: 0 <= j < |ReservedWords| ==> !StartsWith(head, ReservedWords[j].0)
  {
    NoPunctuatorBeforeWordOrLiteral(head);
    NoEntryMatchesIn(head, KeywordsAutoToLong, 0, |KeywordsAutoToLong|);
    NoEntryMatchesIn(head, KeywordsRegisterToWhile, 0, |KeywordsRegisterToWhile|);
    NoEntryMatchesIn(head, UnderscoreKeywords, 0, |UnderscoreKeywords|);
    forall j | 0 <= j < |ReservedWords|
      ensures !StartsWith(head, ReservedWords[j].0)
    {
      if j < |Punctuators| {
        assert ReservedWords[j] == Punctuators[j];
      } else if j < |Punctuators| + 19 {
        assert ReservedWords[j] == KeywordsAutoToLong[j - |Punctuators|];
      } else if j < |Punctuators| + 34 {
        assert ReservedWords[j] == KeywordsRegisterToWhile[j - |Punctuators| - 19];
      } else {
        assert ReservedWords[j] == UnderscoreKeywords[j - |Punctuators| - 34];
      }
    }
  }
}

=== FILE: util.dfy ===
/** The small container helpers of `src/util.rs`: a vector that is never
    empty, its conversions to and from plain vectors, and the two
    sum types the declaration syntax tree is built from.

    A Rust `Vec<T>` is a `seq<T>` here.  `NonEmptyVec` keeps its elements in
    a field `body`; the one invariant the Rust type is meant to keep is that
    `body` is never empty, which `Valid` names and every constructor below
    establishes. */
module Util {
  import opened Prelude

  datatype NonEmptyVec<T> = NonEmptyVec(body: seq<T>) {
    predicate Valid() {
      |body| > 0
    }

    function Length(): nat {
      |body|
    }
  }

  /** `NonEmptyVec::new`: the vector holding just `necessary`. */
  function New<T>(necessary: T): (v: NonEmptyVec<T>)
    ensures v.Valid() && v.Length() == 1
    ensures Index(v, 0) == necessary
  {
    NonEmptyVec([necessary])
  }

  /** `From<Vec<T>>`: the Rust code asserts that `from` is not empty. */
  function FromVec<T>(from: seq<T>): (v: NonEmptyVec<T>)
    requires |from| > 0
    ensures v.Valid() && Unwrap(v) == from
  {
    NonEmptyVec(from)
  }

  /** `unwrap`: hands out the elements, in order. */
  function Unwrap<T>(v: NonEmptyVec<T>): (s: seq<T>)
    ensures |s| == v.Length()
    ensures forall i :: 0 <= i < |s| ==> s[i] == Index(v, i)
  {
    v.body
  }

  /** `Index`, `Deref` and `AsRef`: element `i` of the body. */
  function Index<T>(v: NonEmptyVec<T>, i: nat): T
    requires i < v.Length()
  {
    v.body[i]
  }

  /** `IndexMut`/`DerefMut`/`AsMut`: the vector with element `i` replaced. */
  function Update<T>(v: NonEmptyVec<T>, i: nat, x: T): (w: NonEmptyVec<T>)
    requires i < v.Length()
    ensures w.Length() == v.Length() && (v.Valid() ==> w.Valid())
    ensures Index(w, i) == x
    ensures forall j :: 0 <= j < v.Length() && j != i ==> Index(w, j) == Index(v, j)
  {
    NonEmptyVec(v.body[i := x])
  }

  /** `Extend`: appends `items` after the existing elements. */
  function Extend<T>(v: NonEmptyVec<T>, items: seq<T>): (w: NonEmptyVec<T>)
    ensures v.Valid() ==> w.Valid()
    ensures w.Length() == v.Length() + |items|
    ensures forall i :: 0 <= i < v.Length() ==> Index(w, i) == Index(v, i)
    ensures forall j :: 0 <= j < |items| ==> Index(w, v.Length() + j) == items[j]
  {
    NonEmptyVec(v.body + items)
  }

  /** `vec_to_optional_non_empty_vec`: `None` exactly for the empty vector. */
  function VecToOptionalNonEmptyVec<T>(from: seq<T>): (r: Option<NonEmptyVec<T>>)
    ensures r.None? <==> |from| == 0
    ensures r.Some? ==> r.value.Valid() && Unwrap(r.value) == from
  {
    if |from| == 0 then None else Some(FromVec(from))
  }

  /** `optional_non_empty_vec_to_vec`: `None` becomes the empty vector. */
  function OptionalNonEmptyVecToVec<T>(from: Option<NonEmptyVec<T>>): (s: seq<T>)
    ensures from.None? ==> s == []
    ensures from.Some? ==> s == Unwrap(from.value)
    ensures from.Some? && from.value.Valid() ==> |s| > 0
  {
    match from
    case Some(v) => v.body
    case None => []
  }

  /** Converting a vector to the optional form and back gives the vector. */
  lemma VecRoundTrip<T>(from: seq<T>)
    ensures OptionalNonEmptyVecToVec(VecToOptionalNonEmptyVec(from)) == from
  {
  }

  /** ...and converting a well-formed optional vector to a plain one and back
      gives it again, so the two helpers are inverse bijections between
      vectors and `Option<NonEmptyVec>`. */
  lemma OptionRoundTrip<T>(from: Option<NonEmptyVec<T>>)
    requires from.Some? ==> from.value.Valid()
    ensures VecToOptionalNonEmptyVec(OptionalNonEmptyVecToVec(from)) == from
  {
  }

  /** Extending twice is extending once by the concatenation. */
  lemma ExtendTwice<T>(v: NonEmptyVec<T>, a: seq<T>, b: seq<T>)
    ensures Extend(Extend(v, a), b) == Extend(v, a + b)
  {
    assert v.body + a + b == v.body + (a + b);
  }

  datatype EitherOrBoth<L, R> = Both(left: L, right: R) | Left(left: L) | Right(right: R)

  datatype Either<L, R> = Left(left: L) | Right(right: R)
}
